=== FILE: README.md ===
# error_gen, modelled in Dafny

`error_gen` is a Rust attribute macro. Put on a struct or an enum, `#[error(...)]` keeps the item and adds:

- `#[derive(Debug)]` and an empty `std::error::Error` implementation;
- a `Display` implementation built from `message` templates;
- `From` conversions requested with `impl_from`.

Under the token plumbing sit small, sequential decision procedures. This project models them as pure functions over immutable datatypes and proves what they guarantee. The crate's sources hold two revisions of the same logic, and each is modelled over the same datatypes:

- **Syntax** (`syntax.dfy`): the slice of Rust syntax the macro reads and writes.
  - Inputs: field shapes, attributes and their arguments.
  - Outputs: `write!` calls, match patterns and `From` implementations.
  - Expressions and types the macro copies unread are opaque strings.
- **Parameters** (`parameters.dfy`): `name` and `name = literal` entries become a name→(string | bool) map.
  - Lookups are typed.
  - Every panic of the source (a literal in the list, a nested list, a non-identifier path, an unsupported literal, a type-mismatched lookup) is a `Failure`.
- **Validator** (`validator.dfy`): the allow-lists of parameter names, the unknown-name check and the `impl_from` conflict check.
- **Enum entry** (`enum_error.dfy`): how each variant loses its first `error` attribute and keeps its parameters.
- **Free-form template compiler** (`write.dfy`, `write_revised.dfy`): the brace scanner of both `WriteImplementor` revisions.
  - `"x {expr} y"` becomes `"x {} y"` plus the expressions, in order.
  - The scanner is proved against independent reference definitions: brace depth, kept characters and closed spans.
  - Splicing the expressions back gives the message again (the round trip).
- **Field-placeholder compiler** (`placeholders.dfy`, `field_placeholders.dfy`, `impl_display.dfy`, `struct_error.dfy`):
  - the renumbering of `{i}` placeholders for tuple structs;
  - the selection of named fields;
  - the match arms of the first enum revision.
  - A rendering function (`Interp`) shows that the textual rewritings print the same text as the original template, as `Interp` reads it. `Interp` reads a placeholder `{w}` as an opening brace followed by non-empty, brace-free text up to the first closing brace, and prints the valuation's text for `w` in its place; it does not read `{{`/`}}` escapes, `{}` or `:spec` the way Rust does. On messages without those it is exactly Rust's reading (`FormatStrings.InterpIsRender`).
- **Format syntax** (`format_strings.dfy`): Rust's `std::fmt` syntax, as the generated `write!` calls read their message.
  - A message parses into literal characters (`{{` and `}}` giving braces) and holes `{arg}` or `{arg:spec}`; an unmatched brace is rejected.
  - Parsing and writing back are proved inverse in both directions.
  - Rendering prints each hole's argument under its specification, `{}` taking the next implicit position.
  - The tuple-struct renumbering is modelled twice: as the source writes it, on the text (`Renumber`), and on the holes of this syntax (`RenumberFormat`), which the generated `Display` uses (see Findings).
  - On messages whose placeholders are all bare `{w}` (no brace escape, no `{}`, no specification), the two renumberings are proved equal, so there the generated call is the source's.
- **Enum `Display` decision** (`display_enum.dfy`, `impl_display.dfy`, `enums_display.dfy`, `match_arm.dfy`): whether `Display` is generated, which of `MissingMessages` and `UnnecessaryDefaultMessage` is reported, which arms appear, and when the default arm appears.
- **Conversions** (`conversions.dfy`, `from_structs.dfy`, `from_enums.dfy`, `impl_from.dfy`): the `impl_from` flag gate, the one-field rule and the error aggregation of both revisions. A lemma shows that the two enum revisions agree.
- **Variant structs** (`variant_struct.dfy`): the struct generated for a variant, whose fields borrow the variant's fields for `'a`.

Conventions of the model:

- A Rust panic is a `Failure`, and the first one raised wins, as in the source's lazy iterator chains.
- A `HashMap` collect keeps the last entry per name.
- `HashMap` iteration order is a parameter (`Validator.NameOrder`) that lists every key once, because the program does not rely on it.
- src/impl_display.rs:142-152, src/impl_display/enums.rs:66-76, src/validator.rs:34 and src/enum_error.rs:58 call `has_parameter`, `name_iter` and `is_empty` on `Parameters`, which src/parameters.rs does not define. They are modelled as the obvious queries on the map's key set.
- src/struct_error.rs calls `create_named_write_parameters` without defining it. It is modelled by the function of that name in src/impl_display.rs.
- src/impl_from/structs.rs reports `StructNotExactlyOneField(name)`, which src/impl_from/mod.rs:21-27 does not declare. It is modelled as the declared `NotExactlyOneField` on the failed struct, `NotExactlyOneField(StructItem(name))`.

## Model

| member | source | states |
|---|---|---|
| Parameters.PathToName | src/common.rs:4-6 | a name is produced exactly when the path has a single segment, and it is that segment |
| Parameters.LitValueFrom | src/parameters.rs:100-107 | a string literal gives `String(s)` and a bool literal `Boolean(b)`; every other literal kind fails with `UnexpectedLiteralValue` |
| Parameters.LitValueRoundTrip | src/parameters.rs:100-107 | converting a value back to its literal and reading it again gives the value |
| Parameters.MetaToNameValue | src/parameters.rs:49-63 | succeeds exactly for a well-formed entry (single-segment path; a bare name or a string/bool value); a bare name maps to `true`; a nested list fails |
| Parameters.MetaRoundTrip | src/parameters.rs:49-63 | a name/value pair written as an entry parses back to the same pair |
| Parameters.FromNestedMetas | src/parameters.rs:32-44 | parsing succeeds exactly when every entry is well formed; a bare literal is rejected |
| Parameters.ParsedKeys | src/parameters.rs:34-43 | after parsing, a name is a key exactly when some entry carries it |
| Parameters.ParsedValues | src/parameters.rs:34-43 | with duplicate names, the value of the last entry with that name is kept |
| Parameters.FirstRejection | src/parameters.rs:34-41 | a failed parse reports the error of the first malformed entry |
| Parameters.FromAttribute | src/parameters.rs:19-26 | an attribute that is not a list fails with `ExpectedMetaList`; a list is parsed entry by entry |
| Parameters.FromAttributeArgs | src/parameters.rs:28-30 | the macro's own arguments parse exactly when each is well formed |
| Parameters.BoolForName | src/parameters.rs:67-69 | a stored flag reads as itself; an absent name is `false`; the lookup fails exactly on a string value, with `ExpectedBoolean` |
| Parameters.StringForName | src/parameters.rs:71-73 | a stored string reads as `Some` of itself; an absent name is `None`; the lookup fails exactly on a boolean value, with `ExpectedString` |
| Parameters.LookupAfterParse | src/parameters.rs:49-73 | after parsing, the last entry of a name decides both lookups: a bare name reads `true`, `name = b` reads `b`, `name = "s"` reads `Some(s)` and makes the bool lookup fail |
| Parameters.AbsentAfterParse | src/parameters.rs:65-73 | a name no entry carries reads as `false` and as `None` |
| Validator.UnknownParameters | src/validator.rs:33-40 | one `UnknownParameter` for exactly the names outside the allow-list |
| Validator.UnknownParametersDistinct | src/validator.rs:33-40 | distinct names give distinct reports |
| Validator.CheckParameters | src/validator.rs:33-40 | earlier errors stay as they were; the appended errors are exactly the unknown keys, each once |
| Validator.CheckStructParameters | src/validator.rs:11-24 | for a struct, exactly the names other than `message` are reported, and only as unknown parameters |
| Validator.CheckEnumParameters | src/validator.rs:12-30 | for an enum or variant, exactly the names other than `impl_from` and `message` are reported |
| Validator.CheckImplFrom | src/validator.rs:42-46 | `UnnecessaryImplFrom(variant)` is appended exactly when both the enum and the variant set `impl_from` to true; otherwise nothing changes; the variant's flag is read only when the enum's is set |
| EnumError.IsErrorAttribute | src/enum_error.rs:74-76 | an attribute is `error` exactly when its path is the single identifier `error`; any other path shape fails the name lookup |
| EnumError.FindError | src/enum_error.rs:63-70 | the search finds the first `error` attribute after only passing over non-`error` ones; it fails exactly when a non-identifier path comes first |
| EnumError.ExtractErrorAttribute | src/enum_error.rs:63-72 | with no `error` attribute the list is unchanged; otherwise exactly the first one is removed and the others keep their order |
| EnumError.ToVariantWithParameters | src/enum_error.rs:54-61 | the first `error` attribute is removed whether or not its parameters are empty, and the variant is paired with that attribute's parameters exactly when they are non-empty; a malformed `error` attribute fails with its parse error; a non-identifier path before it fails with `PathNotIdentifier`; a variant without an `error` attribute is unchanged and unpaired; name, fields and the other attributes' order are kept |
| EnumError.CollectVariants | src/enum_error.rs:20-23 | succeeds exactly when every variant's extraction does; then the cleaned variants are each variant's extraction, in declaration order |
| EnumError.CollectedPairsSound | src/enum_error.rs:20-23 | every collected pair comes from a variant with non-empty parameters |
| EnumError.CollectedPairsComplete | src/enum_error.rs:20-23 | every variant with non-empty parameters is collected |
| EnumError.CollectedPairsOrdered | src/enum_error.rs:20-23 | the collected pairs keep the declaration order |
| Write.Filter | src/impl_display/write.rs:44-102 | every filter step keeps the scanner valid: it collects exactly when depth ≥ 1, the partial expression holds depth − 1 open braces, and finished expressions are balanced, so `decrease_depth` never underflows |
| Write.Scan | src/impl_display/write.rs:26-38 | the state after any prefix of the message is valid |
| Write.ScanCorrect | src/impl_display/write.rs:26-102 | the scanner's depth is the brace depth, its format string is exactly the characters read at depth 0 plus each span's closing brace, it has one expression per span closed at depth 1, and its pieces reassemble the text read |
| Write.Implement | src/impl_display/write.rs:26-42 | the format keeps exactly those characters; there is one balanced expression per closed span; for a balanced message, splicing the expressions into the `{}` slots gives the message back; an unclosed `{` is kept and everything after it is lost |
| Write.PlainMessage | src/impl_display/write.rs:29-36 | a message without `{` is returned unchanged, with no expressions |
| Write.ScanText | src/impl_display/write.rs:58-72 | outside a span, text without `{` is copied and leaves the state unchanged, so a stray `}` is kept |
| Write.ScanInside | src/impl_display/write.rs:44-70 | inside a span, text that does not close it (nested braces included) is appended to the expression and never reaches the format string |
| Write.ScanSpan | src/impl_display/write.rs:51-63 | a balanced span met at depth 0 leaves `{}` in the format string and appends exactly its inner text as one expression |
| Write.ComplexStuffExample | src/impl_display/write.rs:120-126 | the source's example gives `"some complex stuff: {}, {}"` with `e.foo()` then `if b {42} else {43}` |
| Write.BlockExpressionExample | src/impl_display/write.rs:128-134 | `{{…}}` gives one expression that includes the inner braces |
| WriteRevised.Implement | src/impl_display_new/write_implementor.rs:12-39 | an implementor freshly built by `new` from a message (message stored, nothing scanned) yields exactly the call `Write.Implement(message)` of the first revision, so it has the same format string, expressions and round trip |
| Placeholders.DigitsRoundTrip | src/impl_display.rs:60-62 | the decimal text of an index reads back as that index |
| Placeholders.ReplaceContains | src/impl_display.rs:60-62 | replacing `{a}` by `{b}` removes `{a}` and leaves every other placeholder except `{b}` present exactly when it was before |
| Placeholders.ReplaceIntroduces | src/impl_display.rs:60-62 | replacing a placeholder that occurs puts the replacement in the result |
| Placeholders.ReplaceAbsent | src/impl_display.rs:60-66 | replacing a placeholder that does not occur changes nothing |
| Placeholders.InterpReplace | src/impl_display.rs:60-62 | renaming a placeholder and renaming the argument it shows prints the same text |
| FieldPlaceholders.Referenced | src/impl_display.rs:55-71 | the indices below the field count whose `{i}` occurs, each one, ascending |
| FieldPlaceholders.Renumber | src/impl_display.rs:55-71 | every field is either passed or skipped: `ignored` plus the passed fields is the field count |
| FieldPlaceholders.Visit | src/impl_display.rs:59-69 | one iteration counts field `i` as passed or skipped; the fields before `i` were counted already, so `i - ignored` never goes below zero |
| FieldPlaceholders.RenumberDense | src/impl_display.rs:55-71 | the passed fields are exactly those the original message uses, ascending; each used `{i}` ends up as its rank, so the placeholders below the field count are exactly `{0}`…`{k-1}`; placeholders past the field count are as in the original |
| FieldPlaceholders.DenseStep | src/impl_display.rs:59-69 | one iteration passes field `i` exactly when the original message uses `{i}`, keeps the visited placeholders dense and leaves the later ones as the original has them |
| FieldPlaceholders.VisitRenders | src/impl_display.rs:62-65 | one iteration prints what the message before it printed |
| FieldPlaceholders.RenumberStep | src/impl_display.rs:60-62 | one replacement keeps the placeholders seen so far dense and leaves the later ones as they were |
| FieldPlaceholders.RenumberRenders | src/impl_display.rs:55-71 | the renumbered message with the passed fields prints what the original message prints with `{i}` showing field `i` |
| FieldPlaceholders.SpecifiedPlaceholderMisnumbered | src/impl_display.rs:55-71 | as written, `"{1} {0:?}"` on two fields becomes `"{0} {0:?}"` passing only field 1: Rust prints `1 0:?` for the message but `1 1:?` for the generated call |
| FieldPlaceholders.EscapedPlaceholderPassed | src/impl_display.rs:55-71 | as written, the escape `"{{1}}"` on two fields becomes `"{{0}}"` passing field 1, and neither text holds a hole, so the passed field is never used |
| FieldPlaceholders.Explicit | src/impl_display.rs:55-71 | every `{}` gets the position it takes, keeping its specification; characters and numbered or named holes are kept; the result has no implicit hole |
| FieldPlaceholders.ExplicitRenders | src/impl_display.rs:55-71 | numbering the implicit holes changes nothing Rust prints |
| FieldPlaceholders.Taken | src/impl_display.rs:55-71 | exactly the positions below the field count that some hole takes by number, ascending |
| FieldPlaceholders.TakenRank | src/impl_display.rs:59-65 | a taken position `i` sits in the list of taken positions at index `i - ignored`, the number of taken positions below it |
| FieldPlaceholders.RenamesRenders | src/impl_display.rs:55-71 | renumbering the holes to their ranks and passing the taken positions in order prints what the original pieces print |
| FieldPlaceholders.RenamesTaken | src/impl_display.rs:55-71 | after renumbering, the holes below the field count take exactly `0`…`k-1`, and those from the field count on are as they were |
| FieldPlaceholders.RenumberFormat | src/impl_display.rs:55-71 | defined exactly for messages Rust can read; every field is passed or skipped; the passed fields are exactly the positions some hole takes (`{i}`, `{i:spec}` or `{}`), ascending |
| FieldPlaceholders.RenumberFormatRenders | src/impl_display.rs:55-80 | the renumbered message with the passed fields prints what Rust prints for the original message with position `i` showing field `i` |
| FieldPlaceholders.RenumberOnPieces | src/impl_display.rs:59-68 | on a message of bare placeholders, the source's loop gives the text of the parsed holes renamed to their ranks, passes exactly the taken positions, and skips the rest |
| FieldPlaceholders.RenumberFormatAgrees | src/impl_display.rs:55-71 | on a message of bare placeholders, the renumbering on the holes is exactly the source's textual loop: same text, same fields, same skipped count |
| FormatStrings.ContainsHasArg | src/impl_display.rs:62 | in a message of bare pieces, the text `{a}` occurs exactly when some hole has the argument `a` |
| FormatStrings.ReplaceRenames | src/impl_display.rs:63 | in a message of bare pieces, replacing the text `{a}` by `{b}` renames exactly the holes with argument `a`, and nothing else changes |
| FieldPlaceholders.RenumberFormatTaken | src/impl_display.rs:55-71 | the renumbered message is readable; its holes below the field count take exactly `0`…`k-1`, so every passed field is shown and no hole points at a field that is not passed; holes from the field count on are as in the original |
| FormatStrings.UnparseParse | src/impl_display.rs:80 | the pieces read from a message write back as that message, and each reads back as itself |
| FormatStrings.ParseUnparse | src/impl_display.rs:80 | writable pieces written as a message read back as themselves |
| FormatStrings.InterpIsRender | src/impl_display.rs:80 | on a message without brace escapes, `{}` or format specifications, the bare-placeholder reading `Interp` prints exactly what Rust prints |
| FieldPlaceholders.UsedIdentifiers | src/impl_display.rs:364-375 | the field names whose `{name}` the message contains, in declaration order |
| FieldPlaceholders.UsedIdentifiersDistinct | src/impl_display.rs:364-375 | no field is selected twice |
| FieldPlaceholders.LettersContains | src/impl_display.rs:310-327 | after renaming to letters, no `{i}` of a field is left, and each used field's letter placeholder is present |
| FieldPlaceholders.LettersRender | src/impl_display.rs:310-327 | the renamed message prints what the original prints when `{i}` shows what field `i`'s letter binds |
| ImplDisplay.NamedWriteArgs | src/impl_display.rs:48-53 | `name = self.name` exactly for the fields the message names |
| ImplDisplay.TupleWriteCall | src/impl_display.rs:55-80 | `self.i` for exactly the positions `i` below the field count that the message's holes take (`{i}`, `{i:spec}` or `{}`), ascending; in the format the holes below the field count take exactly `0`…`k-1`; the message unchanged with no arguments when no field is taken |
| ImplDisplay.StructWriteCall | src/impl_display.rs:29-71 | unit: the message with no arguments; named: the message unchanged with the used fields; tuple: the tuple call's properties, for the struct's field count |
| ImplDisplay.StructWriteCallAgrees | src/impl_display.rs:55-71 | on a message of bare placeholders, the tuple struct's call is exactly the text and the `self.i` list that the source's contains/replace loop produces |
| ImplDisplay.StructWriteCallRenders | src/impl_display.rs:55-80 | the tuple struct's `write!` prints what Rust prints for the message with position `i` showing field `i`, and is rejected exactly when the message is |
| ImplDisplay.StructDisplay | src/impl_display.rs:29-46 | no `message` gives no implementation and no error; a boolean `message` fails; a string gives that struct's `write!` call |
| ImplDisplay.NamedPatternTokens | src/impl_display.rs:246-266 | `..` alone when no field is used; exactly the field list when all are used; otherwise the used fields and `, ..` |
| ImplDisplay.NamedArm | src/impl_display.rs:234-273 | the pattern is built that way, the message is kept, and the arguments are `x = x` for exactly the used fields |
| ImplDisplay.UnnamedArm | src/impl_display.rs:288-328 | one comma-separated slot per field, each a letter if used and `_` if not; the format is the renamed message; the arguments are the letters of the used fields in order; it fails exactly when a used field has no letter |
| ImplDisplay.CreateMatchArm | src/impl_display.rs:166-172 | each field shape gets its arm (a unit variant `E::V` with the message as it is and no argument); only a tuple variant without letters fails |
| ImplDisplay.CreateMatchArms | src/impl_display.rs:114-117 | one arm per variant with a message, in order |
| ImplDisplay.DefaultArm | src/impl_display.rs:197-202 | `_ => write!(f, message)` exactly when the enum sets a `message` string; nothing without one; a boolean `message` fails with `ExpectedString` |
| ImplDisplay.ImplementEnum | src/impl_display.rs:105-120 | no `Display` and no error exactly when neither the enum nor a variant sets a message; otherwise rejected exactly when the acceptance rule rejects, with its error (`MissingMessages` or `UnnecessaryDefaultMessage`); an accepted enum fails only on a letterless tuple arm or a boolean default, and otherwise has one arm per variant with a message and a default arm exactly when some variant lacks one |
| DisplayEnum.VariantsWithMessage | src/impl_display.rs:123-135 | exactly the variants with a `message` string, paired with it, in declaration order; a boolean `message` fails |
| DisplayEnum.Decide | src/impl_display.rs:141-163 | skip exactly when there is no default and no variant message; success exactly when "default present" ⇔ "some variant lacks a message"; otherwise `MissingMessages` (no default) or `UnnecessaryDefaultMessage` (default, all set) |
| DisplayEnum.EmptyEnumWithDefault | src/impl_display/enums.rs:73-87 | an enum with no variants and a default message is rejected as `UnnecessaryDefaultMessage` |
| EnumsDisplay.DefaultArm | src/impl_display/enums.rs:112-117 | a default arm exactly for an enum-level `message` string, built by `implement_default` |
| EnumsDisplay.Implement | src/impl_display/enums.rs:29-44 | rejected exactly when the first revision's acceptance rule rejects, with its error; an accepted enum fails only on a boolean default; arms in variant order built by `implement_for`, and never a letter failure |
| MatchArm.PositionalBindersDistinct | src/impl_display/match_arm_implementor.rs:51-66 | different tuple fields get different binders `_i` |
| MatchArm.ImplementDefault | src/impl_display/match_arm_implementor.rs:19-27 | `_ => { let e = self; … }` with the message compiled unchanged |
| MatchArm.ImplementFor | src/impl_display/match_arm_implementor.rs:29-76 | `e @ E::V` followed by every field name with a comma (named), `_0,` … `_{n-1},` (tuple), or nothing (unit); the message is compiled unchanged |
| Conversions.Convert | src/impl_from/enums.rs:57-106 | a conversion exists exactly for a shape with one field; it takes that field's type and builds `Path { f: val }` or `Path(val)` |
| FromStructs.Implement | src/impl_from/structs.rs:24-60 | without the flag nothing is generated for any shape; with it, one field gives the conversion and any other shape gives `NotExactlyOneField`; a string flag fails |
| FromEnums.ImplementForVariant | src/impl_from/enums.rs:57-63 | one field gives the conversion; otherwise `NotExactlyOneField` names the enum and the variant |
| FromEnums.VariantStep | src/impl_from/enums.rs:38-47 | neither flag contributes nothing; both flags give `ParameterOnEnumAndVariant` without checking arity; exactly one flag converts the variant |
| FromEnums.Steps | src/impl_from/enums.rs:35-49 | the steps succeed exactly when every variant's flag lookup does; then there is one step per variant, in order, each that variant's step |
| FromEnums.FoldCollectsAll | src/impl_from/enums.rs:35-49 | the fold collects every variant's error and every conversion, in variant order, and never stops at the first error |
| FromEnums.Implement | src/impl_from/enums.rs:32-55 | succeeds exactly when the enum's and every variant's `impl_from` read as flags; then conversions exactly when no variant failed, otherwise every error, with the conversions dropped |
| ImplFrom.AddVariant | src/impl_from.rs:27-38 | both flags record a usage error and do not add the variant; otherwise the variant is appended exactly when either flag is set; a variant without parameters counts as unflagged |
| ImplFrom.AddAll | src/impl_from.rs:27-38 | registering succeeds exactly when no variant's flag lookup fails |
| ImplFrom.ConvertVariant | src/impl_from.rs:47-96 | a unit variant fails with `UnitShape`; another shape without exactly one field fails with `NotOneField`; one field gives the conversion |
| ImplFrom.ConvertAll | src/impl_from.rs:45-52 | the candidates convert in insertion order exactly when each has one field |
| ImplFrom.FirstUnconvertible | src/impl_from.rs:45-52 | the failure is that of the first candidate without exactly one field |
| ImplFrom.ToFromImplementations | src/impl_from.rs:40-53 | any usage error aborts, with all of them, before any variant is converted |
| ImplFrom.RevisionsAgree | src/impl_from.rs:27-53 | the earlier generator succeeds exactly when the later one reports no error, and then both give the same conversions in the same order |
| ImplFrom.ToFromImplementation | src/impl_from.rs:108-155 | a unit struct fails; a struct without exactly one field fails; one field yields the conversion |
| ImplFrom.StructRevisionsAgree | src/impl_from.rs:108-155 | for a struct with the flag set, the earlier generator succeeds exactly when the later one implements a conversion, and then both give the same single conversion |
| StructError.Implement | src/struct_error.rs:11-42 | the struct is kept with its markers; malformed arguments fail; a boolean `message` fails; there is a `Display` call exactly when `message` is given |
| StructError.MessageArgument | src/struct_error.rs:29-41 | a `message = "…"` argument gives the `write!` call built from that text and the struct's fields |
| StructError.NoMessageArgument | src/struct_error.rs:29-33 | without `message` there is no `Display` implementation and no error |
| StructError.TupleDisplayRenders | src/struct_error.rs:44-60 | the generated tuple-struct `Display`, built with the corrected renumbering on the holes (not the loop as written, see Findings), prints what Rust prints for the message with position `i` showing field `i` |
| StructError.TupleMessageAsWritten | src/struct_error.rs:29-60 | on a tuple struct whose message uses bare placeholders only, the emitted `write!` is exactly the one the source's loop builds: the text as the loop leaves it and `self.i` for each field it passes |
| VariantStruct.TypeIdent | src/impl_display_new/variant_struct_implementor.rs:97-106 | the last path segment behind any references; any other type form fails |
| VariantStruct.EnumGenerics | src/impl_display_new/variant_struct_implementor.rs:86-94 | exactly the enum's type parameters, without lifetimes or consts |
| VariantStruct.BorrowedType | src/impl_display_new/variant_struct_implementor.rs:36-42 | a field's copied type names the same type, and a reference stays a reference |
| VariantStruct.StructGenericsAsWritten | src/impl_display_new/variant_struct_implementor.rs:44-47 | the enum type parameters pushed once per field that names one; it succeeds exactly when every field type has an ident |
| VariantStruct.DuplicateGenerics | src/impl_display_new/variant_struct_implementor.rs:44-57 | `Foo { a: T, b: T }` of `enum E<T>` lists `T` twice as written, and once when deduplicated |
| VariantStruct.StructGenerics | src/impl_display_new/variant_struct_implementor.rs:44-57 | exactly the enum type parameters some field names, each once |
| VariantStruct.GenericsAgreeWhenDistinct | src/impl_display_new/variant_struct_implementor.rs:44-57 | where the source lists no parameter twice, the deduplicated list is the source's |
| VariantStruct.ImplementNamed | src/impl_display_new/variant_struct_implementor.rs:28-64 | succeeds exactly when every field type has an ident |
| VariantStruct.Implement | src/impl_display_new/variant_struct_implementor.rs:20-84 | a unit variant gets no struct; otherwise the struct has the variant's name and shape, and each field is `&'a` of the original (a reference re-borrowed as `&'a &'a U`) naming the same type; `'a` is declared exactly when there are fields; a named variant's parameters are the used enum type parameters, each once; a tuple variant's are none |

`ImplFrom.New` (`FromImplData::new`, src/impl_from.rs:19-21) and `ImplFrom.Generate` (the earlier enum pipeline, src/impl_from.rs:19-53: `new`, `add_variant` for each variant, then `to_from_implementations`) have no row of their own: `New` starts with no variant and no usage error, and what `Generate` produces is stated by `ImplFrom.RevisionsAgree`.

## Left out

- The macro entry point and its dispatch (src/lib.rs) and the glue in src/enum_error.rs:15-52 beyond the variant loop: they are `proc_macro` I/O and parse attempts, and src/enum_error.rs:25-42 calls `FromImplData::new()` without the two arguments src/impl_from.rs:19 declares, and `add_data`, `create_from_implementations`, `DisplayDataEnum::new_empty`, `add_match_arm_data` and `to_display_implementation`, none of which the crate's sources define.
- Token construction: `quote!`, `Generics::split_for_impl`, `Index::from` and `format_ident!`. These are foreign library calls, and their outputs are modelled as datatypes.
- Expression re-parsing (`str::parse::<TokenStream2>().unwrap()`): this is a foreign library call. An expression is opaque text, and a parse panic is not modelled.
- The error messages' wording, and the `Display` implementations of the error enums: only the error variants and the names they carry are modelled.
- The thin `Display` wrappers in src/impl_display/structs.rs and src/impl_display_new/struct_implementor.rs: their one decision, no message means no implementation, is `ImplDisplay.StructDisplay`.
- The generics and `where` clauses carried into generated `impl` blocks: these are token plumbing.
- ImplDisplay.UnnamedArm: a tuple field past the 26th that a message uses is a `NotAnIdentifier` failure. The source derives `char::from_u32(97 + i)`, which for some larger indices (`ª` at 73) is still an identifier character, so it does not always panic there.
- Parameters.FromAttribute: a `parse_meta` failure of the attribute's tokens is not modelled. An attribute is given already split into path and arguments.
- Validator.CheckParameters: the order of the reported names follows the given key enumeration, because the source iterates a `HashMap`.
- Placeholders.InterpReplace: states what a renaming prints as the bare-placeholder reading `Interp` reads it. That reading is Rust's only on messages without `{{`, `}}`, `{}` or `:spec` (`FormatStrings.InterpIsRender`).
- FieldPlaceholders.VisitRenders: states the rendering as `Interp` reads the message, not as Rust does. On `{i:spec}` holes or brace escapes the source's loop changes what Rust prints (see Findings).
- FieldPlaceholders.RenumberRenders: states the rendering as `Interp` reads the message, not as Rust does, for the same reason. `FieldPlaceholders.RenumberFormatRenders` states it for Rust's syntax, about the corrected renumbering.
- FieldPlaceholders.LettersRender: states the rendering as `Interp` reads the message. The enum arms rename `{i}` to letters on the text, as the tuple-struct loop does, so `{i:spec}` and `{{i}}` are misread there too. How Rust then resolves a leftover `{i:spec}` against the named `a = a` arguments is not modelled.
- FieldPlaceholders.RenumberFormat: reads `{arg:spec}` with the specification as opaque text. A width or precision taken from an argument (`{:1$}`, `{:.*}`) names or takes positions that are not renumbered. Whitespace inside a hole and numerals with leading zeros (`{01}`) are not read as Rust reads them.
- ImplDisplay.StructWriteCall: uses the renumbering on the holes of the format syntax (`RenumberFormat`, see Findings), not the textual loop as written (`Renumber`). On messages of bare placeholders the two calls are proved equal (`ImplDisplay.StructWriteCallAgrees`). They differ on messages with format specifications, `{}` or brace escapes, and on messages Rust cannot read, where the model passes no field.
- StructError.MessageArgument: for a tuple struct the `write!` call uses the corrected renumbering on the holes (`ImplDisplay.TupleWriteCall`), not the loop at src/struct_error.rs:44-60 as written. The two are proved equal on messages of bare placeholders (`StructError.TupleMessageAsWritten`) and differ on specifications, `{}`, brace escapes and unreadable messages (see Findings).
- StructError.TupleDisplayRenders: states the rendering of the corrected call, not of the loop at src/struct_error.rs:44-60, which misnumbers `{i:spec}` holes and passes fields for `{{i}}` (see Findings).
- VariantStruct.Implement: uses the deduplicated type-parameter list (see Findings), not the list as written.
- VariantStruct.ImplementUnnamed: the tuple-variant struct carries no enum type parameter, as written, so it states no relation between its fields' types and its generics.

## Findings

| source | as written | input that shows it | evidently intended | confidence | as-written member | corrected member |
|---|---|---|---|---|---|---|
| src/impl_display_new/variant_struct_implementor.rs:44-47 | every field whose type names an enum type parameter pushes that parameter, once per field | variant `Foo { a: T, b: T }` of `enum E<T>` gives `struct Foo<'a, T, T,>`, which Rust rejects for the duplicate parameter | each used enum type parameter is declared once | medium, not executed | VariantStruct.StructGenericsAsWritten, VariantStruct.DuplicateGenerics | VariantStruct.StructGenerics, VariantStruct.GenericsAgreeWhenDistinct |
| src/impl_display.rs:55-71 | a field counts as used when the message contains the text `{i}`, and every occurrence of that text is replaced; the format syntax is not read, so `{i:spec}`, `{}` and `{{i}}` are misjudged | `"{1} {0:?}"` on a two-field tuple struct gives `write!(f, "{0} {0:?}", self.1)`, whose `Debug` hole shows field 1 instead of field 0; `"{{1}}"` gives `write!(f, "{{0}}", self.1)`, an argument no hole takes, which Rust rejects | every hole that takes a field position, whether `{i}`, `{i:spec}` or `{}`, is renumbered to its rank; escapes are left alone; exactly the taken fields are passed | medium, not executed | FieldPlaceholders.Renumber, FieldPlaceholders.SpecifiedPlaceholderMisnumbered, FieldPlaceholders.EscapedPlaceholderPassed | FieldPlaceholders.RenumberFormat, FieldPlaceholders.RenumberFormatRenders, FieldPlaceholders.RenumberFormatTaken |
| src/struct_error.rs:44-60 | the struct macro's own copy of the loop: a field counts as used when the message contains the text `{i}`, and every occurrence of that text is replaced; the format syntax is not read, so `{i:spec}`, `{}` and `{{i}}` are misjudged | `"{1} {0:?}"` on a two-field tuple struct gives `write!(f, "{0} {0:?}", self.1)`, whose `Debug` hole shows field 1 instead of field 0; `"{{1}}"` gives `write!(f, "{{0}}", self.1)`, an argument no hole takes, which Rust rejects | every hole that takes a field position, whether `{i}`, `{i:spec}` or `{}`, is renumbered to its rank; escapes are left alone; exactly the taken fields are passed | medium, not executed | FieldPlaceholders.Renumber, FieldPlaceholders.SpecifiedPlaceholderMisnumbered, FieldPlaceholders.EscapedPlaceholderPassed | FieldPlaceholders.RenumberFormat, FieldPlaceholders.RenumberFormatRenders, FieldPlaceholders.RenumberFormatTaken |

=== FILE: conversions.dfy ===
/** What the `From` generators produce and report (the error types of
    src/impl_from/mod.rs): one conversion per struct or variant with
    exactly one field, built from that field. */
module Conversions {
  import opened Results
  import opened Syntax

  datatype FailedItem = StructItem(structName: string) | EnumItem(enumName: string, variantName: string)

  datatype FromImplementationError =
    | NotExactlyOneField(item: FailedItem)
    | ParameterOnEnumAndVariant(enumName: string, variantName: string)

  /** How `from(val)` builds the value: `Path { field: val }` or
      `Path(val)`. */
  datatype Construction = WithField(path: seq<string>, field: string) | Positional(path: seq<string>)

  /** `impl From<source> for target { fn from(val: source) -> Self { … } }` */
  datatype FromImpl = FromImpl(target: string, source: Ty, construction: Construction)

  /** The conversion into `target` whose constructor is `path`: it exists
      exactly for a shape with one field, takes that field's type, and
      puts the value into that field. */
  function Convert(target: string, path: seq<string>, fields: Fields): (r: Option<FromImpl>)
    ensures r.Some? <==> FieldCount(fields) == 1
    ensures r.Some? ==> r.value.target == target && r.value.construction.path == path
    ensures r.Some? && fields.Named? ==>
      r.value.source == fields.fields[0].ty && r.value.construction == WithField(path, fields.fields[0].name)
    ensures r.Some? && fields.Unnamed? ==>
      r.value.source == fields.types[0] && r.value.construction == Positional(path)
  {
    match fields
    case Named(fs) => if |fs| == 1 then Some(FromImpl(target, fs[0].ty, WithField(path, fs[0].name))) else None
    case Unnamed(ts) => if |ts| == 1 then Some(FromImpl(target, ts[0], Positional(path))) else None
    case Unit => None
  }

  /** What a `From` generator reports: the conversions, or the errors. */
  datatype FromOutcome = Implemented(impls: seq<FromImpl>) | Errors(errors: seq<FromImplementationError>)
}

=== FILE: display_enum.dfy ===
/** What both revisions of the enum `Display` generator share
    (src/impl_display.rs and src/impl_display/enums.rs): which variants
    carry a message, whether `Display` is generated at all, when the set of
    messages is rejected, and the shape of the generated match. */
module DisplayEnum {
  import opened Results
  import opened Sequences
  import opened Syntax
  import opened Parameters

  /** Why the enum's set of messages is rejected. */
  datatype DisplayImplementationError =
    | MissingMessages(enumName: string)
    | UnnecessaryDefaultMessage(enumName: string)

  /** Everything that stops a `Display` implementation: a rejected set of
      messages, a parameter lookup that panics, or a binding letter that
      is no identifier. */
  datatype DisplayFailure =
    | Rejected(error: DisplayImplementationError)
    | Panicked(cause: ParamError)
    | NotAnIdentifier(field: nat)

  /** A match pattern, kept as the token lists the generator emits between
      the delimiters. */
  datatype Pattern =
    | StructPattern(enumName: string, variantName: string, tokens: seq<string>)  // `E::V { … }`
    | TuplePattern(enumName: string, variantName: string, tokens: seq<string>)   // `E::V ( … )`
    | PathPattern(enumName: string, variantName: string)                         // `E::V`
    | Bind(binder: string, inner: Pattern)                                       // `e @ …`
    | Wild                                                                       // `_`

  /** `pattern => call`, or `pattern => { let e = self; call }` when
      `bindsSelf`. */
  datatype Arm = Arm(pattern: Pattern, bindsSelf: bool, call: WriteCall)

  /** `impl Display for E { fn fmt(..) { match self { arms… default } } }` */
  datatype DisplayImpl = DisplayImpl(enumName: string, arms: seq<Arm>, defaultArm: Option<Arm>)

  /** A variant with the parameters of its `error` attribute, if any. */
  type VariantEntry = (Variant, Option<Parameters>)

  /** The variant declares a `message` string. */
  predicate HasMessage(e: VariantEntry) {
    e.1.Some? && StringForName(e.1.value, MessageParameter).Success?
      && StringForName(e.1.value, MessageParameter).value.Some?
  }

  function MessageOf(e: VariantEntry): string
    requires HasMessage(e)
  {
    StringForName(e.1.value, MessageParameter).value.value
  }

  /** Reading the variant's `message` panics: it is a boolean. */
  predicate MessagePanics(e: VariantEntry) {
    e.1.Some? && StringForName(e.1.value, MessageParameter).Failure?
  }

  /** `get_variants_with_message`: the variants that declare a message,
      paired with it, in declaration order; a boolean `message` on a
      variant makes the lookup panic. */
  function VariantsWithMessage(entries: seq<VariantEntry>): (r: Result<seq<(Variant, string)>, ParamError>)
    ensures r.Success? <==> forall i :: 0 <= i < |entries| ==> !MessagePanics(entries[i])
    ensures r.Success? ==> forall x :: x in r.value <==>
      exists i :: 0 <= i < |entries| && HasMessage(entries[i]) && x == (entries[i].0, MessageOf(entries[i]))
    ensures r.Success? ==> SubsequenceOf(Firsts(r.value), Firsts(entries))
  {
    if |entries| == 0 then Success([])
    else
      var e := entries[0];
      var message :- if e.1.Some? then StringForName(e.1.value, MessageParameter) else Success(None);
      var rest :- VariantsWithMessage(entries[1..]);
      assert forall i :: 1 <= i < |entries| ==> entries[1..][i - 1] == entries[i];
      assert Firsts(entries)[1..] == Firsts(entries[1..]);
      if message.Some? then
        var r := [(e.0, message.value)] + rest;
        assert r[1..] == rest && Firsts(r)[1..] == Firsts(rest);
        Success(r)
      else
        SkipHead(Firsts(rest), Firsts(entries));
        Success(rest)
  }

  /** `display_should_not_be_implemented` and `check_set_messages_are_valid`
      together: `false` when no `Display` is generated, `true` when it is.
      No `Display` is generated, and nothing is reported, exactly when there
      is neither a default nor a variant message; otherwise the messages are
      accepted exactly when a default is present iff some variant lacks a
      message. */
  function Decide(enumName: string, numVariants: nat, defaultSet: bool, numMessages: nat)
    : (r: Result<bool, DisplayImplementationError>)
    ensures r == Success(false) <==> !defaultSet && numMessages == 0
    ensures r == Success(true) <==> (defaultSet || numMessages > 0) && (defaultSet <==> numMessages != numVariants)
    ensures r == Failure(MissingMessages(enumName)) <==> !defaultSet && numMessages > 0 && numMessages != numVariants
    ensures r == Failure(UnnecessaryDefaultMessage(enumName)) <==> defaultSet && numMessages == numVariants
  {
    if !defaultSet && numMessages == 0 then Success(false)
    else if !defaultSet && numVariants != numMessages then Failure(MissingMessages(enumName))
    else if defaultSet && numVariants == numMessages then Failure(UnnecessaryDefaultMessage(enumName))
    else Success(true)
  }

  /** An enum without variants but with a default message is rejected. */
  lemma EmptyEnumWithDefault(enumName: string)
    ensures Decide(enumName, 0, true, 0) == Failure(UnnecessaryDefaultMessage(enumName))
  {
  }
}

=== FILE: enum_error.dfy ===
/** The part of the enum entry point that reads the variants
    (src/enum_error.rs): each variant loses its first `error` attribute,
    whose parameters are kept beside it when there are any. */
module EnumError {
  import opened Results
  import opened Sequences
  import opened Syntax
  import opened Parameters

  /** `attribute_is_error`: the attribute's path is the identifier
      `error`. A path that is not a single identifier makes the name lookup
      fail. */
  function IsErrorAttribute(a: Attribute): (r: Result<bool, ParamError>)
    ensures r.Success? <==> |a.path| == 1
    ensures r.Success? ==> (r.value <==> a.path == [ErrorAttribute])
  {
    var name :- PathToName(a.path);
    Success(name == ErrorAttribute)
  }

  /** Attribute `j` is read and found not to be `error`. */
  predicate PassedOver(attrs: seq<Attribute>, j: int)
    requires 0 <= j < |attrs|
  {
    |attrs[j].path| == 1 && attrs[j].path != [ErrorAttribute]
  }

  /** The search of `extract_error_attribute` from index `i` on: attributes
      are read in order until the first `error` one; a path that is not an
      identifier stops the search with a failure if it comes first. */
  function FindError(attrs: seq<Attribute>, i: nat): (r: Result<Option<nat>, ParamError>)
    requires i <= |attrs|
    ensures r.Success? && r.value.Some? ==>
      && i <= r.value.value < |attrs| && attrs[r.value.value].path == [ErrorAttribute]
      && forall j :: i <= j < r.value.value ==> PassedOver(attrs, j)
    ensures r == Success(None) <==> forall j :: i <= j < |attrs| ==> PassedOver(attrs, j)
    ensures r.Failure? <==> exists k :: FirstNonIdentifier(attrs, i, k)
    ensures r.Failure? ==> r.error == PathNotIdentifier
    decreases |attrs| - i
  {
    if i == |attrs| then Success(None)
    else
      match IsErrorAttribute(attrs[i])
      case Failure(e) =>
        assert FirstNonIdentifier(attrs, i, i) && !PassedOver(attrs, i);
        Failure(e)
      case Success(isError) =>
        if isError then
          assert !PassedOver(attrs, i);
          Success(Some(i))
        else
          ShiftFirstNonIdentifier(attrs, i, i + 1);
          FindError(attrs, i + 1)
  }

  lemma ShiftFirstNonIdentifier(attrs: seq<Attribute>, i: nat, next: nat)
    requires i < |attrs| && PassedOver(attrs, i) && next == i + 1
    ensures (exists k :: FirstNonIdentifier(attrs, next, k)) <==> (exists k :: FirstNonIdentifier(attrs, i, k))
  {
    forall k | FirstNonIdentifier(attrs, i, k)
      ensures FirstNonIdentifier(attrs, next, k)
    {
      assert k != i;
    }
    forall k | FirstNonIdentifier(attrs, next, k)
      ensures FirstNonIdentifier(attrs, i, k)
    {
    }
  }

  /** Attribute `k` is the first from `i` on whose path is no identifier,
      and no `error` attribute comes before it. */
  predicate FirstNonIdentifier(attrs: seq<Attribute>, i: int, k: int) {
    0 <= i <= k < |attrs| && |attrs[k].path| != 1 && forall j :: i <= j < k ==> PassedOver(attrs, j)
  }

  /** `extract_error_attribute`: the first `error` attribute is taken out
      and the others keep their order; without one, nothing changes. The
      result is the remaining attributes and the one removed. */
  function ExtractErrorAttribute(attrs: seq<Attribute>): (r: Result<(seq<Attribute>, Option<Attribute>), ParamError>)
    ensures r.Success? && r.value.1.None? ==>
      r.value.0 == attrs && forall j :: 0 <= j < |attrs| ==> PassedOver(attrs, j)
    ensures r.Success? && r.value.1.Some? ==> exists i :: RemovedAt(attrs, i, r.value.0, r.value.1.value)
    ensures r.Failure? <==> exists k :: FirstNonIdentifier(attrs, 0, k)
    ensures r.Failure? ==> r.error == PathNotIdentifier
  {
    var found :- FindError(attrs, 0);
    match found
    case None => Success((attrs, None))
    case Some(i) =>
      assert RemovedAt(attrs, i, attrs[..i] + attrs[i + 1..], attrs[i]);
      Success((attrs[..i] + attrs[i + 1..], Some(attrs[i])))
  }

  /** `removed` is the first `error` attribute, found at index `i`, and
      `rest` the others in their order. */
  predicate RemovedAt(attrs: seq<Attribute>, i: int, rest: seq<Attribute>, removed: Attribute) {
    && 0 <= i < |attrs|
    && attrs[i] == removed && removed.path == [ErrorAttribute]
    && rest == attrs[..i] + attrs[i + 1..]
    && forall j :: 0 <= j < i ==> PassedOver(attrs, j)
  }

  /** A variant after its `error` attribute was taken out, and, when that
      attribute had parameters, the variant with them. */
  datatype Extracted = Extracted(variant: Variant, withParameters: Option<(Variant, Parameters)>)

  /** `to_variant_with_parameters`: the first `error` attribute is removed
      whether or not its parameters are empty, the parameters are those of
      the removed attribute, and only a variant with non-empty parameters
      is paired with them. A variant without an `error` attribute is kept
      as it is; a non-identifier attribute path before the first `error`
      attribute, or a malformed `error` attribute, fails. */
  function ToVariantWithParameters(variant: Variant): (r: Result<Extracted, ParamError>)
    ensures (forall j :: 0 <= j < |variant.attrs| ==> PassedOver(variant.attrs, j)) ==>
      r == Success(Extracted(variant, None))
    ensures (exists k :: FirstNonIdentifier(variant.attrs, 0, k)) ==> r == Failure(PathNotIdentifier)
    ensures forall i, rest, a :: RemovedAt(variant.attrs, i, rest, a) ==>
      && (FromAttribute(a).Failure? ==> r == Failure(FromAttribute(a).error))
      && (FromAttribute(a).Success? ==> r == Success(Stripped(variant.(attrs := rest), FromAttribute(a).value)))
    ensures r.Success? ==> r.value.variant.name == variant.name && r.value.variant.fields == variant.fields
    ensures r.Success? ==> SubsequenceOf(r.value.variant.attrs, variant.attrs)
    ensures r.Success? ==> |variant.attrs| - 1 <= |r.value.variant.attrs| <= |variant.attrs|
    ensures r.Success? && r.value.withParameters.Some? ==>
      && r.value.withParameters.value.0 == r.value.variant
      && |r.value.variant.attrs| == |variant.attrs| - 1
      && !IsEmpty(r.value.withParameters.value.1)
  {
    RemovalIsFound(variant.attrs);
    var (rest, found) :- ExtractErrorAttribute(variant.attrs);
    match found
    case None =>
      SubsequenceRefl(variant.attrs);
      Success(Extracted(variant, None))
    case Some(a) =>
      var i :| RemovedAt(variant.attrs, i, rest, a);
      RemoveAtSubsequence(variant.attrs, i);
      var parameters :- FromAttribute(a);
      Success(Stripped(variant.(attrs := rest), parameters))
  }

  /** The variant without its `error` attribute, paired with that
      attribute's parameters unless they are empty. */
  function Stripped(stripped: Variant, parameters: Parameters): Extracted {
    Extracted(stripped, if IsEmpty(parameters) then None else Some((stripped, parameters)))
  }

  /** A removal describes what the search finds: the `error` attribute at
      the index it names, so there is at most one. */
  lemma RemovalIsFound(attrs: seq<Attribute>)
    ensures forall i, rest, a :: RemovedAt(attrs, i, rest, a) ==> FindError(attrs, 0) == Success(Some(i))
  {
    forall i, rest, a | RemovedAt(attrs, i, rest, a)
      ensures FindError(attrs, 0) == Success(Some(i))
    {
      FindErrorAt(attrs, 0, i);
    }
  }

  /** The search from `start` stops at the first `error` attribute. */
  lemma {:induction false} FindErrorAt(attrs: seq<Attribute>, start: nat, i: nat)
    requires start <= i < |attrs| && attrs[i].path == [ErrorAttribute]
    requires forall j :: start <= j < i ==> PassedOver(attrs, j)
    ensures FindError(attrs, start) == Success(Some(i))
    decreases i - start
  {
    if start < i {
      assert PassedOver(attrs, start);
      FindErrorAt(attrs, start + 1, i);
    }
  }

  lemma {:induction false} RemoveAtSubsequence<T>(xs: seq<T>, i: nat)
    requires i < |xs|
    ensures SubsequenceOf(xs[..i] + xs[i + 1..], xs)
  {
    if i == 0 {
      assert xs[..0] + xs[1..] == xs[1..];
      SubsequenceRefl(xs[1..]);
      SkipHead(xs[1..], xs);
    } else {
      RemoveAtSubsequence(xs[1..], i - 1);
      var r := xs[..i] + xs[i + 1..];
      assert r[0] == xs[0];
      assert r[1..] == xs[1..][..i - 1] + xs[1..][i..];
    }
  }

  /** The variants of an enum after extraction, and those that carry
      parameters with them. */
  datatype Collected = Collected(variants: seq<Variant>, withParameters: seq<(Variant, Parameters)>)

  /** The variant loop of `implement`: every variant is stripped of its
      `error` attribute in declaration order, and the first failure aborts;
      `CollectedPairs` states which pairs are kept. */
  function CollectVariants(variants: seq<Variant>): (r: Result<Collected, ParamError>)
    ensures r.Success? <==> forall i :: 0 <= i < |variants| ==> ToVariantWithParameters(variants[i]).Success?
    ensures r.Success? ==> |r.value.variants| == |variants|
    ensures r.Success? ==> forall i :: 0 <= i < |variants| ==>
      r.value.variants[i] == ToVariantWithParameters(variants[i]).value.variant
  {
    if |variants| == 0 then Success(Collected([], []))
    else
      var head :- ToVariantWithParameters(variants[0]);
      var rest :- CollectVariants(variants[1..]);
      assert forall j :: 0 <= j < |variants| - 1 ==> variants[1..][j] == variants[j + 1];
      Success(Collected([head.variant] + rest.variants, PairOf(head) + rest.withParameters))
  }

  /** The pair an extraction contributes, as a list of at most one. */
  function PairOf(e: Extracted): seq<(Variant, Parameters)> {
    if e.withParameters.Some? then [e.withParameters.value] else []
  }

  /** Every pair kept comes from a variant whose `error` attribute had
      parameters. */
  lemma {:induction false} CollectedPairsSound(variants: seq<Variant>)
    requires CollectVariants(variants).Success?
    ensures var ps := CollectVariants(variants).value.withParameters;
      forall k :: 0 <= k < |ps| ==>
        exists i :: 0 <= i < |variants| && ToVariantWithParameters(variants[i]).value.withParameters == Some(ps[k])
  {
    if |variants| > 0 {
      CollectedPairsSound(variants[1..]);
      var ps := CollectVariants(variants).value.withParameters;
      var rest := CollectVariants(variants[1..]).value.withParameters;
      assert forall i :: 1 <= i < |variants| ==> variants[1..][i - 1] == variants[i];
      if ToVariantWithParameters(variants[0]).value.withParameters.Some? {
        assert ps[1..] == rest;
      }
    }
  }

  /** Every variant whose `error` attribute had parameters is kept. */
  lemma {:induction false} CollectedPairsComplete(variants: seq<Variant>)
    requires CollectVariants(variants).Success?
    ensures forall i :: 0 <= i < |variants| && ToVariantWithParameters(variants[i]).value.withParameters.Some? ==>
      ToVariantWithParameters(variants[i]).value.withParameters.value in CollectVariants(variants).value.withParameters
  {
    if |variants| > 0 {
      CollectedPairsComplete(variants[1..]);
      assert forall i :: 1 <= i < |variants| ==> variants[1..][i - 1] == variants[i];
    }
  }

  /** The pairs keep the declaration order of their variants. */
  lemma {:induction false} CollectedPairsOrdered(variants: seq<Variant>)
    requires CollectVariants(variants).Success?
    ensures var c := CollectVariants(variants).value;
      SubsequenceOf(Firsts(c.withParameters), c.variants)
  {
    if |variants| > 0 {
      CollectedPairsOrdered(variants[1..]);
      var rest := CollectVariants(variants[1..]).value;
      var head := ToVariantWithParameters(variants[0]).value;
      assert CollectVariants(variants).value
          == Collected([head.variant] + rest.variants, PairOf(head) + rest.withParameters);
      OrderedStep(head.variant, PairOf(head), rest.variants, rest.withParameters);
    }
  }

  /** Putting a variant in front, with its pair if it has one, keeps the
      pairs in the order of the variants. */
  lemma OrderedStep(v: Variant, pair: seq<(Variant, Parameters)>, vs: seq<Variant>, ps: seq<(Variant, Parameters)>)
    requires SubsequenceOf(Firsts(ps), vs)
    requires pair == [] || (|pair| == 1 && pair[0].0 == v)
    ensures SubsequenceOf(Firsts(pair + ps), [v] + vs)
  {
    if pair == [] {
      assert pair + ps == ps;
      SkipHead(Firsts(ps), [v] + vs);
    } else {
      var xs := Firsts(pair + ps);
      assert xs[1..] == Firsts(ps);
    }
  }
}

=== FILE: enums_display.dfy ===
/** The second enum `Display` generator (src/impl_display/enums.rs): the
    same decision as the first revision, with arms that bind the whole
    value and every field and compile free-form templates. */
module EnumsDisplay {
  import opened Results
  import opened Syntax
  import opened Parameters
  import opened DisplayEnum
  import MatchArm

  /** `create_default_match_arm` */
  function DefaultArm(enumName: string, enumParams: Parameters): (r: Result<Option<Arm>, ParamError>)
    ensures r == Success(None) <==> !HasParameter(enumParams, MessageParameter)
    ensures r.Failure? <==>
      HasParameter(enumParams, MessageParameter) && enumParams.values[MessageParameter].BooleanValue?
    ensures r.Success? && r.value.Some? ==>
      && HasParameter(enumParams, MessageParameter)
      && enumParams.values[MessageParameter].StringValue?
      && r.value.value == MatchArm.ImplementDefault(enumParams.values[MessageParameter].s)
  {
    var message :- StringForName(enumParams, MessageParameter);
    match message
    case None => Success(None)
    case Some(m) => Success(Some(MatchArm.ImplementDefault(m)))
  }

  /** `EnumDisplayImplementor::implement`: no implementation and no error
      when neither the enum nor a variant sets a message; otherwise the
      same acceptance rule as the first revision, one arm per variant with
      a message in declaration order, and a default arm exactly when some
      variant has none. */
  function Implement(item: ItemEnum, enumParams: Parameters, entries: seq<VariantEntry>)
    : (r: Result<Option<DisplayImpl>, DisplayFailure>)
    ensures VariantsWithMessage(entries).Failure? ==> r == Failure(Panicked(VariantsWithMessage(entries).error))
    ensures r == Success(None) <==>
      VariantsWithMessage(entries) == Success([]) && !HasParameter(enumParams, MessageParameter)
    ensures r.Failure? ==> !r.error.NotAnIdentifier?
    ensures VariantsWithMessage(entries).Success? && r.Failure? && r.error.Rejected? ==>
      var n := |VariantsWithMessage(entries).value|;
      if HasParameter(enumParams, MessageParameter)
      then n == |item.variants| && r.error.error == UnnecessaryDefaultMessage(item.name)
      else n != |item.variants| && r.error.error == MissingMessages(item.name)
    ensures VariantsWithMessage(entries).Success? ==>
      var wm := VariantsWithMessage(entries).value;
      var decision := Decide(item.name, |item.variants|, HasParameter(enumParams, MessageParameter), |wm|);
      && (decision.Failure? <==> r.Failure? && r.error.Rejected?)
      && (decision.Failure? ==> r == Failure(Rejected(decision.error)))
      && (decision == Success(true) ==> (r.Success? <==> DefaultArm(item.name, enumParams).Success?))
    ensures r.Success? && r.value.Some? ==>
      var wm, d := VariantsWithMessage(entries).value, r.value.value;
      && d.enumName == item.name
      && |d.arms| == |wm|
      && (forall k :: 0 <= k < |wm| ==> d.arms[k] == MatchArm.ImplementFor(item.name, wm[k].0, wm[k].1))
      && (d.defaultArm.Some? <==> |wm| != |item.variants|)
      && (d.defaultArm.Some? ==> DefaultArm(item.name, enumParams) == Success(d.defaultArm))
  {
    match VariantsWithMessage(entries)
    case Failure(e) => Failure(Panicked(e))
    case Success(wm) =>
      match Decide(item.name, |item.variants|, HasParameter(enumParams, MessageParameter), |wm|)
      case Failure(e) => Failure(Rejected(e))
      case Success(implement) =>
        if !implement then Success(None)
        else
          var arms := seq(|wm|, k requires 0 <= k < |wm| => MatchArm.ImplementFor(item.name, wm[k].0, wm[k].1));
          match DefaultArm(item.name, enumParams)
          case Failure(e) => Failure(Panicked(e))
          case Success(default) => Success(Some(DisplayImpl(item.name, arms, default)))
  }
}

=== FILE: field_placeholders.dfy ===
/** How a display message's placeholders are tied to the fields of a struct
    or variant (src/impl_display.rs, src/struct_error.rs):

    - tuple structs: the placeholders `{i}` of the fields the message uses
      are renumbered densely, and exactly those fields are passed, in order;
      the source does this on the text (`Renumber`), which misreads format
      specifications and brace escapes, and `RenumberFormat` does it on the
      holes of the format syntax;
    - named fields: the fields whose `{name}` the message contains are passed
      as `name = self.name`;
    - tuple variants: each used `{i}` becomes `{a}`, `{b}`, … after the
      letter that binds field `i` in the match pattern. */
module FieldPlaceholders {
  import opened Results
  import opened Placeholders
  import opened FormatStrings
  import opened Sequences

  /** The indices below `n` whose placeholder `m` contains, ascending. */
  function Referenced(m: string, n: nat): (refs: seq<nat>)
    ensures forall t :: 0 <= t < |refs| ==> refs[t] < n && Contains(m, IndexToken(refs[t]))
    ensures forall i: nat :: i < n && Contains(m, IndexToken(i)) ==> i in refs
    ensures forall s, t :: 0 <= s < t < |refs| ==> refs[s] < refs[t]
  {
    if n == 0 then []
    else Referenced(m, n - 1) + (if Contains(m, IndexToken(n - 1)) then [n - 1] else [])
  }

  // ---------------------------------------------------------------------
  // Tuple structs: dense renumbering

  /** The state of the renumbering loop: the message so far, the fields
      passed so far, and how many fields were skipped. */
  datatype Renumbered = Renumbered(message: string, fields: seq<nat>, ignored: nat)

  /** The loop over fields `0..n` of `create_positional_write_parameters`.
      Every field is either passed or skipped. */
  function Renumber(m: string, n: nat): (r: Renumbered)
    ensures |r.fields| + r.ignored == n
  {
    if n == 0 then Renumbered(m, [], 0) else Visit(Renumber(m, n - 1), n - 1)
  }

  /** One iteration of the loop, on field `i`: when the current message
      contains `{i}`, it becomes `{i - ignored}` and field `i` is passed;
      otherwise `ignored` grows. The fields before `i` were each passed or
      skipped, so `i - ignored` never goes below zero. */
  function Visit(prev: Renumbered, i: nat): (r: Renumbered)
    requires |prev.fields| + prev.ignored == i
    ensures |r.fields| + r.ignored == i + 1
  {
    if Contains(prev.message, IndexToken(i)) then
      Renumbered(Replace(prev.message, IndexToken(i), IndexToken(i - prev.ignored)), prev.fields + [i], prev.ignored)
    else
      Renumbered(prev.message, prev.fields, prev.ignored + 1)
  }

  /** What the loop computes: the field list is exactly the fields the
      ORIGINAL message uses (the earlier replacements never hide or invent
      a later `{i}`), the used placeholders below `n` become exactly
      `{0}`…`{k-1}`, and those at or above `n` are left alone. */
  lemma {:induction false} RenumberDense(m: string, n: nat)
    ensures Renumber(m, n).fields == Referenced(m, n)
    ensures forall x: nat :: x < n ==> (Contains(Renumber(m, n).message, IndexToken(x)) <==> x < |Renumber(m, n).fields|)
    ensures forall x: nat :: n <= x ==> (Contains(Renumber(m, n).message, IndexToken(x)) <==> Contains(m, IndexToken(x)))
  {
    if n > 0 {
      var prev := Renumber(m, n - 1);
      RenumberDense(m, n - 1);
      DenseStep(m, prev, n - 1);
    }
  }

  /** One iteration keeps the placeholders it has visited dense and leaves
      the others as the original message has them. */
  lemma DenseStep(m: string, prev: Renumbered, i: nat)
    requires |prev.fields| + prev.ignored == i
    requires forall x: nat :: x < i ==> (Contains(prev.message, IndexToken(x)) <==> x < |prev.fields|)
    requires forall x: nat :: i <= x ==> (Contains(prev.message, IndexToken(x)) <==> Contains(m, IndexToken(x)))
    ensures Visit(prev, i).fields == prev.fields + (if Contains(m, IndexToken(i)) then [i] else [])
    ensures forall x: nat :: x <= i ==> (Contains(Visit(prev, i).message, IndexToken(x)) <==> x < |Visit(prev, i).fields|)
    ensures forall x: nat :: i < x ==> (Contains(Visit(prev, i).message, IndexToken(x)) <==> Contains(m, IndexToken(x)))
  {
    if Contains(prev.message, IndexToken(i)) {
      RenumberStep(prev.message, i, |prev.fields|);
    }
  }

  /** One renaming step of the loop keeps the placeholders below `i + 1`
      dense. */
  lemma RenumberStep(s: string, i: nat, k: nat)
    requires k <= i && Contains(s, IndexToken(i))
    requires forall x: nat :: x < i ==> (Contains(s, IndexToken(x)) <==> x < k)
    ensures forall x: nat :: x <= i ==>
      (Contains(Replace(s, IndexToken(i), IndexToken(k)), IndexToken(x)) <==> x < k + 1)
    ensures forall x: nat :: i < x ==>
      (Contains(Replace(s, IndexToken(i), IndexToken(k)), IndexToken(x)) <==> Contains(s, IndexToken(x)))
  {
    var r := Replace(s, IndexToken(i), IndexToken(k));
    ReplaceIntroduces(s, Digits(i), Digits(k));
    forall x: nat | x != k
      ensures Contains(r, IndexToken(x)) <==> Contains(s, IndexToken(x)) && x != i
    {
      if Digits(x) == Digits(k) {
        DigitsInjective(x, k);
      }
      if Digits(x) == Digits(i) {
        DigitsInjective(x, i);
      }
      ReplaceContains(s, Digits(i), Digits(k), Digits(x));
    }
  }

  /** The valuation the renumbered message is rendered with: with the fields
      passed positionally, `{t}` shows field `fields[t]`, which the original
      message wrote `{fields[t]}`. */
  function PositionalArgs(fields: seq<nat>, v: string -> string): string -> string {
    (w: string) =>
      var x := IndexOf(w);
      if x.Some? && x.value < |fields| then v(Digits(fields[x.value])) else v(w)
  }

  /** Renumbering changes nothing a reader sees: the renumbered message with
      the passed fields renders exactly as the original message does when
      `{i}` shows field `i`. */
  lemma {:induction false} RenumberRenders(m: string, n: nat, v: string -> string)
    ensures Interp(Renumber(m, n).message, PositionalArgs(Renumber(m, n).fields, v)) == Interp(m, v)
  {
    if n == 0 {
      NoPositionalArgs(m, v);
    } else {
      var prev := Renumber(m, n - 1);
      RenumberRenders(m, n - 1, v);
      RenumberDense(m, n - 1);
      VisitRenders(prev, n - 1, v);
      assert Renumber(m, n) == Visit(prev, n - 1);
    }
  }

  /** One iteration renders as the message before it. */
  lemma VisitRenders(prev: Renumbered, i: nat, v: string -> string)
    requires |prev.fields| + prev.ignored == i
    requires forall x: nat :: x < i ==> (Contains(prev.message, IndexToken(x)) <==> x < |prev.fields|)
    ensures Interp(Visit(prev, i).message, PositionalArgs(Visit(prev, i).fields, v))
         == Interp(prev.message, PositionalArgs(prev.fields, v))
  {
    if Contains(prev.message, IndexToken(i)) {
      RenumberStepRenders(prev.message, prev.fields, i, v);
    }
  }

  /** With no field passed, every placeholder shows what it did. */
  lemma NoPositionalArgs(m: string, v: string -> string)
    ensures Interp(m, PositionalArgs([], v)) == Interp(m, v)
  {
    forall w | Word(w) && Contains(m, Tok(w))
      ensures PositionalArgs([], v)(w) == v(w)
    {
      var x := IndexOf(w);
      assert !(x.Some? && x.value < 0);
    }
    InterpAgree(m, PositionalArgs([], v), v);
  }

  /** One renaming step `{i}` to `{k}`, with field `i` appended as the k-th
      argument, renders as before. */
  lemma RenumberStepRenders(s: string, fields: seq<nat>, i: nat, v: string -> string)
    requires |fields| <= i
    requires forall x: nat :: x < i ==> (Contains(s, IndexToken(x)) <==> x < |fields|)
    ensures Interp(Replace(s, IndexToken(i), IndexToken(|fields|)), PositionalArgs(fields + [i], v))
         == Interp(s, PositionalArgs(fields, v))
  {
    var k := |fields|;
    var ap := PositionalArgs(fields, v);
    var an := PositionalArgs(fields + [i], v);
    InterpReplace(s, Digits(i), Digits(k), an);
    var u := (w: string) => if w == Digits(i) then an(Digits(k)) else an(w);
    IndexOfDigits(k);
    IndexOfDigits(i);
    forall w | Word(w) && Contains(s, Tok(w))
      ensures u(w) == ap(w)
    {
      var x := IndexOf(w);
      if x.Some? && x.value == k {
        assert Contains(s, IndexToken(k));
        assert k == i;
      }
    }
    InterpAgree(s, u, ap);
  }

  // ---------------------------------------------------------------------
  // Tuple structs: where the text rewriting misreads the format syntax

  /** The argument as a hole shows it: its name, and its specification
      after a colon. */
  function ShowArgument(w: string, spec: Option<string>): string {
    w + (if spec.Some? then ":" + spec.value else "")
  }

  /** `{0:?}` is no `{0}`, so the loop skips field 0 while the message still
      prints it, and then renames `{1}` to `{0}`: in the generated
      `write!(f, "{0} {0:?}", self.1)` both holes show field 1, where the
      message asked for field 1 and then field 0. */
  lemma SpecifiedPlaceholderMisnumbered()
    ensures Renumber("{1} {0:?}", 2) == Renumbered("{0} {0:?}", [1], 1)
    ensures RenderFormat("{1} {0:?}", ShowArgument) == Some("1 0:?")
    ensures RenderFormat("{0} {0:?}", PositionalValues([1], ShowArgument)) == Some("1 1:?")
  {
    MisnumberedLoop();
    OriginalRenders();
    MisnumberedRenders();
  }

  lemma MisnumberedLoop()
    ensures Renumber("{1} {0:?}", 2) == Renumbered("{0} {0:?}", [1], 1)
  {
    var m := "{1} {0:?}";
    SkipsFieldZero();
    RenamesFieldOne();
    assert Renumber(m, 1) == Renumbered(m, [], 1);
  }

  lemma OriginalRenders()
    ensures RenderFormat("{1} {0:?}", ShowArgument) == Some("1 0:?")
  {
    assert Tok("1") + " {0:?}" == "{1} {0:?}";
    DebugPieces("1", ShowArgument);
    assert ShowArgument("1", None) == "1";
    assert ShowArgument("0", Some("?")) == "0:?";
    assert "1" + " " + "0:?" == "1 0:?";
  }

  lemma MisnumberedRenders()
    ensures RenderFormat("{0} {0:?}", PositionalValues([1], ShowArgument)) == Some("1 1:?")
  {
    assert Tok("0") + " {0:?}" == "{0} {0:?}";
    var pv := PositionalValues([1], ShowArgument);
    DebugPieces("0", pv);
    assert Digits(0) == "0" && Digits(1) == "1";
    IndexOfDigits(0);
    assert pv("0", None) == ShowArgument("1", None) == "1";
    assert pv("0", Some("?")) == ShowArgument("1", Some("?")) == "1:?";
    assert "1" + " " + "1:?" == "1 1:?";
  }

  /** `{d} {0:?}` reads as a hole `d`, a space and a `Debug` hole `0`, and
      prints accordingly. */
  lemma DebugPieces(d: string, v: (string, Option<string>) -> string)
    requires Word(d) && ':' !in d
    ensures RenderFormat(Tok(d) + " {0:?}", v) == Some(v(d, None) + " " + v("0", Some("?")))
  {
    var ps := [Hole(d, None), Char(' '), Hole("0", Some("?"))];
    UnparseThree(ps[0], ps[1], ps[2]);
    assert PieceText(ps[2]) == "{0:?}";
    assert Unparse(ps) == Tok(d) + " {0:?}";
    assert Writable(ps[2]) by {
      assert "0"[0] == '0' && "?"[0] == '?';
    }
    assert AllWritable(ps);
    ParseUnparse(ps);
    RenderPieces(d, v);
  }

  /** What the pieces of `{d} {0:?}` print. */
  lemma RenderPieces(d: string, v: (string, Option<string>) -> string)
    requires d != ""
    ensures Render([Hole(d, None), Char(' '), Hole("0", Some("?"))], 0, v) == v(d, None) + " " + v("0", Some("?"))
  {
    var ps := [Hole(d, None), Char(' '), Hole("0", Some("?"))];
    assert ps[1..][1..] == ps[2..] && ps[2..][1..] == [];
    assert Render(ps[2..], 0, v) == v("0", Some("?"));
    assert Render(ps[1..], 0, v) == " " + v("0", Some("?"));
  }

  lemma UnparseThree(a: Piece, b: Piece, c: Piece)
    ensures Unparse([a, b, c]) == PieceText(a) + PieceText(b) + PieceText(c)
  {
    UnparseCons(c, []);
    UnparseCons(b, [c]);
    UnparseCons(a, [b, c]);
    assert [a, b, c] == [a] + [b, c] && [b, c] == [b] + [c] && [c] + [] == [c];
  }

  /** `{1} {0:?}` holds no `{0}`. */
  lemma SkipsFieldZero()
    ensures !Contains("{1} {0:?}", IndexToken(0))
  {
    var m := "{1} {0:?}";
    assert IndexToken(0) == "{0}";
    forall k | 0 <= k < |m|
      ensures !StartsWith(m[k..], "{0}")
    {
      if k == 0 {
        NotStartsWithAt(m[k..], "{0}", 1);
      } else if k == 4 {
        NotStartsWithAt(m[k..], "{0}", 2);
      } else {
        NotStartsWithAt(m[k..], "{0}", 0);
      }
    }
    DropContains(m, "{0}", |m|);
  }

  /** In `{1} {0:?}` the one `{1}` becomes `{0}`. */
  lemma RenamesFieldOne()
    ensures Contains("{1} {0:?}", IndexToken(1))
    ensures Replace("{1} {0:?}", IndexToken(1), IndexToken(0)) == "{0} {0:?}"
  {
    var m := "{1} {0:?}";
    assert IndexToken(0) == "{0}" && IndexToken(1) == "{1}";
    var rest := m[3..];
    forall k | 0 <= k < |rest|
      ensures !StartsWith(rest[k..], "{1}")
    {
      if k == 1 {
        NotStartsWithAt(rest[k..], "{1}", 1);
      } else {
        NotStartsWithAt(rest[k..], "{1}", 0);
      }
    }
    DropContains(rest, "{1}", |rest|);
    ReplaceAbsent(rest, "{1}", "{0}");
    assert StartsWith(m, "{1}");
  }

  /** `{{1}}` prints the literal text `{1}`, yet the loop finds `{1}` in it,
      passes field 1 and rewrites the escape to `{{0}}`, which holds no
      hole: `write!(f, "{{0}}", self.1)` has an argument no hole takes,
      which Rust rejects. */
  lemma EscapedPlaceholderPassed()
    ensures Renumber("{{1}}", 2) == Renumbered("{{0}}", [1], 1)
    ensures Parse("{{0}}") == Some([Char('{'), Char('0'), Char('}')])
    ensures Parse("{{1}}") == Some([Char('{'), Char('1'), Char('}')])
  {
    var m := "{{1}}";
    EscapeHoldsNoZero();
    EscapeRenamed();
    assert Renumber(m, 1) == Renumbered(m, [], 1);
    ReadEscaped('0');
    ReadEscaped('1');
  }

  lemma EscapeHoldsNoZero()
    ensures !Contains("{{1}}", IndexToken(0))
  {
    var m := "{{1}}";
    assert IndexToken(0) == "{0}";
    forall k | 0 <= k < |m|
      ensures !StartsWith(m[k..], "{0}")
    {
      if k < 2 {
        NotStartsWithAt(m[k..], "{0}", 1);
      } else {
        NotStartsWithAt(m[k..], "{0}", 0);
      }
    }
    DropContains(m, "{0}", |m|);
  }

  lemma EscapeRenamed()
    ensures Contains("{{1}}", IndexToken(1))
    ensures Replace("{{1}}", IndexToken(1), IndexToken(0)) == "{{0}}"
  {
    var m := "{{1}}";
    assert IndexToken(0) == "{0}" && IndexToken(1) == "{1}";
    NotStartsWithAt(m, "{1}", 1);
    assert StartsWith(m[1..], "{1}");
    ContainsSuffix(m, "{1}", 1);
    NotStartsWithAt(m[4..], "{1}", 0);
    assert Replace(m[4..], "{1}", "{0}") == "}";
    assert Replace(m[1..], "{1}", "{0}") == "{0}}";
  }

  /** `{{d}}` reads as three characters and no hole. */
  lemma ReadEscaped(d: char)
    requires d == '0' || d == '1'
    ensures Parse(['{', '{', d, '}', '}']) == Some([Char('{'), Char(d), Char('}')])
  {
    var ps := [Char('{'), Char(d), Char('}')];
    UnparseThree(ps[0], ps[1], ps[2]);
    assert Unparse(ps) == ['{', '{', d, '}', '}'];
    ParseUnparse(ps);
  }

  /** A text does not start with `t` when they differ at position `i`. */
  lemma NotStartsWithAt(s: string, t: string, i: nat)
    requires i < |t| && (|s| < |t| || s[i] != t[i])
    ensures !StartsWith(s, t)
  {
    if |t| <= |s| {
      assert s[..|t|][i] != t[i];
    }
  }

  // ---------------------------------------------------------------------
  // Tuple structs: renumbering the holes of the format syntax

  /** No hole of `ps` is a `{}` taking an implicit position. */
  predicate NoImplicit(ps: seq<Piece>) {
    forall k :: 0 <= k < |ps| ==> ps[k].Hole? ==> ps[k].arg != ""
  }

  /** Some hole of `ps` takes position `i` by number. */
  predicate RefersTo(ps: seq<Piece>, i: nat) {
    exists k :: 0 <= k < |ps| && ps[k].Hole? && ps[k].arg == Digits(i)
  }

  lemma DigitsWritable(i: nat, spec: Option<string>)
    ensures (spec.Some? ==> BraceFree(spec.value)) ==> Writable(Hole(Digits(i), spec))
  {
    var d := Digits(i);
    assert forall k :: 0 <= k < |d| ==> d[k] != ':';
  }

  /** The pieces with every `{}` numbered by the position it takes,
      counting from `next`; everything else as it was. */
  function Explicit(ps: seq<Piece>, next: nat): (r: seq<Piece>)
    ensures |r| == |ps| && NoImplicit(r)
    ensures forall k :: 0 <= k < |ps| ==> (ps[k].Char? || ps[k].arg != "") ==> r[k] == ps[k]
    ensures forall k :: 0 <= k < |ps| ==> ps[k].Hole? ==> r[k].Hole? && r[k].spec == ps[k].spec
    decreases |ps|
  {
    if |ps| == 0 then []
    else if ps[0].Hole? && ps[0].arg == "" then [Hole(Digits(next), ps[0].spec)] + Explicit(ps[1..], next + 1)
    else [ps[0]] + Explicit(ps[1..], next)
  }

  /** Numbering the implicit holes keeps the pieces writable. */
  lemma {:induction false} ExplicitWritable(ps: seq<Piece>, next: nat)
    requires AllWritable(ps)
    ensures AllWritable(Explicit(ps, next))
    decreases |ps|
  {
    if |ps| > 0 {
      var implicit := ps[0].Hole? && ps[0].arg == "";
      var n' := if implicit then next + 1 else next;
      assert AllWritable(ps[1..]) by {
        assert forall k :: 0 <= k < |ps| - 1 ==> ps[1..][k] == ps[k + 1];
      }
      ExplicitWritable(ps[1..], n');
      assert Writable(ps[0]);
      if implicit {
        DigitsWritable(next, ps[0].spec);
      }
      var r := Explicit(ps, next);
      assert r[1..] == Explicit(ps[1..], n');
      assert forall k :: 1 <= k < |r| ==> r[k] == r[1..][k - 1];
    }
  }

  /** Numbering the implicit holes changes nothing Rust prints. */
  lemma {:induction false} ExplicitRenders(ps: seq<Piece>, next: nat, j: nat, v: (string, Option<string>) -> string)
    ensures Render(Explicit(ps, next), j, v) == Render(ps, next, v)
    decreases |ps|
  {
    if |ps| > 0 {
      var r := Explicit(ps, next);
      if ps[0].Hole? && ps[0].arg == "" {
        assert r[1..] == Explicit(ps[1..], next + 1);
        ExplicitRenders(ps[1..], next + 1, j, v);
      } else {
        assert r[1..] == Explicit(ps[1..], next);
        ExplicitRenders(ps[1..], next, j, v);
      }
    }
  }

  /** Pieces without implicit holes are already explicit. */
  lemma ExplicitKeeps(ps: seq<Piece>, next: nat)
    requires NoImplicit(ps)
    ensures Explicit(ps, next) == ps
  {
  }

  /** The positions below `n` that some hole of `ps` takes, ascending. */
  function Taken(ps: seq<Piece>, n: nat): (used: seq<nat>)
    ensures |used| <= n
    ensures forall t :: 0 <= t < |used| ==> used[t] < n && RefersTo(ps, used[t])
    ensures forall i: nat :: i < n && RefersTo(ps, i) ==> i in used
    ensures forall s, t :: 0 <= s < t < |used| ==> used[s] < used[t]
  {
    if n == 0 then [] else Taken(ps, n - 1) + (if RefersTo(ps, n - 1) then [n - 1] else [])
  }

  /** A taken position `i` stands in the list of taken positions at its
      rank: the number of taken positions below it. */
  lemma {:induction false} TakenRank(ps: seq<Piece>, i: nat, n: nat)
    requires i < n && RefersTo(ps, i)
    ensures |Taken(ps, i)| < |Taken(ps, n)| && Taken(ps, n)[|Taken(ps, i)|] == i
    decreases n
  {
    if n > i + 1 {
      TakenRank(ps, i, n - 1);
    }
  }

  /** A hole numbered below `n` is renumbered to its rank among the
      positions `ps` takes; every other piece is kept. */
  function Renamed(p: Piece, ps: seq<Piece>, n: nat): Piece {
    if p.Hole? && IndexOf(p.arg).Some? && IndexOf(p.arg).value < n then
      Hole(Digits(|Taken(ps, IndexOf(p.arg).value)|), p.spec)
    else p
  }

  function Renames(ps: seq<Piece>, n: nat): (r: seq<Piece>)
    ensures |r| == |ps| && forall k :: 0 <= k < |ps| ==> r[k] == Renamed(ps[k], ps, n)
  {
    seq(|ps|, k requires 0 <= k < |ps| => Renamed(ps[k], ps, n))
  }

  /** Renaming keeps the pieces explicit and writable. */
  lemma RenamesWritable(ps: seq<Piece>, n: nat)
    requires NoImplicit(ps) && AllWritable(ps)
    ensures NoImplicit(Renames(ps, n)) && AllWritable(Renames(ps, n))
  {
    var r := Renames(ps, n);
    forall k | 0 <= k < |ps|
      ensures Writable(r[k]) && (r[k].Hole? ==> r[k].arg != "")
    {
      var p := ps[k];
      if p.Hole? && IndexOf(p.arg).Some? && IndexOf(p.arg).value < n {
        DigitsWritable(|Taken(ps, IndexOf(p.arg).value)|, p.spec);
      }
    }
  }

  /** The valuation of a `write!` passing `fields` positionally: hole `t`
      shows field `fields[t]` under its own specification. */
  function PositionalValues(fields: seq<nat>, v: (string, Option<string>) -> string): (string, Option<string>) -> string {
    (w: string, spec: Option<string>) =>
      var x := IndexOf(w);
      if x.Some? && x.value < |fields| then v(Digits(fields[x.value]), spec) else v(w, spec)
  }

  /** What one piece prints. */
  function Shown(p: Piece, v: (string, Option<string>) -> string): string {
    if p.Char? then [p.c] else v(p.arg, p.spec)
  }

  /** Explicit pieces that print the same one by one print the same. */
  lemma {:induction false} RenderPointwise(xs: seq<Piece>, ys: seq<Piece>, next: nat,
                                           vx: (string, Option<string>) -> string,
                                           vy: (string, Option<string>) -> string)
    requires |xs| == |ys| && NoImplicit(xs) && NoImplicit(ys)
    requires forall k :: 0 <= k < |xs| ==> Shown(xs[k], vx) == Shown(ys[k], vy)
    ensures Render(xs, next, vx) == Render(ys, next, vy)
    decreases |xs|
  {
    if |xs| > 0 {
      assert forall k :: 0 <= k < |xs| - 1 ==> xs[1..][k] == xs[k + 1] && ys[1..][k] == ys[k + 1];
      RenderPointwise(xs[1..], ys[1..], next, vx, vy);
    }
  }

  /** Renaming the holes and passing the taken positions in ascending
      order prints what the original pieces print. */
  lemma RenamesRenders(ps: seq<Piece>, n: nat, v: (string, Option<string>) -> string)
    requires NoImplicit(ps)
    ensures Render(Renames(ps, n), 0, PositionalValues(Taken(ps, n), v)) == Render(ps, 0, v)
  {
    var fields := Taken(ps, n);
    var rs := Renames(ps, n);
    var pv := PositionalValues(fields, v);
    forall k | 0 <= k < |ps|
      ensures Shown(rs[k], pv) == Shown(ps[k], v) && (rs[k].Hole? ==> rs[k].arg != "")
    {
      var p := ps[k];
      if p.Hole? {
        var x := IndexOf(p.arg);
        if x.Some? && x.value < n {
          var i := x.value;
          assert ps[k].arg == Digits(i);
          TakenRank(ps, i, n);
          IndexOfDigits(|Taken(ps, i)|);
        } else if x.Some? {
          assert !(x.value < |fields|);
        }
      }
    }
    RenderPointwise(rs, ps, 0, pv, v);
  }

  /** After renaming, the holes numbered below `n` take exactly the
      positions `0`…`k-1`, `k` being the number of taken positions, and
      the holes numbered from `n` on are as they were. */
  lemma RenamesTaken(ps: seq<Piece>, n: nat)
    ensures forall x: nat :: x < n ==> (RefersTo(Renames(ps, n), x) <==> x < |Taken(ps, n)|)
    ensures forall x: nat :: n <= x ==> (RefersTo(Renames(ps, n), x) <==> RefersTo(ps, x))
  {
    var fields := Taken(ps, n);
    var rs := Renames(ps, n);
    forall x: nat
      ensures RefersTo(rs, x) ==> (if x < n then x < |fields| else RefersTo(ps, x))
    {
      if RefersTo(rs, x) {
        var k :| 0 <= k < |rs| && rs[k].Hole? && rs[k].arg == Digits(x);
        IndexOfDigits(x);
        var p := ps[k];
        if p.Hole? && IndexOf(p.arg).Some? && IndexOf(p.arg).value < n {
          var i := IndexOf(p.arg).value;
          assert ps[k].arg == Digits(i);
          TakenRank(ps, i, n);
          DigitsInjective(x, |Taken(ps, i)|);
        }
      }
    }
    forall x: nat | x < n && x < |fields|
      ensures RefersTo(rs, x)
    {
      var i := fields[x];
      var k :| 0 <= k < |ps| && ps[k].Hole? && ps[k].arg == Digits(i);
      TakenRank(ps, i, n);
      var r := |Taken(ps, i)|;
      assert r == x;
      IndexOfDigits(i);
      assert rs[k].arg == Digits(x);
    }
    forall x: nat | n <= x && RefersTo(ps, x)
      ensures RefersTo(rs, x)
    {
      var k :| 0 <= k < |ps| && ps[k].Hole? && ps[k].arg == Digits(x);
      IndexOfDigits(x);
      assert rs[k] == ps[k];
    }
  }

  /** Position `i` is taken by some hole of the message, by number or as
      an implicit `{}`. */
  predicate Takes(m: string, i: nat) {
    Parse(m).Some? && RefersTo(Explicit(Parse(m).value, 0), i)
  }

  /** The renumbering of a tuple struct's message, done on the holes of the
      format syntax: every hole taking a position below the field count
      `n`, whether written `{i}`, `{i:spec}` or `{}`, is renumbered to that
      position's rank, brace escapes are left alone, and the fields passed
      are exactly the positions taken, ascending. A message Rust cannot
      read has no renumbering. */
  function RenumberFormat(m: string, n: nat): (r: Option<Renumbered>)
    ensures r.Some? <==> Parse(m).Some?
    ensures r.Some? ==> |r.value.fields| + r.value.ignored == n
    ensures r.Some? ==> forall i: nat :: i < n ==> (i in r.value.fields <==> Takes(m, i))
    ensures r.Some? ==> forall s, t :: 0 <= s < t < |r.value.fields| ==> r.value.fields[s] < r.value.fields[t]
  {
    if Parse(m).None? then None
    else
      var e := Explicit(Parse(m).value, 0);
      var fields := Taken(e, n);
      Some(Renumbered(Unparse(Renames(e, n)), fields, n - |fields|))
  }

  /** The renumbered message with the passed fields prints what Rust
      prints for the original message when position `i` shows field `i`. */
  lemma RenumberFormatRenders(m: string, n: nat, v: (string, Option<string>) -> string)
    requires Parse(m).Some?
    ensures var r := RenumberFormat(m, n).value;
      RenderFormat(r.message, PositionalValues(r.fields, v)) == RenderFormat(m, v)
  {
    var ps := Parse(m).value;
    var e := Explicit(ps, 0);
    UnparseParse(m);
    ExplicitWritable(ps, 0);
    RenamesWritable(e, n);
    ParseUnparse(Renames(e, n));
    RenamesRenders(e, n, v);
    ExplicitRenders(ps, 0, 0, v);
  }

  /** In the renumbered message the positions below the field count that
      some hole takes are exactly `0`…`k-1`, `k` being the number of fields
      passed: every passed field is shown, and no hole is left pointing
      at a field that is not passed. */
  lemma RenumberFormatTaken(m: string, n: nat)
    requires Parse(m).Some?
    ensures var r := RenumberFormat(m, n).value;
      && Parse(r.message).Some?
      && (forall x: nat :: x < n ==> (Takes(r.message, x) <==> x < |r.fields|))
      && (forall x: nat :: n <= x ==> (Takes(r.message, x) <==> Takes(m, x)))
  {
    var ps := Parse(m).value;
    var e := Explicit(ps, 0);
    UnparseParse(m);
    ExplicitWritable(ps, 0);
    RenamesWritable(e, n);
    ParseUnparse(Renames(e, n));
    ExplicitKeeps(Renames(e, n), 0);
    RenamesTaken(e, n);
  }

  // ---------------------------------------------------------------------
  // Tuple structs: on bare messages the text rewriting is correct

  /** Renaming keeps a message bare. */
  lemma RenamesBare(ps: seq<Piece>, n: nat)
    requires Bare(ps) && AllWritable(ps)
    ensures Bare(Renames(ps, n)) && AllWritable(Renames(ps, n))
  {
    RenamesWritable(ps, n);
  }

  /** Renaming the holes below `n` is renaming those below `n - 1`, then
      the holes numbered `n - 1` to that position's rank. */
  lemma RenamesStep(ps: seq<Piece>, n: nat)
    requires n > 0
    ensures Renames(ps, n) == RenameArg(Renames(ps, n - 1), Digits(n - 1), Digits(|Taken(ps, n - 1)|))
  {
    var prev := Renames(ps, n - 1);
    var r := RenameArg(prev, Digits(n - 1), Digits(|Taken(ps, n - 1)|));
    forall k | 0 <= k < |ps|
      ensures Renames(ps, n)[k] == r[k]
    {
      var p := ps[k];
      if p.Hole? && IndexOf(p.arg).Some? && IndexOf(p.arg).value < n - 1 {
        var i := IndexOf(p.arg).value;
        if Digits(|Taken(ps, i)|) == Digits(n - 1) {
          DigitsInjective(|Taken(ps, i)|, n - 1);
        }
      } else if p.Hole? && p.arg == Digits(n - 1) {
        IndexOfDigits(n - 1);
      }
    }
  }

  /** On a message of bare placeholders, the source's loop computes what
      renaming the parsed holes computes: the same text, the positions
      taken, and the rest skipped. */
  lemma {:induction false} RenumberOnPieces(m: string, n: nat)
    requires Parse(m).Some? && Bare(Parse(m).value)
    ensures var ps := Parse(m).value;
      Renumber(m, n) == Renumbered(Unparse(Renames(ps, n)), Taken(ps, n), n - |Taken(ps, n)|)
  {
    var ps := Parse(m).value;
    UnparseParse(m);
    if n == 0 {
      assert Renames(ps, 0) == ps;
    } else {
      RenumberOnPieces(m, n - 1);
      var prev := Renumber(m, n - 1);
      var rs := Renames(ps, n - 1);
      var used := Taken(ps, n - 1);
      RenamesBare(ps, n - 1);
      ContainsHasArg(rs, Digits(n - 1));
      RenamesTaken(ps, n - 1);
      RenamesStep(ps, n);
      assert Renumber(m, n) == Visit(prev, n - 1);
      if RefersTo(ps, n - 1) {
        assert RefersTo(rs, n - 1);
        ReplaceRenames(rs, Digits(n - 1), Digits(|used|));
      } else {
        assert !HasArg(rs, Digits(n - 1));
        assert RenameArg(rs, Digits(n - 1), Digits(|used|)) == rs;
      }
    }
  }

  /** On a message of bare placeholders (no brace escape, no `{}`, no
      format specification), the renumbering on the holes is exactly the
      source's textual loop: same message, same fields passed, same count
      skipped. */
  lemma RenumberFormatAgrees(m: string, n: nat)
    requires Parse(m).Some? && Bare(Parse(m).value)
    ensures RenumberFormat(m, n) == Some(Renumber(m, n))
  {
    ExplicitKeeps(Parse(m).value, 0);
    RenumberOnPieces(m, n);
  }

  // ---------------------------------------------------------------------
  // Named fields

  /** `get_used_identifiers_in_string`: the field names whose placeholder
      `{name}` the message contains, in declaration order. */
  function UsedIdentifiers(m: string, names: seq<string>): (used: seq<string>)
    ensures forall x :: x in used <==> x in names && Contains(m, Tok(x))
    ensures SubsequenceOf(used, names)
  {
    if |names| == 0 then []
    else
      var rest := UsedIdentifiers(m, names[1..]);
      if Contains(m, Tok(names[0])) then
        assert ([names[0]] + rest)[1..] == rest;
        [names[0]] + rest
      else
        SkipHead(rest, names);
        rest
  }

  /** Selecting used fields never repeats one when the names are distinct. */
  lemma {:induction false} UsedIdentifiersDistinct(m: string, names: seq<string>)
    requires Distinct(names)
    ensures Distinct(UsedIdentifiers(m, names))
  {
    if |names| > 0 {
      var rest := UsedIdentifiers(m, names[1..]);
      UsedIdentifiersDistinct(m, names[1..]);
      if Contains(m, Tok(names[0])) {
        assert names[0] !in names[1..];
        assert names[0] !in rest;
        var used := [names[0]] + rest;
        assert used == UsedIdentifiers(m, names);
        forall s, t | 0 <= s < t < |used|
          ensures used[s] != used[t]
        {
          if s == 0 {
            assert used[s] == names[0];
            assert used[t] == rest[t - 1] && rest[t - 1] in rest;
            assert used[t] != names[0];
          } else {
            assert used[s] == rest[s - 1] && used[t] == rest[t - 1];
            assert rest[s - 1] != rest[t - 1];
          }
        }
      }
    }
  }

  // ---------------------------------------------------------------------
  // Tuple variants: placeholders renamed to binding letters

  /** The character `char::from_u32(97 + i)`: `a` for field 0 … `z` for field
      25. Past 25 the source derives `{`, `|`, … which are no identifiers;
      the model reports those as failures. */
  function Letter(i: nat): (c: char)
    requires i < 26
    ensures 'a' <= c <= 'z'
  {
    (97 + i) as char
  }

  function LetterWord(i: nat): (w: string)
    requires i < 26
    ensures Word(w) && !IsDigit(w[0])
  {
    [Letter(i)]
  }

  /** Every used placeholder has a letter. */
  predicate Lettered(m: string, n: nat) {
    forall i: nat :: i < n && Contains(m, IndexToken(i)) ==> i < 26
  }

  /** The message after renaming, for every field `i < n` that the ORIGINAL
      message uses, `{i}` to `{letter}`. */
  function Letters(m: string, n: nat): string
    requires Lettered(m, n)
  {
    if n == 0 then m
    else
      var prev := Letters(m, n - 1);
      if Contains(m, IndexToken(n - 1)) then Replace(prev, IndexToken(n - 1), Tok(LetterWord(n - 1)))
      else prev
  }

  /** The rendering of the original message in which `{i}` shows what the
      binding letter of field `i` holds. */
  function LetterArgs(m: string, n: nat, v: string -> string): string -> string
    requires Lettered(m, n)
  {
    (w: string) =>
      var x := IndexOf(w);
      if x.Some? && x.value < n && Contains(m, IndexToken(x.value)) then v(LetterWord(x.value)) else v(w)
  }

  /** After renaming, no placeholder of a field below `n` is left, the letters
      of the used fields are present, and placeholders at or above `n` are
      untouched. */
  lemma {:induction false} LettersContains(m: string, n: nat)
    requires Lettered(m, n)
    ensures forall x: nat :: x < n ==> !Contains(Letters(m, n), IndexToken(x))
    ensures forall x: nat :: n <= x ==> (Contains(Letters(m, n), IndexToken(x)) <==> Contains(m, IndexToken(x)))
    ensures forall x: nat :: x < n && Contains(m, IndexToken(x)) ==> Contains(Letters(m, n), Tok(LetterWord(x)))
  {
    if n > 0 {
      LettersContains(m, n - 1);
      var prev := Letters(m, n - 1);
      var i := n - 1;
      if Contains(m, IndexToken(i)) {
        var l := LetterWord(i);
        ReplaceIntroduces(prev, Digits(i), l);
        forall x: nat
          ensures Contains(Letters(m, n), IndexToken(x)) <==> Contains(prev, IndexToken(x)) && x != i
        {
          if Digits(x) == Digits(i) {
            DigitsInjective(x, i);
          }
          assert Digits(x)[0] != l[0];
          ReplaceContains(prev, Digits(i), l, Digits(x));
        }
        forall x: nat | x < i && Contains(m, IndexToken(x))
          ensures Contains(Letters(m, n), Tok(LetterWord(x)))
        {
          assert LetterWord(x) != l;
          ReplaceContains(prev, Digits(i), l, LetterWord(x));
        }
      }
    }
  }

  /** Renaming changes nothing a reader sees: the renamed message renders as
      the original does when each used `{i}` shows field `i`'s letter. */
  lemma {:induction false} LettersRender(m: string, n: nat, v: string -> string)
    requires Lettered(m, n)
    ensures Interp(Letters(m, n), v) == Interp(m, LetterArgs(m, n, v))
  {
    if n == 0 {
      forall w
        ensures v(w) == LetterArgs(m, 0, v)(w)
      {
        var x := IndexOf(w);
        assert !(x.Some? && x.value < 0);
      }
      InterpAgree(m, v, LetterArgs(m, 0, v));
    } else {
      var i := n - 1;
      if Contains(m, IndexToken(i)) {
        var v' := (w: string) => if w == Digits(i) then v(LetterWord(i)) else v(w);
        InterpReplace(Letters(m, i), Digits(i), LetterWord(i), v);
        LettersRender(m, i, v');
        LetterArgsStep(m, n, v);
        InterpAgree(m, LetterArgs(m, i, v'), LetterArgs(m, n, v));
      } else {
        LettersRender(m, i, v);
        InterpAgree(m, LetterArgs(m, i, v), LetterArgs(m, n, v));
      }
    }
  }

  /** Renaming the last used field's placeholder moves its letter into the
      valuation. */
  lemma LetterArgsStep(m: string, n: nat, v: string -> string)
    requires 0 < n && Lettered(m, n) && Contains(m, IndexToken(n - 1))
    ensures var v' := (w: string) => if w == Digits(n - 1) then v(LetterWord(n - 1)) else v(w);
      forall w :: LetterArgs(m, n - 1, v')(w) == LetterArgs(m, n, v)(w)
  {
    var i := n - 1;
    var v' := (w: string) => if w == Digits(i) then v(LetterWord(i)) else v(w);
    IndexOfDigits(i);
    forall w
      ensures LetterArgs(m, i, v')(w) == LetterArgs(m, n, v)(w)
    {
      var x := IndexOf(w);
      if x.Some? && x.value < i && Contains(m, IndexToken(x.value)) {
        assert LetterWord(x.value) != Digits(i);
      }
    }
  }
}

=== FILE: format_strings.dfy ===
/** The format-string syntax of Rust's `std::fmt`, which the generated
    `write!` calls are read with: literal text, `{{` and `}}` for literal
    braces, and holes `{arg}` or `{arg:spec}`, where an empty `arg` (`{}`,
    `{:?}`) takes the next implicit positional argument. A message is
    rendered by printing every hole's argument under its specification. */
module FormatStrings {
  import opened Results
  import opened Placeholders

  /** One piece of a parsed format string: a literal character, or a hole
      with the text of its argument and its specification, if any. */
  datatype Piece = Char(c: char) | Hole(arg: string, spec: Option<string>)

  /** The first colon of `w` at or after position `j`. */
  function ColonFrom(w: string, j: nat): (r: Option<nat>)
    requires j <= |w|
    ensures r.Some? ==> j <= r.value < |w| && w[r.value] == ':'
    ensures forall k :: j <= k < (if r.Some? then r.value else |w|) ==> w[k] != ':'
    decreases |w| - j
  {
    if j == |w| then None
    else if w[j] == ':' then Some(j)
    else ColonFrom(w, j + 1)
  }

  /** The hole written `{body}`: the argument runs up to the first colon,
      and the specification is what follows it. */
  function HoleOf(body: string): (p: Piece)
    ensures p.Hole?
  {
    match ColonFrom(body, 0)
    case Some(j) => Hole(body[..j], Some(body[j + 1..]))
    case None => Hole(body, None)
  }

  function Cons(p: Piece, rest: Option<seq<Piece>>): Option<seq<Piece>> {
    if rest.Some? then Some([p] + rest.value) else None
  }

  /** Reads a format string; `None` when a brace is unmatched, or a hole
      holds a brace, which Rust rejects at compile time. */
  function Parse(s: string): (r: Option<seq<Piece>>)
    decreases |s|
  {
    if |s| == 0 then Some([])
    else if s[0] == '{' then
      if |s| >= 2 && s[1] == '{' then Cons(Char('{'), Parse(s[2..]))
      else
        var close := BraceFrom(s, 1);
        if close.Some? && s[close.value] == '}' then Cons(HoleOf(s[1..close.value]), Parse(s[close.value + 1..]))
        else None
    else if s[0] == '}' then
      if |s| >= 2 && s[1] == '}' then Cons(Char('}'), Parse(s[2..])) else None
    else Cons(Char(s[0]), Parse(s[1..]))
  }

  /** How a piece is written. */
  function PieceText(p: Piece): string {
    match p
    case Char(c) => if c == '{' then "{{" else if c == '}' then "}}" else [c]
    case Hole(arg, None) => "{" + arg + "}"
    case Hole(arg, Some(spec)) => "{" + arg + ":" + spec + "}"
  }

  /** Writes pieces back as a format string. */
  function Unparse(ps: seq<Piece>): string {
    if |ps| == 0 then "" else PieceText(ps[0]) + Unparse(ps[1..])
  }

  /** A piece that reads back as itself: a hole's argument has no brace
      and no colon, and its specification no brace. */
  predicate Writable(p: Piece) {
    p.Hole? ==> BraceFree(p.arg) && ':' !in p.arg && (p.spec.Some? ==> BraceFree(p.spec.value))
  }

  /** Renders pieces: a character prints itself; a hole prints what `v`
      gives for its argument under its specification, an empty argument
      standing for the implicit position `next`, which it then advances. */
  function Render(ps: seq<Piece>, next: nat, v: (string, Option<string>) -> string): string {
    if |ps| == 0 then ""
    else match ps[0]
      case Char(c) => [c] + Render(ps[1..], next, v)
      case Hole(arg, spec) =>
        if arg == "" then v(Digits(next), spec) + Render(ps[1..], next + 1, v)
        else v(arg, spec) + Render(ps[1..], next, v)
  }

  /** What Rust prints for a format string, or `None` where its braces do
      not match or a hole holds a brace. */
  function RenderFormat(s: string, v: (string, Option<string>) -> string): Option<string> {
    if Parse(s).Some? then Some(Render(Parse(s).value, 0, v)) else None
  }

  // ---------------------------------------------------------------------
  // Reading and writing are inverse

  lemma UnparseCons(p: Piece, ps: seq<Piece>)
    ensures Unparse([p] + ps) == PieceText(p) + Unparse(ps)
  {
    assert ([p] + ps)[1..] == ps;
  }

  /** A hole written back gives the text it was read from. */
  lemma HoleOfText(body: string)
    ensures PieceText(HoleOf(body)) == "{" + body + "}"
  {
    match ColonFrom(body, 0)
    case Some(j) =>
      assert body[..j] + ":" + body[j + 1..] == body by {
        assert body == body[..j] + [body[j]] + body[j + 1..];
      }
    case None =>
  }

  predicate AllWritable(ps: seq<Piece>) {
    forall k :: 0 <= k < |ps| ==> Writable(ps[k])
  }

  /** The pieces read from `s`, if any, write back as `s` and read back as
      themselves. */
  predicate ReadsBack(s: string) {
    Parse(s).Some? ==> Unparse(Parse(s).value) == s && AllWritable(Parse(s).value)
  }

  lemma ConsReadsBack(s: string, p: Piece, rest: string)
    requires Writable(p) && ReadsBack(rest)
    requires s == PieceText(p) + rest && Parse(s) == Cons(p, Parse(rest))
    ensures ReadsBack(s)
  {
    if Parse(rest).Some? {
      var ps := Parse(rest).value;
      UnparseCons(p, ps);
      assert forall k :: 0 <= k < |ps| ==> ([p] + ps)[k + 1] == ps[k];
    }
  }

  /** The pieces read from a format string write back as that string, and
      each reads back as itself. */
  lemma {:induction false} UnparseParse(s: string)
    ensures ReadsBack(s)
    decreases |s|
  {
    if |s| == 0 {
    } else if s[0] == '{' && |s| >= 2 && s[1] == '{' {
      UnparseParse(s[2..]);
      ConsReadsBack(s, Char('{'), s[2..]);
    } else if s[0] == '{' {
      var close := BraceFrom(s, 1);
      if close.Some? && s[close.value] == '}' {
        var k := close.value;
        UnparseParse(s[k + 1..]);
        HoleReadsBack(s, k);
      }
    } else if s[0] == '}' {
      if |s| >= 2 && s[1] == '}' {
        UnparseParse(s[2..]);
        ConsReadsBack(s, Char('}'), s[2..]);
      }
    } else {
      UnparseParse(s[1..]);
      ConsReadsBack(s, Char(s[0]), s[1..]);
    }
  }

  lemma HoleReadsBack(s: string, k: nat)
    requires 0 < k < |s| && s[0] == '{' && s[1] != '{'
    requires BraceFrom(s, 1) == Some(k) && s[k] == '}'
    requires ReadsBack(s[k + 1..])
    ensures ReadsBack(s)
  {
    var body := s[1..k];
    ParseHoleStep(s, k);
    HoleOfText(body);
    BodyBraceFree(s, k);
    HoleWritable(body);
    assert s == "{" + body + "}" + s[k + 1..];
    ConsReadsBack(s, HoleOf(body), s[k + 1..]);
  }

  /** How `Parse` reads a hole at the front closed at `k`. */
  lemma ParseHoleStep(s: string, k: nat)
    requires 0 < k < |s| && s[0] == '{' && s[1] != '{'
    requires BraceFrom(s, 1) == Some(k) && s[k] == '}'
    ensures Parse(s) == Cons(HoleOf(s[1..k]), Parse(s[k + 1..]))
  {
  }

  lemma BodyBraceFree(s: string, k: nat)
    requires 0 < k <= |s| && BraceFrom(s, 1) == Some(k)
    ensures BraceFree(s[1..k])
  {
    assert forall i :: 0 <= i < k - 1 ==> s[1..k][i] == s[1 + i];
  }

  lemma HoleWritable(body: string)
    requires BraceFree(body)
    ensures Writable(HoleOf(body))
  {
    match ColonFrom(body, 0)
    case Some(j) =>
      var arg, spec := body[..j], body[j + 1..];
      assert forall k :: 0 <= k < |arg| ==> arg[k] == body[k];
      assert forall k :: 0 <= k < |spec| ==> spec[k] == body[j + 1 + k];
    case None =>
  }

  /** The first brace from `j` on is at `k` when none comes before. */
  lemma BraceFromAt(s: string, j: nat, k: nat)
    requires j <= k < |s| && (s[k] == '{' || s[k] == '}')
    requires forall i :: j <= i < k ==> s[i] != '{' && s[i] != '}'
    ensures BraceFrom(s, j) == Some(k)
  {
  }

  /** The first colon from `j` on is at `k` when none comes before. */
  lemma ColonFromAt(w: string, j: nat, k: nat)
    requires j <= k < |w| && w[k] == ':'
    requires forall i :: j <= i < k ==> w[i] != ':'
    ensures ColonFrom(w, j) == Some(k)
  {
  }

  /** Writable pieces read back as themselves. */
  lemma {:induction false} ParseUnparse(ps: seq<Piece>)
    requires AllWritable(ps)
    ensures Parse(Unparse(ps)) == Some(ps)
    decreases |ps|
  {
    if |ps| > 0 {
      assert AllWritable(ps[1..]) by {
        assert forall k :: 0 <= k < |ps| - 1 ==> ps[1..][k] == ps[k + 1];
      }
      ParseUnparse(ps[1..]);
      ParsePieceText(ps[0], Unparse(ps[1..]));
      assert [ps[0]] + ps[1..] == ps;
    }
  }

  /** A writable piece written in front of a text is read back first. */
  lemma ParsePieceText(p: Piece, t: string)
    requires Writable(p)
    ensures Parse(PieceText(p) + t) == Cons(p, Parse(t))
  {
    if p.Char? {
      ParseCharText(p.c, t);
    } else {
      ParseHolePieceText(p.arg, p.spec, t);
    }
  }

  lemma ParseCharText(c: char, t: string)
    ensures Parse(PieceText(Char(c)) + t) == Cons(Char(c), Parse(t))
  {
    var s := PieceText(Char(c)) + t;
    if c == '{' || c == '}' {
      assert s[2..] == t;
    } else {
      assert s[1..] == t;
    }
  }

  lemma ParseHolePieceText(arg: string, spec: Option<string>, t: string)
    requires Writable(Hole(arg, spec))
    ensures Parse(PieceText(Hole(arg, spec)) + t) == Cons(Hole(arg, spec), Parse(t))
  {
    var body := if spec.Some? then arg + ":" + spec.value else arg;
    assert PieceText(Hole(arg, spec)) == "{" + body + "}";
    BodyOfHoleBraceFree(arg, spec);
    ParseHoleText(body, t);
    HoleOfBody(arg, spec);
  }

  lemma BodyOfHoleBraceFree(arg: string, spec: Option<string>)
    requires Writable(Hole(arg, spec))
    ensures BraceFree(if spec.Some? then arg + ":" + spec.value else arg)
  {
    var body := if spec.Some? then arg + ":" + spec.value else arg;
    forall i | 0 <= i < |body|
      ensures body[i] != '{' && body[i] != '}'
    {
      if i < |arg| {
        assert body[i] == arg[i];
      } else if i > |arg| {
        assert body[i] == spec.value[i - |arg| - 1];
      }
    }
  }

  /** A hole `{body}` with a brace-free body, written in front of a text,
      is read back first. */
  lemma ParseHoleText(body: string, t: string)
    requires BraceFree(body)
    ensures Parse("{" + body + "}" + t) == Cons(HoleOf(body), Parse(t))
  {
    var s := "{" + body + "}" + t;
    var k := |body| + 1;
    assert s[1..k] == body && s[k] == '}' && s[k + 1..] == t;
    forall i | 1 <= i < k
      ensures s[i] != '{' && s[i] != '}'
    {
      assert s[i] == body[i - 1];
    }
    BraceFromAt(s, 1, k);
  }

  /** Splitting the body of a writable hole gives that hole back. */
  lemma HoleOfBody(arg: string, spec: Option<string>)
    requires ':' !in arg
    ensures HoleOf(if spec.Some? then arg + ":" + spec.value else arg) == Hole(arg, spec)
  {
    var body := if spec.Some? then arg + ":" + spec.value else arg;
    forall i | 0 <= i < |arg|
      ensures body[i] != ':'
    {
      assert body[i] == arg[i];
    }
    if spec.Some? {
      ColonFromAt(body, 0, |arg|);
      assert body[..|arg|] == arg;
      assert body[|arg| + 1..] == spec.value;
    }
  }

  // ---------------------------------------------------------------------
  // Text operations on messages of bare pieces

  /** Some hole of `ps` has the argument `a`. */
  predicate HasArg(ps: seq<Piece>, a: string) {
    exists k :: 0 <= k < |ps| && ps[k].Hole? && ps[k].arg == a
  }

  /** The pieces with every hole whose argument is `a` given the argument
      `b`, its specification kept. */
  function RenameArg(ps: seq<Piece>, a: string, b: string): seq<Piece> {
    seq(|ps|, k requires 0 <= k < |ps| => if ps[k].Hole? && ps[k].arg == a then Hole(b, ps[k].spec) else ps[k])
  }

  lemma BareTail(ps: seq<Piece>)
    requires |ps| > 0 && Bare(ps) && AllWritable(ps)
    ensures Bare(ps[1..]) && AllWritable(ps[1..])
  {
    assert forall k :: 0 <= k < |ps| - 1 ==> ps[1..][k] == ps[k + 1];
  }

  /** In a message of bare pieces the text `{a}` occurs exactly where a
      hole has the argument `a`: every opening brace opens a hole. */
  lemma {:induction false} ContainsHasArg(ps: seq<Piece>, a: string)
    requires Bare(ps) && AllWritable(ps) && Word(a)
    ensures Contains(Unparse(ps), Tok(a)) <==> HasArg(ps, a)
    decreases |ps|
  {
    if |ps| > 0 {
      var s, t := Unparse(ps), Unparse(ps[1..]);
      assert BarePiece(ps[0]) && Writable(ps[0]);
      BareTail(ps);
      ContainsHasArg(ps[1..], a);
      assert HasArg(ps[1..], a) ==> HasArg(ps, a) by {
        if HasArg(ps[1..], a) {
          var k :| 0 <= k < |ps| - 1 && ps[1..][k].Hole? && ps[1..][k].arg == a;
          assert ps[k + 1] == ps[1..][k];
        }
      }
      match ps[0]
      case Char(c) =>
        assert s == [c] + t && s[1..] == t;
        assert !StartsWith(s, Tok(a)) by {
          if StartsWith(s, Tok(a)) {
            StartsWithAt(s, Tok(a), 0);
          }
        }
        assert HasArg(ps, a) ==> HasArg(ps[1..], a) by {
          if HasArg(ps, a) {
            var k :| 0 <= k < |ps| && ps[k].Hole? && ps[k].arg == a;
            assert ps[1..][k - 1] == ps[k];
          }
        }
      case Hole(w, _) =>
        assert s == Tok(w) + t;
        if w == a {
          StartsWithConcat(Tok(w), t);
          ContainsStart(s, Tok(a));
        } else {
          ContainsAfterTok(w, t, a);
          assert HasArg(ps, a) ==> HasArg(ps[1..], a) by {
            if HasArg(ps, a) {
              var k :| 0 <= k < |ps| && ps[k].Hole? && ps[k].arg == a;
              assert ps[1..][k - 1] == ps[k];
            }
          }
        }
    }
  }

  /** In a message of bare pieces, replacing the text `{a}` by `{b}`
      renames exactly the holes whose argument is `a`. */
  lemma {:induction false} ReplaceRenames(ps: seq<Piece>, a: string, b: string)
    requires Bare(ps) && AllWritable(ps) && Word(a)
    ensures Replace(Unparse(ps), Tok(a), Tok(b)) == Unparse(RenameArg(ps, a, b))
    decreases |ps|
  {
    if |ps| > 0 {
      var s, t := Unparse(ps), Unparse(ps[1..]);
      var r := RenameArg(ps, a, b);
      assert BarePiece(ps[0]) && Writable(ps[0]);
      BareTail(ps);
      ReplaceRenames(ps[1..], a, b);
      assert r[1..] == RenameArg(ps[1..], a, b);
      assert Unparse(r) == PieceText(r[0]) + Unparse(RenameArg(ps[1..], a, b));
      match ps[0]
      case Char(c) =>
        assert s == [c] + t && s[1..] == t;
        assert !StartsWith(s, Tok(a)) by {
          if StartsWith(s, Tok(a)) {
            StartsWithAt(s, Tok(a), 0);
          }
        }
      case Hole(w, _) =>
        assert s == Tok(w) + t;
        assert s[|Tok(w)|..] == t;
        if w == a {
          StartsWithConcat(Tok(w), t);
        } else {
          StartsWithConcat(Tok(w), t);
          ReplaceSkipTok(s, a, Tok(b), w);
        }
    }
  }

  // ---------------------------------------------------------------------
  // Where the bare placeholder reading is Rust's

  /** A piece of a message that uses only bare placeholders: a character
      that is no brace, or a hole `{w}` with a named or numbered argument
      and no specification. */
  predicate BarePiece(p: Piece) {
    match p
    case Char(c) => c != '{' && c != '}'
    case Hole(arg, spec) => arg != "" && spec.None?
  }

  predicate Bare(ps: seq<Piece>) {
    forall k :: 0 <= k < |ps| ==> BarePiece(ps[k])
  }

  /** On a message with bare placeholders only (no brace escape, no `{}`,
      no format specification), the bare-placeholder reading `Interp` is
      exactly what Rust prints. */
  lemma {:induction false} InterpIsRender(s: string, v: string -> string)
    requires Parse(s).Some? && Bare(Parse(s).value)
    ensures Render(Parse(s).value, 0, (w: string, spec: Option<string>) => v(w)) == Interp(s, v)
    decreases |s|
  {
    var ps := Parse(s).value;
    if |s| > 0 {
      assert BarePiece(ps[0]);
      assert Bare(ps[1..]) by {
        assert forall k :: 0 <= k < |ps| - 1 ==> ps[1..][k] == ps[k + 1];
      }
      if s[0] == '{' {
        var k := BraceFrom(s, 1).value;
        var body := s[1..k];
        assert ps == [HoleOf(body)] + Parse(s[k + 1..]).value;
        HoleOfText(body);
        assert HoleOf(body) == Hole(body, None);
        assert Word(body) by {
          assert forall i :: 0 <= i < |body| ==> body[i] == s[1 + i];
        }
        assert s == Tok(body) + s[k + 1..];
        InterpIsRender(s[k + 1..], v);
        HoleIsRender(body, s[k + 1..], v);
      } else {
        assert ps == [Char(s[0])] + Parse(s[1..]).value;
        InterpIsRender(s[1..], v);
        CharIsRender(s, v);
      }
    }
  }

  /** The step of `InterpIsRender` for a bare hole at the front. */
  lemma HoleIsRender(body: string, y: string, v: string -> string)
    requires Word(body) && Parse(y).Some?
    requires Render(Parse(y).value, 0, (w: string, spec: Option<string>) => v(w)) == Interp(y, v)
    ensures Render([Hole(body, None)] + Parse(y).value, 0, (w: string, spec: Option<string>) => v(w)) == Interp(Tok(body) + y, v)
  {
    var rest := Parse(y).value;
    assert ([Hole(body, None)] + rest)[1..] == rest;
    InterpTok(body, y, v);
  }

  /** The step of `InterpIsRender` for a character that is no brace. */
  lemma CharIsRender(s: string, v: string -> string)
    requires |s| > 0 && s[0] != '{' && s[0] != '}' && Parse(s[1..]).Some?
    requires Render(Parse(s[1..]).value, 0, (w: string, spec: Option<string>) => v(w)) == Interp(s[1..], v)
    ensures Render([Char(s[0])] + Parse(s[1..]).value, 0, (w: string, spec: Option<string>) => v(w)) == Interp(s, v)
  {
    var rest := Parse(s[1..]).value;
    assert ([Char(s[0])] + rest)[1..] == rest;
    forall w | Word(w)
      ensures !StartsWith(s, Tok(w))
    {
      if StartsWith(s, Tok(w)) {
        StartsWithAt(s, Tok(w), 0);
      }
    }
    InterpPlain(s, v);
  }
}

=== FILE: from_enums.dfy ===
/** `From` for enums (src/impl_from/enums.rs): every variant is looked at,
    all errors are collected in variant order, and the conversions are
    kept only when there is no error at all. */
module FromEnums {
  import opened Results
  import opened Sequences
  import opened Syntax
  import opened Parameters
  import opened Conversions
  import opened DisplayEnum

  /** What one variant adds to the fold: a conversion, nothing, or an
      error. */
  datatype Step = Contributes(impl: Option<FromImpl>) | Fails(error: FromImplementationError)

  /** `implement_for_variant`: the conversion `E::V { f: val }` or
      `E::V(val)` for a variant with exactly one field; any other shape is
      an error naming the enum and the variant. */
  function ImplementForVariant(enumName: string, variant: Variant): (r: Result<FromImpl, FromImplementationError>)
    ensures r.Success? <==> FieldCount(variant.fields) == 1
    ensures r.Success? ==> Convert(enumName, [enumName, variant.name], variant.fields) == Some(r.value)
    ensures r.Failure? ==> r.error == NotExactlyOneField(EnumItem(enumName, variant.name))
  {
    match Convert(enumName, [enumName, variant.name], variant.fields)
    case Some(c) => Success(c)
    case None => Failure(NotExactlyOneField(EnumItem(enumName, variant.name)))
  }

  /** The variant's own `impl_from` flag; a variant without parameters
      has it unset. */
  function VariantFlag(entry: VariantEntry): Result<bool, ParamError>
  {
    if entry.1.None? then Success(false) else BoolForName(entry.1.value, ImplFromParameter)
  }

  /** One step of the fold. With neither flag the variant adds nothing;
      with both it is `ParameterOnEnumAndVariant` whatever its shape; with
      exactly one it is converted. */
  function VariantStep(enumName: string, global: bool, entry: VariantEntry): (r: Result<Step, ParamError>)
    ensures r.Failure? <==> VariantFlag(entry).Failure?
    ensures r.Success? && !global && !VariantFlag(entry).value ==> r.value == Contributes(None)
    ensures r.Success? && global && VariantFlag(entry).value ==>
      r.value == Fails(ParameterOnEnumAndVariant(enumName, entry.0.name))
    ensures r.Success? && global != VariantFlag(entry).value ==>
      match ImplementForVariant(enumName, entry.0)
      case Success(c) => r.value == Contributes(Some(c))
      case Failure(e) => r.value == Fails(e)
  {
    var own :- VariantFlag(entry);
    if !own && !global then Success(Contributes(None))
    else if own && global then Success(Fails(ParameterOnEnumAndVariant(enumName, entry.0.name)))
    else match ImplementForVariant(enumName, entry.0)
      case Success(c) => Success(Contributes(Some(c)))
      case Failure(e) => Success(Fails(e))
  }

  /** The steps of all variants, in order; the first flag lookup that
      panics stops the fold. */
  function Steps(enumName: string, global: bool, entries: seq<VariantEntry>): (r: Result<seq<Step>, ParamError>)
    ensures r.Success? <==> forall i :: 0 <= i < |entries| ==> VariantFlag(entries[i]).Success?
    ensures r.Success? ==> |r.value| == |entries|
    ensures r.Success? ==> forall i :: 0 <= i < |entries| ==>
      VariantStep(enumName, global, entries[i]) == Success(r.value[i])
  {
    if |entries| == 0 then Success([])
    else
      var n := |entries| - 1;
      var prev :- Steps(enumName, global, entries[..n]);
      var step :- VariantStep(enumName, global, entries[n]);
      Success(prev + [step])
  }

  /** The fold's accumulator: conversions and errors, each in the order
      the variants produced them. */
  function Fold(steps: seq<Step>): (acc: (seq<FromImpl>, seq<FromImplementationError>)) {
    if |steps| == 0 then ([], [])
    else
      var prev := Fold(steps[..|steps| - 1]);
      var last := steps[|steps| - 1];
      (prev.0 + ImplOf(last), prev.1 + ErrorOf(last))
  }

  /** The conversion a step adds, as a list of at most one. */
  function ImplOf(s: Step): seq<FromImpl> {
    if s.Contributes? && s.impl.Some? then [s.impl.value] else []
  }

  /** The error a step adds, as a list of at most one. */
  function ErrorOf(s: Step): seq<FromImplementationError> {
    if s.Fails? then [s.error] else []
  }

  /** The errors of the steps, read from the front: a reference for what
      the fold collects. */
  function ErrorsOf(steps: seq<Step>): (errors: seq<FromImplementationError>)
    ensures forall e :: e in errors <==> Fails(e) in steps
    ensures |errors| == 0 <==> forall i :: 0 <= i < |steps| ==> !steps[i].Fails?
  {
    if |steps| == 0 then [] else ErrorOf(steps[0]) + ErrorsOf(steps[1..])
  }

  /** The conversions of the steps, read from the front. */
  function ImplsOf(steps: seq<Step>): (impls: seq<FromImpl>)
    ensures forall c :: c in impls <==> Contributes(Some(c)) in steps
  {
    if |steps| == 0 then [] else ImplOf(steps[0]) + ImplsOf(steps[1..])
  }

  lemma {:induction false} ErrorsOfAppend(steps: seq<Step>, s: Step)
    ensures ErrorsOf(steps + [s]) == ErrorsOf(steps) + ErrorOf(s)
  {
    if |steps| == 0 {
      assert [] + [s] == [s];
      assert ErrorsOf([s]) == ErrorOf(s) + ErrorsOf([]);
    } else {
      assert (steps + [s])[1..] == steps[1..] + [s];
      ErrorsOfAppend(steps[1..], s);
    }
  }

  lemma {:induction false} ImplsOfAppend(steps: seq<Step>, s: Step)
    ensures ImplsOf(steps + [s]) == ImplsOf(steps) + ImplOf(s)
  {
    if |steps| == 0 {
      assert [] + [s] == [s];
      assert ImplsOf([s]) == ImplOf(s) + ImplsOf([]);
    } else {
      assert (steps + [s])[1..] == steps[1..] + [s];
      ImplsOfAppend(steps[1..], s);
    }
  }

  /** The fold keeps going after an error: it collects every variant's
      error and every conversion, in variant order. */
  lemma {:induction false} FoldCollectsAll(steps: seq<Step>)
    ensures Fold(steps) == (ImplsOf(steps), ErrorsOf(steps))
  {
    if |steps| > 0 {
      var n := |steps| - 1;
      var init := steps[..n];
      assert init + [steps[n]] == steps;
      FoldCollectsAll(init);
      ErrorsOfAppend(init, steps[n]);
      ImplsOfAppend(init, steps[n]);
    }
  }

  /** `EnumFromImplementer::implement`: the enum's flag is read first; the
      result is the conversions when no variant failed, and otherwise all
      the errors, in variant order, with the conversions dropped. */
  function Implement(item: ItemEnum, enumParams: Parameters, entries: seq<VariantEntry>)
    : (r: Result<FromOutcome, ParamError>)
    ensures BoolForName(enumParams, ImplFromParameter).Failure? ==> r == Failure(ExpectedBoolean)
    ensures r.Success? <==> (BoolForName(enumParams, ImplFromParameter).Success?
      && forall i :: 0 <= i < |entries| ==> VariantFlag(entries[i]).Success?)
    ensures r.Success? ==> Outcome(item.name, BoolForName(enumParams, ImplFromParameter).value, entries, r.value)
  {
    var global :- BoolForName(enumParams, ImplFromParameter);
    var steps :- Steps(item.name, global, entries);
    var (impls, errors) := Fold(steps);
    FoldCollectsAll(steps);
    if |errors| == 0 then Success(Implemented(impls)) else Success(Errors(errors))
  }

  /** The outcome for the given steps: conversions exactly when no step
      failed, and then all of them; otherwise every error. */
  predicate Outcome(enumName: string, global: bool, entries: seq<VariantEntry>, outcome: FromOutcome) {
    && Steps(enumName, global, entries).Success?
    && var steps := Steps(enumName, global, entries).value;
    && (outcome.Implemented? <==> forall i :: 0 <= i < |steps| ==> !steps[i].Fails?)
    && (outcome.Implemented? ==> outcome.impls == ImplsOf(steps))
    && (outcome.Errors? ==> outcome.errors == ErrorsOf(steps))
  }
}

=== FILE: from_structs.dfy ===
/** `From` for structs (src/impl_from/structs.rs): generated only when
    the struct asks for it with `impl_from`, and then only for exactly one
    field. */
module FromStructs {
  import opened Results
  import opened Syntax
  import opened Parameters
  import opened Conversions

  /** `StructFromImplementer::implement`. Without the flag (absent or
      `false`) nothing is generated whatever the shape; with it, a struct
      with exactly one field gets the conversion that builds it from that
      field, and every other shape is an error naming the struct. A string
      `impl_from` makes the flag lookup panic. */
  function Implement(item: ItemStruct, params: Parameters): (r: Result<FromOutcome, ParamError>)
    ensures r.Failure? <==>
      HasParameter(params, ImplFromParameter) && params.values[ImplFromParameter].StringValue?
    ensures BoolForName(params, ImplFromParameter) == Success(false) ==> r == Success(Implemented([]))
    ensures BoolForName(params, ImplFromParameter) == Success(true) && FieldCount(item.fields) != 1 ==>
      r == Success(Errors([NotExactlyOneField(StructItem(item.name))]))
    ensures BoolForName(params, ImplFromParameter) == Success(true) && FieldCount(item.fields) == 1 ==>
      && r.Success? && r.value.Implemented? && |r.value.impls| == 1
      && Convert(item.name, [item.name], item.fields) == Some(r.value.impls[0])
  {
    var flag :- BoolForName(params, ImplFromParameter);
    if !flag then Success(Implemented([]))
    else match Convert(item.name, [item.name], item.fields)
      case None => Success(Errors([NotExactlyOneField(StructItem(item.name))]))
      case Some(c) => Success(Implemented([c]))
  }
}

=== FILE: impl_display.dfy ===
/** The first revision of the `Display` generator (src/impl_display.rs):
    for structs, a `write!` call whose arguments are the fields the
    message uses; for enums, one match arm per variant with a message,
    whose pattern binds exactly the fields that message uses. */
module ImplDisplay {
  import opened Results
  import opened Sequences
  import opened Syntax
  import opened Parameters
  import opened Placeholders
  import opened FormatStrings
  import opened FieldPlaceholders
  import opened DisplayEnum

  // ---------------------------------------------------------------------
  // Structs

  /** `create_named_write_parameters`: `name = self.name` for every field
      the message uses, in declaration order. */
  function NamedWriteArgs(message: string, fields: seq<Field>): (args: seq<WriteArg>)
    ensures forall a :: a in args <==>
      a.SelfField? && a.name in FieldNames(fields) && Contains(message, Tok(a.name))
    ensures |args| <= |fields|
  {
    UsedLength(message, FieldNames(fields));
    SelfFields(UsedIdentifiers(message, FieldNames(fields)))
  }

  /** `name = self.name` for each name. */
  function SelfFields(names: seq<string>): (args: seq<WriteArg>)
    ensures |args| == |names| && forall k :: 0 <= k < |names| ==> args[k] == SelfField(names[k])
    ensures forall a :: a in args <==> a.SelfField? && a.name in names
  {
    if |names| == 0 then [] else [SelfField(names[0])] + SelfFields(names[1..])
  }

  /** `name = name` for each name bound by a pattern. */
  function Bindings(names: seq<string>): (args: seq<WriteArg>)
    ensures |args| == |names| && forall k :: 0 <= k < |names| ==> args[k] == Binding(names[k])
    ensures forall a :: a in args <==> a.Binding? && a.name in names
  {
    if |names| == 0 then [] else [Binding(names[0])] + Bindings(names[1..])
  }

  lemma {:induction false} UsedLength(m: string, names: seq<string>)
    ensures |UsedIdentifiers(m, names)| <= |names|
  {
    if |names| > 0 {
      UsedLength(m, names[1..]);
    }
  }

  /** `self.i` for each passed field. */
  function SelfIndices(fields: seq<nat>): seq<WriteArg>
  {
    seq(|fields|, k requires 0 <= k < |fields| => SelfIndex(fields[k]))
  }

  lemma SelfIndicesAt(fields: seq<nat>)
    ensures |SelfIndices(fields)| == |fields|
    ensures forall k :: 0 <= k < |fields| ==> SelfIndices(fields)[k] == SelfIndex(fields[k])
  {
  }

  /** The field indices a list of `self.i` arguments passes. */
  function Indices(args: seq<WriteArg>): seq<nat>
    requires forall k :: 0 <= k < |args| ==> args[k].SelfIndex?
  {
    seq(|args|, k requires 0 <= k < |args| => args[k].index)
  }

  /** The `write!` call of a tuple struct with `n` fields: it passes the
      fields whose positions the message's holes take, ascending, with
      those holes renumbered densely from `{0}` (the renumbering of
      `RenumberFormat`, which reads the format syntax; the source's own
      loop is `Renumber`). */
  function TupleWriteCall(message: string, n: nat): (call: WriteCall)
    ensures forall k :: 0 <= k < |call.args| ==> call.args[k].SelfIndex?
    ensures forall i: nat :: i < n ==> (SelfIndex(i) in call.args <==> Takes(message, i))
    ensures forall s, t :: 0 <= s < t < |call.args| ==> call.args[s].index < call.args[t].index
    ensures forall x: nat :: x < n ==> (Takes(call.format, x) <==> x < |call.args|)
    ensures (forall i: nat :: i < n ==> !Takes(message, i)) ==> call == WriteCall(message, [])
  {
    var r := RenumberFormat(message, n);
    if r.None? || r.value.fields == [] then
      WriteCall(message, [])
    else
      RenumberFormatTaken(message, n);
      assert r.value.fields[0] < n && Takes(message, r.value.fields[0]);
      SelfIndicesAt(r.value.fields);
      WriteCall(r.value.message, SelfIndices(r.value.fields))
  }

  /** The `write!` call of a struct's `Display` implementation: a unit
      struct passes nothing; a struct with named fields passes the fields
      the message names, message unchanged; a tuple struct's call is
      `TupleWriteCall`. */
  function StructWriteCall(message: string, fields: Fields): (call: WriteCall)
    ensures fields.Unit? ==> call == WriteCall(message, [])
    ensures fields.Named? ==> call.format == message
    ensures fields.Named? ==> forall a :: a in call.args <==>
      a.SelfField? && a.name in FieldNames(fields.fields) && Contains(message, Tok(a.name))
    ensures fields.Unnamed? ==> forall k :: 0 <= k < |call.args| ==> call.args[k].SelfIndex?
    ensures fields.Unnamed? ==> forall i: nat :: i < |fields.types| ==>
      (SelfIndex(i) in call.args <==> Takes(message, i))
    ensures fields.Unnamed? ==> forall s, t :: 0 <= s < t < |call.args| ==> call.args[s].index < call.args[t].index
    ensures fields.Unnamed? ==> forall x: nat :: x < |fields.types| ==>
      (Takes(call.format, x) <==> x < |call.args|)
    ensures fields.Unnamed? && (forall i: nat :: i < |fields.types| ==> !Takes(message, i)) ==>
      call == WriteCall(message, [])
  {
    match fields
    case Unit => WriteCall(message, [])
    case Named(fs) => WriteCall(message, NamedWriteArgs(message, fs))
    case Unnamed(ts) => TupleWriteCall(message, |ts|)
  }

  /** Pieces print the same under valuations that agree everywhere. */
  lemma {:induction false} RenderSameValues(ps: seq<Piece>, next: nat,
                                            v1: (string, Option<string>) -> string,
                                            v2: (string, Option<string>) -> string)
    requires forall w, spec :: v1(w, spec) == v2(w, spec)
    ensures Render(ps, next, v1) == Render(ps, next, v2)
    decreases |ps|
  {
    if |ps| > 0 {
      RenderSameValues(ps[1..], next, v1, v2);
      RenderSameValues(ps[1..], next + 1, v1, v2);
    }
  }

  /** The tuple struct's `write!` prints what Rust prints for the message
      when position `i` shows field `i`: the renumbered format with the
      passed fields renders as the original message does, and the one is
      rejected exactly when the other is. */
  lemma StructWriteCallRenders(message: string, types: seq<Ty>, v: (string, Option<string>) -> string)
    ensures var call := StructWriteCall(message, Unnamed(types));
      RenderFormat(call.format, PositionalValues(Indices(call.args), v)) == RenderFormat(message, v)
  {
    var r := RenumberFormat(message, |types|);
    if r.Some? {
      if r.value.fields == [] {
        forall w, spec
          ensures PositionalValues([], v)(w, spec) == v(w, spec)
        {
          var x := IndexOf(w);
          assert !(x.Some? && x.value < 0);
        }
        RenderSameValues(Parse(message).value, 0, PositionalValues([], v), v);
      } else {
        RenumberFormatRenders(message, |types|, v);
        assert Indices(SelfIndices(r.value.fields)) == r.value.fields;
      }
    }
  }

  /** On a message of bare placeholders (no brace escape, no `{}`, no
      format specification), the tuple struct's `write!` is the one the
      source's textual loop builds: the message as the loop leaves it,
      and `self.i` for each field the loop passes, in order. */
  lemma StructWriteCallAgrees(message: string, types: seq<Ty>)
    requires Parse(message).Some? && Bare(Parse(message).value)
    ensures var loop := Renumber(message, |types|);
      StructWriteCall(message, Unnamed(types)) == WriteCall(loop.message, SelfIndices(loop.fields))
  {
    var n := |types|;
    var ps := Parse(message).value;
    RenumberFormatAgrees(message, n);
    RenumberOnPieces(message, n);
    if Taken(ps, n) == [] {
      NothingTaken(ps, n);
      UnparseParse(message);
    }
  }

  /** With no position below `n` taken, renaming changes nothing. */
  lemma NothingTaken(ps: seq<Piece>, n: nat)
    requires Taken(ps, n) == []
    ensures Renames(ps, n) == ps
  {
    forall i: nat | i < n
      ensures !RefersTo(ps, i)
    {
    }
    forall k | 0 <= k < |ps|
      ensures Renames(ps, n)[k] == ps[k]
    {
      if ps[k].Hole? && IndexOf(ps[k].arg).Some? {
        assert ps[k].arg == Digits(IndexOf(ps[k].arg).value);
      }
    }
  }

  /** `StructDisplayImplementor::implement`: without a `message` string
      there is no `Display` implementation; a boolean `message` panics. */
  function StructDisplay(item: ItemStruct, params: Parameters): (r: Result<Option<WriteCall>, ParamError>)
    ensures r == Success(None) <==> !HasParameter(params, MessageParameter)
    ensures r.Failure? <==> HasParameter(params, MessageParameter) && params.values[MessageParameter].BooleanValue?
    ensures r.Success? && r.value.Some? ==>
      && HasParameter(params, MessageParameter)
      && params.values[MessageParameter].StringValue?
      && r.value.value == StructWriteCall(params.values[MessageParameter].s, item.fields)
  {
    var message :- StringForName(params, MessageParameter);
    match message
    case None => Success(None)
    case Some(m) => Success(Some(StructWriteCall(m, item.fields)))
  }

  // ---------------------------------------------------------------------
  // Enum match arms

  /** Items written with `sep` in front of every one but the first, one
      token per item, as `create_match_patterns` emits them. */
  function SeparatedTokens(xs: seq<string>, sep: string): (tokens: seq<string>)
    ensures |tokens| == |xs|
    ensures Concat(tokens) == Join(xs, sep)
  {
    if |xs| == 0 then []
    else if |xs| == 1 then
      assert Concat(xs) == xs[0] + Concat([]);
      xs
    else
      var n := |xs| - 1;
      var prev := SeparatedTokens(xs[..n], sep);
      ConcatAppend(prev, [sep + xs[n]]);
      JoinSnoc(xs[..n], xs[n], sep);
      assert xs[..n] + [xs[n]] == xs;
      assert Concat([sep + xs[n]]) == sep + xs[n] + Concat([]);
      prev + [sep + xs[n]]
  }

  /** Items written with `sep` after every one but the last, one token per
      item, as `get_unnamed_parameters_in_message` emits them. */
  function TerminatedTokens(xs: seq<string>, sep: string): (tokens: seq<string>)
    ensures |tokens| == |xs|
    ensures forall i :: 0 <= i < |xs| ==> tokens[i] == xs[i] + (if i < |xs| - 1 then sep else "")
    ensures Concat(tokens) == Join(xs, sep)
  {
    if |xs| <= 1 then xs
    else
      var rest := TerminatedTokens(xs[1..], sep);
      assert ([xs[0] + sep] + rest)[1..] == rest;
      [xs[0] + sep] + rest
  }

  /** The pattern tokens of a struct-like variant: the used fields, and a
      `..` rest marker unless every field is used (a variant with no field
      used, or none at all, is matched by `..` alone). */
  function NamedPatternTokens(used: seq<string>, fieldCount: nat): (tokens: seq<string>)
    ensures Concat(tokens) == Join(used + (if |used| == 0 || |used| != fieldCount then [".."] else []), ", ")
  {
    var tokens := SeparatedTokens(used, ", ");
    if |tokens| == 0 then [".."]
    else if |tokens| == fieldCount then
      assert used + [] == used;
      tokens
    else
      ConcatAppend(tokens, [", .."]);
      JoinSnoc(used, "..", ", ");
      tokens + [", .."]
  }

  /** `MatchArmDataNamed::to_match_arm`: the pattern binds the fields the
      message uses, which the `write!` passes as `name = name`; the
      message is kept. */
  function NamedArm(enumName: string, variantName: string, message: string, fields: seq<Field>): (arm: Arm)
    ensures arm.pattern.StructPattern? && arm.pattern.enumName == enumName && arm.pattern.variantName == variantName
    ensures var used := UsedIdentifiers(message, FieldNames(fields));
      Concat(arm.pattern.tokens) == Join(used + (if |used| == 0 || |used| != |fields| then [".."] else []), ", ")
    ensures !arm.bindsSelf && arm.call.format == message
    ensures forall a :: a in arm.call.args <==>
      a.Binding? && a.name in FieldNames(fields) && Contains(message, Tok(a.name))
  {
    var used := UsedIdentifiers(message, FieldNames(fields));
    Arm(StructPattern(enumName, variantName, NamedPatternTokens(used, |fields|)), false,
        WriteCall(message, Bindings(used)))
  }

  /** What binds field `i` of a tuple variant: its letter when the message
      uses `{i}`, `_` otherwise. */
  function Slots(message: string, n: nat): (slots: seq<string>)
    requires Lettered(message, n)
    ensures |slots| == n
    ensures forall i :: 0 <= i < n ==>
      slots[i] == if Contains(message, IndexToken(i)) then LetterWord(i) else "_"
  {
    seq(n, i requires 0 <= i < n && Lettered(message, n) =>
      if Contains(message, IndexToken(i)) then LetterWord(i) else "_")
  }

  /** The first field past `z` whose placeholder the message uses. */
  function FirstUnlettered(message: string, n: nat): (i: nat)
    requires !Lettered(message, n)
    ensures 26 <= i < n && Contains(message, IndexToken(i)) && Lettered(message, i)
  {
    if Lettered(message, n - 1) then n - 1 else FirstUnlettered(message, n - 1)
  }

  /** `MatchArmDataUnnamed::to_match_arm`: one slot per field, separated
      by commas; field `i` is bound to its letter when the message uses
      `{i}`, which is renamed to that letter and passed as `x = x`, in
      field order. A used field past the 26th has no letter. */
  function UnnamedArm(enumName: string, variantName: string, message: string, n: nat): (r: Result<Arm, DisplayFailure>)
    ensures r.Success? <==> Lettered(message, n)
    ensures r.Failure? ==> r.error == NotAnIdentifier(FirstUnlettered(message, n))
    ensures r.Success? ==> var arm := r.value;
      && arm.pattern.TuplePattern? && arm.pattern.enumName == enumName && arm.pattern.variantName == variantName
      && |arm.pattern.tokens| == n
      && Concat(arm.pattern.tokens) == Join(Slots(message, n), ",")
      && !arm.bindsSelf
      && arm.call.format == Letters(message, n)
      && |arm.call.args| == |Referenced(message, n)|
      && forall k :: 0 <= k < |arm.call.args| ==>
           Referenced(message, n)[k] < 26 && arm.call.args[k] == Binding(LetterWord(Referenced(message, n)[k]))
  {
    if !Lettered(message, n) then Failure(NotAnIdentifier(FirstUnlettered(message, n)))
    else
      var refs := Referenced(message, n);
      var args := seq(|refs|, k requires 0 <= k < |refs| && Lettered(message, n) => Binding(LetterWord(refs[k])));
      Success(Arm(TuplePattern(enumName, variantName, TerminatedTokens(Slots(message, n), ",")), false,
                  WriteCall(Letters(message, n), args)))
  }

  /** `MatchArmDataUnit::to_match_arm`: the message as it is. */
  function UnitArm(enumName: string, variantName: string, message: string): Arm {
    Arm(PathPattern(enumName, variantName), false, WriteCall(message, []))
  }

  /** `create_match_arm` */
  function CreateMatchArm(enumName: string, variant: Variant, message: string): (r: Result<Arm, DisplayFailure>)
    ensures r.Failure? <==> variant.fields.Unnamed? && !Lettered(message, |variant.fields.types|)
    ensures r.Failure? ==> r.error.NotAnIdentifier?
    ensures r.Success? ==> match variant.fields
      case Named(fs) => r.value == NamedArm(enumName, variant.name, message, fs)
      case Unnamed(ts) => r == UnnamedArm(enumName, variant.name, message, |ts|)
      case Unit => r.value == UnitArm(enumName, variant.name, message)
  {
    match variant.fields
    case Named(fs) => Success(NamedArm(enumName, variant.name, message, fs))
    case Unnamed(ts) => UnnamedArm(enumName, variant.name, message, |ts|)
    case Unit => Success(UnitArm(enumName, variant.name, message))
  }

  /** The arms in the order of the variants; the first failing arm stops. */
  function CreateMatchArms(enumName: string, withMessage: seq<(Variant, string)>): (r: Result<seq<Arm>, DisplayFailure>)
    ensures r.Success? <==> forall k :: 0 <= k < |withMessage| ==>
      CreateMatchArm(enumName, withMessage[k].0, withMessage[k].1).Success?
    ensures r.Failure? ==> r.error.NotAnIdentifier?
    ensures r.Success? ==> |r.value| == |withMessage| && forall k :: 0 <= k < |withMessage| ==>
      r.value[k] == CreateMatchArm(enumName, withMessage[k].0, withMessage[k].1).value
  {
    if |withMessage| == 0 then Success([])
    else
      var arm :- CreateMatchArm(enumName, withMessage[0].0, withMessage[0].1);
      var rest :- CreateMatchArms(enumName, withMessage[1..]);
      assert forall k :: 1 <= k < |withMessage| ==> withMessage[1..][k - 1] == withMessage[k];
      Success([arm] + rest)
  }

  /** `create_default_match_arm`: `_ => write!(f, message)` when the enum
      sets a `message` string; a boolean `message` panics. */
  function DefaultArm(enumParams: Parameters): (r: Result<Option<Arm>, ParamError>)
    ensures r == Success(None) <==> !HasParameter(enumParams, MessageParameter)
    ensures r.Failure? <==>
      HasParameter(enumParams, MessageParameter) && enumParams.values[MessageParameter].BooleanValue?
    ensures r.Failure? ==> r.error == ExpectedString
    ensures r.Success? && r.value.Some? ==>
      && HasParameter(enumParams, MessageParameter)
      && enumParams.values[MessageParameter].StringValue?
      && r.value.value == Arm(Wild, false, WriteCall(enumParams.values[MessageParameter].s, []))
  {
    var message :- StringForName(enumParams, MessageParameter);
    match message
    case None => Success(None)
    case Some(m) => Success(Some(Arm(Wild, false, WriteCall(m, []))))
  }

  /** `EnumDisplayImplementor::implement`. No implementation, and no
      error, when neither the enum nor a variant sets a message. Otherwise
      the messages must be complete with a default exactly when a variant
      lacks one; then there is one arm per variant with a message, in
      declaration order, and a default arm exactly when the enum sets a
      message, that is, exactly when some variant has none. */
  function ImplementEnum(item: ItemEnum, enumParams: Parameters, entries: seq<VariantEntry>)
    : (r: Result<Option<DisplayImpl>, DisplayFailure>)
    ensures VariantsWithMessage(entries).Failure? ==> r == Failure(Panicked(VariantsWithMessage(entries).error))
    ensures r == Success(None) <==>
      VariantsWithMessage(entries) == Success([]) && !HasParameter(enumParams, MessageParameter)
    ensures VariantsWithMessage(entries).Success? && r.Failure? && r.error.Rejected? ==>
      var n := |VariantsWithMessage(entries).value|;
      if HasParameter(enumParams, MessageParameter)
      then n == |item.variants| && r.error.error == UnnecessaryDefaultMessage(item.name)
      else n != |item.variants| && r.error.error == MissingMessages(item.name)
    ensures VariantsWithMessage(entries).Success? ==>
      var wm := VariantsWithMessage(entries).value;
      var decision := Decide(item.name, |item.variants|, HasParameter(enumParams, MessageParameter), |wm|);
      && (decision.Failure? <==> r.Failure? && r.error.Rejected?)
      && (decision.Failure? ==> r == Failure(Rejected(decision.error)))
      && (decision == Success(true) ==>
            && (r.Failure? && r.error.NotAnIdentifier? <==> CreateMatchArms(item.name, wm).Failure?)
            && (r.Success? <==> CreateMatchArms(item.name, wm).Success? && DefaultArm(enumParams).Success?))
    ensures r.Success? && r.value.Some? ==>
      var wm, d := VariantsWithMessage(entries).value, r.value.value;
      && d.enumName == item.name
      && |d.arms| == |wm|
      && (forall k :: 0 <= k < |wm| ==> CreateMatchArm(item.name, wm[k].0, wm[k].1) == Success(d.arms[k]))
      && (d.defaultArm.Some? <==> |wm| != |item.variants|)
      && (d.defaultArm.Some? ==> DefaultArm(enumParams) == Success(d.defaultArm))
  {
    match VariantsWithMessage(entries)
    case Failure(e) => Failure(Panicked(e))
    case Success(wm) =>
      match Decide(item.name, |item.variants|, HasParameter(enumParams, MessageParameter), |wm|)
      case Failure(e) => Failure(Rejected(e))
      case Success(implement) =>
        if !implement then Success(None)
        else
          var arms :- CreateMatchArms(item.name, wm);
          match DefaultArm(enumParams)
          case Failure(e) => Failure(Panicked(e))
          case Success(default) => Success(Some(DisplayImpl(item.name, arms, default)))
  }
}

=== FILE: impl_from.dfy ===
/** The earlier `From` generator (src/impl_from.rs): variants are
    registered one by one, a variant flagged while the whole enum is
    flagged is a usage error, and the conversions are generated at the end,
    panicking on the first usage error or on a variant without exactly one
    field. */
module ImplFrom {
  import opened Results
  import opened Syntax
  import opened Parameters
  import opened Conversions
  import opened DisplayEnum
  import FromEnums
  import FromStructs

  /** The panics of this generator. A usage error keeps the name of the
      variant it is about (the message text around it is not modelled). */
  datatype FromPanic =
    | FlagPanic(cause: ParamError)
    | UsageErrors(variantNames: seq<string>)
    | UnitShape(name: string)
    | NotOneField(name: string)

  /** `FromImplData`: the enum, its global flag, the variants chosen so
      far and the usage errors so far. */
  datatype FromImplData = FromImplData(
    enumName: string,
    implementGlobal: bool,
    variants: seq<Variant>,
    usageErrors: seq<string>)

  function New(item: ItemEnum, implementGlobal: bool): FromImplData {
    FromImplData(item.name, implementGlobal, [], [])
  }

  /** `add_variant`. A variant with its own flag while the enum has the
      global one becomes a usage error and is not chosen; otherwise it is
      chosen when either flag is set. A string `impl_from` on the variant
      makes the flag lookup panic. */
  function AddVariant(d: FromImplData, variant: Variant, paramsOpt: Option<Parameters>): (r: Result<FromImplData, ParamError>)
    ensures r.Failure? <==> FromEnums.VariantFlag((variant, paramsOpt)).Failure?
    ensures r.Success? ==> r.value.enumName == d.enumName && r.value.implementGlobal == d.implementGlobal
    ensures r.Success? && d.implementGlobal && FromEnums.VariantFlag((variant, paramsOpt)).value ==>
      r.value.variants == d.variants && r.value.usageErrors == d.usageErrors + [variant.name]
    ensures r.Success? && d.implementGlobal != FromEnums.VariantFlag((variant, paramsOpt)).value ==>
      r.value.variants == d.variants + [variant] && r.value.usageErrors == d.usageErrors
    ensures r.Success? && !d.implementGlobal && !FromEnums.VariantFlag((variant, paramsOpt)).value ==>
      r.value == d
  {
    var own :- FromEnums.VariantFlag((variant, paramsOpt));
    if d.implementGlobal && own then Success(d.(usageErrors := d.usageErrors + [variant.name]))
    else if d.implementGlobal || own then Success(d.(variants := d.variants + [variant]))
    else Success(d)
  }

  /** Registering the variants one after the other, as the enum
      generator does; the first panicking flag lookup stops it. */
  function AddAll(d: FromImplData, entries: seq<VariantEntry>): (r: Result<FromImplData, ParamError>)
    ensures r.Success? <==> forall i :: 0 <= i < |entries| ==> FromEnums.VariantFlag(entries[i]).Success?
  {
    if |entries| == 0 then Success(d)
    else
      var prev :- AddAll(d, entries[..|entries| - 1]);
      AddVariant(prev, entries[|entries| - 1].0, entries[|entries| - 1].1)
  }

  /** The conversion for one chosen variant: a unit variant and a variant
      with more or fewer than one field panic. */
  function ConvertVariant(enumName: string, variant: Variant): (r: Result<FromImpl, FromPanic>)
    ensures r.Success? <==> FieldCount(variant.fields) == 1
    ensures r.Success? ==> Convert(enumName, [enumName, variant.name], variant.fields) == Some(r.value)
    ensures r.Failure? && variant.fields.Unit? ==> r.error == UnitShape(variant.name)
    ensures r.Failure? && !variant.fields.Unit? ==> r.error == NotOneField(variant.name)
  {
    if variant.fields.Unit? then Failure(UnitShape(variant.name))
    else match Convert(enumName, [enumName, variant.name], variant.fields)
      case Some(c) => Success(c)
      case None => Failure(NotOneField(variant.name))
  }

  /** The conversions of the chosen variants in order; the first variant
      that cannot be converted panics. */
  function ConvertAll(enumName: string, variants: seq<Variant>): (r: Result<seq<FromImpl>, FromPanic>)
    ensures r.Success? <==> forall i :: 0 <= i < |variants| ==> FieldCount(variants[i].fields) == 1
    ensures r.Success? ==> |r.value| == |variants|
    ensures r.Success? ==> forall i :: 0 <= i < |variants| ==>
      Convert(enumName, [enumName, variants[i].name], variants[i].fields) == Some(r.value[i])
  {
    if |variants| == 0 then Success([])
    else
      var prev :- ConvertAll(enumName, variants[..|variants| - 1]);
      var c :- ConvertVariant(enumName, variants[|variants| - 1]);
      Success(prev + [c])
  }

  /** The variant a failed conversion is about is the first one that does
      not have exactly one field. */
  lemma {:induction false} FirstUnconvertible(enumName: string, variants: seq<Variant>)
    requires ConvertAll(enumName, variants).Failure?
    ensures exists k ::
      && 0 <= k < |variants|
      && FirstWithoutOneField(variants, k)
      && ConvertAll(enumName, variants) == Failure(ConvertVariant(enumName, variants[k]).error)
  {
    var n := |variants| - 1;
    var init := variants[..n];
    if ConvertAll(enumName, init).Failure? {
      assert ConvertAll(enumName, variants) == ConvertAll(enumName, init);
      FirstUnconvertible(enumName, init);
      var k :| 0 <= k < n && FirstWithoutOneField(init, k)
        && ConvertAll(enumName, init) == Failure(ConvertVariant(enumName, init[k]).error);
      assert init[k] == variants[k];
      forall j | 0 <= j < k
        ensures FieldCount(variants[j].fields) == 1
      {
        assert init[j] == variants[j];
      }
      assert FirstWithoutOneField(variants, k);
    } else {
      assert ConvertAll(enumName, variants) == Failure(ConvertVariant(enumName, variants[n]).error);
      forall j | 0 <= j < n
        ensures FieldCount(variants[j].fields) == 1
      {
        assert init[j] == variants[j];
      }
      assert FirstWithoutOneField(variants, n);
    }
  }

  predicate FirstWithoutOneField(variants: seq<Variant>, k: nat)
    requires k < |variants|
  {
    && FieldCount(variants[k].fields) != 1
    && forall j :: 0 <= j < k ==> FieldCount(variants[j].fields) == 1
  }

  /** `to_from_implementations`: any usage error panics before a single
      variant is looked at, with all of them; otherwise each chosen
      variant is converted. */
  function ToFromImplementations(d: FromImplData): (r: Result<seq<FromImpl>, FromPanic>)
    ensures |d.usageErrors| > 0 ==> r == Failure(UsageErrors(d.usageErrors))
    ensures |d.usageErrors| == 0 ==> r == ConvertAll(d.enumName, d.variants)
  {
    if |d.usageErrors| > 0 then Failure(UsageErrors(d.usageErrors))
    else ConvertAll(d.enumName, d.variants)
  }

  /** The whole earlier pipeline for an enum whose global flag is known:
      register every variant, then generate. */
  function Generate(item: ItemEnum, implementGlobal: bool, entries: seq<VariantEntry>): (r: Result<seq<FromImpl>, FromPanic>)
    ensures AddAll(New(item, implementGlobal), entries).Failure? ==>
      r == Failure(FlagPanic(AddAll(New(item, implementGlobal), entries).error))
  {
    match AddAll(New(item, implementGlobal), entries)
    case Failure(e) => Failure(FlagPanic(e))
    case Success(d) => ToFromImplementations(d)
  }

  /** The earlier and the later enum generators agree on which enums get
      conversions and on the conversions themselves: the earlier one
      succeeds exactly when the later one reports no error, and then both
      produce the same conversions in the same order. */
  lemma {:induction false} RevisionsAgree(item: ItemEnum, implementGlobal: bool, entries: seq<VariantEntry>)
    requires FromEnums.Steps(item.name, implementGlobal, entries).Success?
    ensures Generate(item, implementGlobal, entries).Success? <==>
      |FromEnums.ErrorsOf(FromEnums.Steps(item.name, implementGlobal, entries).value)| == 0
    ensures Generate(item, implementGlobal, entries).Success? ==>
      Generate(item, implementGlobal, entries).value
        == FromEnums.ImplsOf(FromEnums.Steps(item.name, implementGlobal, entries).value)
  {
    var d := AddAll(New(item, implementGlobal), entries).value;
    var steps := FromEnums.Steps(item.name, implementGlobal, entries).value;
    PrefixAgrees(item, implementGlobal, entries);
    assert Generate(item, implementGlobal, entries) == ToFromImplementations(d);
  }

  /** The induction behind `RevisionsAgree`, over the registered prefix. */
  lemma {:induction false} PrefixAgrees(item: ItemEnum, implementGlobal: bool, entries: seq<VariantEntry>)
    requires FromEnums.Steps(item.name, implementGlobal, entries).Success?
    ensures AddAll(New(item, implementGlobal), entries).Success?
    ensures
      var d := AddAll(New(item, implementGlobal), entries).value;
      var steps := FromEnums.Steps(item.name, implementGlobal, entries).value;
      && d.enumName == item.name && d.implementGlobal == implementGlobal
      && (|d.usageErrors| == 0 && ConvertAll(item.name, d.variants).Success? <==> |FromEnums.ErrorsOf(steps)| == 0)
      && (|d.usageErrors| == 0 && ConvertAll(item.name, d.variants).Success? ==>
            ConvertAll(item.name, d.variants).value == FromEnums.ImplsOf(steps))
  {
    if |entries| == 0 {
      assert FromEnums.Steps(item.name, implementGlobal, entries).value == [];
    } else {
      var n := |entries| - 1;
      var init := entries[..n];
      var last := entries[n];
      PrefixAgrees(item, implementGlobal, init);
      var prevD := AddAll(New(item, implementGlobal), init).value;
      var prevSteps := FromEnums.Steps(item.name, implementGlobal, init).value;
      var step := FromEnums.VariantStep(item.name, implementGlobal, last).value;
      assert FromEnums.Steps(item.name, implementGlobal, entries).value == prevSteps + [step];
      FromEnums.ErrorsOfAppend(prevSteps, step);
      FromEnums.ImplsOfAppend(prevSteps, step);
      var d := AddAll(New(item, implementGlobal), entries).value;
      assert AddVariant(prevD, last.0, last.1) == Success(d);
      var own := FromEnums.VariantFlag(last).value;
      if implementGlobal && own {
        assert step.Fails?;
        assert |d.usageErrors| > 0;
      } else if implementGlobal || own {
        assert d.variants == prevD.variants + [last.0];
        assert d.variants[..|d.variants| - 1] == prevD.variants;
        ConvertAppend(item.name, prevD.variants, last.0);
      } else {
        assert step == FromEnums.Contributes(None);
      }
    }
  }

  /** Converting one more chosen variant: it succeeds exactly when the
      earlier ones and the new one convert, and appends that conversion. */
  lemma ConvertAppend(enumName: string, variants: seq<Variant>, v: Variant)
    ensures ConvertAll(enumName, variants + [v]).Success? <==>
      ConvertAll(enumName, variants).Success? && FromEnums.ImplementForVariant(enumName, v).Success?
    ensures ConvertAll(enumName, variants + [v]).Success? ==>
      ConvertAll(enumName, variants + [v]).value
        == ConvertAll(enumName, variants).value + [FromEnums.ImplementForVariant(enumName, v).value]
  {
    assert (variants + [v])[..|variants|] == variants;
  }

  /** `StructFromImplData::to_from_implementation`: a unit struct, and a
      struct without exactly one field, panic. */
  function ToFromImplementation(item: ItemStruct): (r: Result<FromImpl, FromPanic>)
    ensures r.Success? <==> FieldCount(item.fields) == 1
    ensures r.Success? ==> Convert(item.name, [item.name], item.fields) == Some(r.value)
    ensures r.Failure? && item.fields.Unit? ==> r.error == UnitShape(item.name)
    ensures r.Failure? && !item.fields.Unit? ==> r.error == NotOneField(item.name)
  {
    if item.fields.Unit? then Failure(UnitShape(item.name))
    else match Convert(item.name, [item.name], item.fields)
      case Some(c) => Success(c)
      case None => Failure(NotOneField(item.name))
  }

  /** For a struct that asks for `From`, the earlier generator's panic is
      the later one's reported error, and their conversions coincide. */
  lemma StructRevisionsAgree(item: ItemStruct, params: Parameters)
    requires FromStructs.Implement(item, params).Success?
    requires BoolForName(params, ImplFromParameter) == Success(true)
    ensures ToFromImplementation(item).Success? <==> FromStructs.Implement(item, params).value.Implemented?
    ensures ToFromImplementation(item).Success? ==>
      FromStructs.Implement(item, params).value == Implemented([ToFromImplementation(item).value])
  {
  }
}

=== FILE: match_arm.dfy ===
/** Match arms of the second enum `Display` generator
    (src/impl_display/match_arm_implementor.rs): every arm binds the whole
    value as `e`, binds every field, and hands the message to the
    free-form template compiler unchanged. */
module MatchArm {
  import opened Syntax
  import opened Placeholders
  import Write
  import opened DisplayEnum

  /** The name a tuple field is bound to: `_0`, `_1`, … */
  function PositionalBinder(i: nat): (name: string)
    ensures |name| > 1 && name[0] == '_' && name[1..] == Digits(i)
  {
    "_" + Digits(i)
  }

  /** Different fields get different binders. */
  lemma PositionalBindersDistinct(i: nat, j: nat)
    requires i != j
    ensures PositionalBinder(i) != PositionalBinder(j)
  {
    if PositionalBinder(i) == PositionalBinder(j) {
      assert Digits(i) == PositionalBinder(i)[1..] == PositionalBinder(j)[1..] == Digits(j);
      DigitsInjective(i, j);
    }
  }

  /** `implement_default`: `_ => { let e = self; write!(…) }`. */
  function ImplementDefault(message: string): (arm: Arm)
    ensures arm.pattern == Wild && arm.bindsSelf
    ensures arm.call == Write.Implement(message) && arm.call.format == Write.Kept(message)
  {
    Arm(Wild, true, Write.Implement(message))
  }

  /** `implement_for`: `e @ E::V { f1, f2, … }`, `e @ E::V ( _0, _1, … )`
      or `e @ E::V`, each binder followed by a comma. */
  function ImplementFor(enumName: string, variant: Variant, message: string): (arm: Arm)
    ensures arm.pattern.Bind? && arm.pattern.binder == "e" && !arm.bindsSelf
    ensures arm.call == Write.Implement(message) && arm.call.format == Write.Kept(message)
    ensures variant.fields.Named? ==> var fs := variant.fields.fields;
      && arm.pattern.inner.StructPattern?
      && arm.pattern.inner.enumName == enumName && arm.pattern.inner.variantName == variant.name
      && |arm.pattern.inner.tokens| == |fs|
      && forall i :: 0 <= i < |fs| ==> arm.pattern.inner.tokens[i] == fs[i].name + ","
    ensures variant.fields.Unnamed? ==> var n := |variant.fields.types|;
      && arm.pattern.inner.TuplePattern?
      && arm.pattern.inner.enumName == enumName && arm.pattern.inner.variantName == variant.name
      && |arm.pattern.inner.tokens| == n
      && forall i :: 0 <= i < n ==> arm.pattern.inner.tokens[i] == PositionalBinder(i) + ","
    ensures variant.fields.Unit? ==> arm.pattern.inner == PathPattern(enumName, variant.name)
  {
    var inner := match variant.fields
      case Named(fs) =>
        StructPattern(enumName, variant.name, seq(|fs|, i requires 0 <= i < |fs| => fs[i].name + ","))
      case Unnamed(ts) =>
        TuplePattern(enumName, variant.name, seq(|ts|, i requires 0 <= i < |ts| => PositionalBinder(i) + ","))
      case Unit => PathPattern(enumName, variant.name);
    Arm(Bind("e", inner), false, Write.Implement(message))
  }
}

=== FILE: parameters.dfy ===
/** Attribute parameters (src/parameters.rs): the entries of `#[error(...)]`
    or of the attribute arguments, read into a map from names to string or
    boolean values, with typed lookups. Every `panic!` of the source is a
    `Failure` here. */
module Parameters {
  import opened Results
  import opened Syntax

  const ErrorAttribute: string := "error"
  const MessageParameter: string := "message"
  const ImplFromParameter: string := "impl_from"

  /** Why reading parameters panics. */
  datatype ParamError =
    | PathNotIdentifier        // a name that is not a single identifier
    | ExpectedMetaList         // `#[error]` or `#[error = ...]`
    | UnexpectedLiteralInList  // `#[error("text")]`
    | UnexpectedMetaList       // `#[error(message(...))]`
    | UnexpectedLiteralValue   // `message = 3`
    | ExpectedBoolean          // a flag lookup on a string value
    | ExpectedString           // a string lookup on a boolean value

  datatype LitValue = StringValue(s: string) | BooleanValue(b: bool)

  /** The name-to-value map. */
  datatype Parameters = Parameters(values: map<string, LitValue>)

  /** `path_to_name` (src/common.rs): the single identifier a path consists
      of. */
  function PathToName(path: seq<string>): (r: Result<string, ParamError>)
    ensures r.Success? <==> |path| == 1
    ensures r.Success? ==> [r.value] == path
    ensures r.Failure? ==> r.error == PathNotIdentifier
  {
    if |path| == 1 then Success(path[0]) else Failure(PathNotIdentifier)
  }

  /** `LitValue::from`: string and boolean literals are values, every other
      literal kind is rejected. */
  function LitValueFrom(lit: Lit): (r: Result<LitValue, ParamError>)
    ensures r.Success? <==> lit.LitStr? || lit.LitBool?
    ensures r.Success? ==> ToLit(r.value) == lit
    ensures r.Failure? ==> r.error == UnexpectedLiteralValue
  {
    match lit
    case LitStr(t) => Success(StringValue(t))
    case LitBool(b) => Success(BooleanValue(b))
    case _ => Failure(UnexpectedLiteralValue)
  }

  /** The literal that denotes a value. */
  function ToLit(v: LitValue): Lit {
    match v
    case StringValue(s) => LitStr(s)
    case BooleanValue(b) => LitBool(b)
  }

  lemma LitValueRoundTrip(v: LitValue)
    ensures LitValueFrom(ToLit(v)) == Success(v)
  {
  }

  /** `meta_to_name_value`: `name = lit` gives the literal's value, a bare
      `name` gives `true`, a nested list is rejected. */
  function MetaToNameValue(meta: Meta): (r: Result<(string, LitValue), ParamError>)
    ensures r.Success? <==> WellFormedMeta(meta)
    ensures r.Success? ==> r.value == (EntryName(MetaItem(meta)), EntryValue(MetaItem(meta)))
  {
    match meta
    case NameValueMeta(path, lit) =>
      var name :- PathToName(path);
      var value :- LitValueFrom(lit);
      Success((name, value))
    case PathMeta(path) =>
      var name :- PathToName(path);
      Success((name, BooleanValue(true)))
    case ListMeta(_, _) => Failure(UnexpectedMetaList)
  }

  /** An entry the source accepts: a bare identifier, or an identifier
      assigned a string or boolean literal. */
  predicate WellFormedMeta(meta: Meta) {
    |meta.path| == 1
    && (meta.PathMeta? || (meta.NameValueMeta? && (meta.lit.LitStr? || meta.lit.LitBool?)))
  }

  predicate WellFormed(n: NestedMeta) {
    n.MetaItem? && WellFormedMeta(n.meta)
  }

  /** The name an entry sets (the first path segment). */
  function EntryName(n: NestedMeta): string {
    if n.MetaItem? && |n.meta.path| > 0 then n.meta.path[0] else ""
  }

  /** The value an accepted entry denotes: `true` for a bare name. */
  function EntryValue(n: NestedMeta): LitValue {
    if n.MetaItem? && n.meta.NameValueMeta? && n.meta.lit.LitStr? then StringValue(n.meta.lit.text)
    else if n.MetaItem? && n.meta.NameValueMeta? && n.meta.lit.LitBool? then BooleanValue(n.meta.lit.flag)
    else BooleanValue(true)
  }

  /** The entry that writes `name = v`, the inverse of `MetaToNameValue`
      for a well-formed name. */
  function ToMeta(name: string, v: LitValue): Meta {
    NameValueMeta([name], ToLit(v))
  }

  lemma MetaRoundTrip(name: string, v: LitValue)
    ensures MetaToNameValue(ToMeta(name, v)) == Success((name, v))
  {
  }

  /** `from_nested_metas`: the entries are read in order and the first
      that is not accepted aborts the whole list; see `ParsedValues` and
      `FirstRejection` for what the result holds. */
  function FromNestedMetas(nested: seq<NestedMeta>): (r: Result<Parameters, ParamError>)
    ensures r.Success? <==> forall k :: 0 <= k < |nested| ==> WellFormed(nested[k])
  {
    if |nested| == 0 then Success(Parameters(map[]))
    else
      var init := nested[..|nested| - 1];
      var last := nested[|nested| - 1];
      assert forall k :: 0 <= k < |init| ==> init[k] == nested[k];
      var prev :- FromNestedMetas(init);
      var entry :- match last
        case LitItem(_) => Failure(UnexpectedLiteralInList)
        case MetaItem(meta) => MetaToNameValue(meta);
      Success(Parameters(prev.values[entry.0 := entry.1]))
  }

  /** Entry `k` is the last one carrying its name. */
  predicate LastWithName(nested: seq<NestedMeta>, k: int)
    requires 0 <= k < |nested|
  {
    forall j :: k < j < |nested| ==> EntryName(nested[j]) != EntryName(nested[k])
  }

  /** Entry `k` is the first one the source rejects. */
  predicate FirstRejected(nested: seq<NestedMeta>, k: int)
    requires 0 <= k < |nested|
  {
    !WellFormed(nested[k]) && forall j :: 0 <= j < k ==> WellFormed(nested[j])
  }

  /** Why an entry is rejected. */
  function Rejection(n: NestedMeta): ParamError {
    match n
    case LitItem(_) => UnexpectedLiteralInList
    case MetaItem(meta) =>
      if meta.ListMeta? then UnexpectedMetaList
      else if |meta.path| != 1 then PathNotIdentifier
      else UnexpectedLiteralValue
  }

  /** The map holds exactly the names of the entries. */
  lemma {:induction false} ParsedKeys(nested: seq<NestedMeta>)
    requires FromNestedMetas(nested).Success?
    ensures forall name :: name in FromNestedMetas(nested).value.values <==>
      exists k :: 0 <= k < |nested| && EntryName(nested[k]) == name
  {
    if |nested| > 0 {
      var init, n := nested[..|nested| - 1], |nested| - 1;
      assert forall k :: 0 <= k < |init| ==> init[k] == nested[k];
      ParsedKeys(init);
      var values := FromNestedMetas(nested).value.values;
      var prev := FromNestedMetas(init).value.values;
      LastEntry(nested);
      forall name
        ensures name in values <==> exists k :: 0 <= k < |nested| && EntryName(nested[k]) == name
      {
        if name in prev {
          var k :| 0 <= k < |init| && EntryName(init[k]) == name;
          assert EntryName(nested[k]) == name;
        }
      }
    }
  }

  /** Among entries with the same name the last one wins, as collecting
      into a `HashMap` does. */
  lemma {:induction false} ParsedValues(nested: seq<NestedMeta>)
    requires FromNestedMetas(nested).Success?
    ensures forall k :: 0 <= k < |nested| && LastWithName(nested, k) ==>
      && EntryName(nested[k]) in FromNestedMetas(nested).value.values
      && FromNestedMetas(nested).value.values[EntryName(nested[k])] == EntryValue(nested[k])
  {
    if |nested| > 0 {
      var init, n := nested[..|nested| - 1], |nested| - 1;
      assert forall k :: 0 <= k < |init| ==> init[k] == nested[k];
      ParsedValues(init);
      LastEntry(nested);
      forall k | 0 <= k < |nested| && LastWithName(nested, k)
        ensures EntryName(nested[k]) in FromNestedMetas(nested).value.values
        ensures FromNestedMetas(nested).value.values[EntryName(nested[k])] == EntryValue(nested[k])
      {
        if k < n {
          assert LastWithName(init, k);
        }
      }
    }
  }

  /** The last entry of an accepted list is stored over the others. */
  lemma LastEntry(nested: seq<NestedMeta>)
    requires FromNestedMetas(nested).Success? && |nested| > 0
    ensures var n := |nested| - 1;
      FromNestedMetas(nested).value.values
        == FromNestedMetas(nested[..n]).value.values[EntryName(nested[n]) := EntryValue(nested[n])]
  {
    var n := |nested| - 1;
    assert WellFormed(nested[n]);
    assert MetaToNameValue(nested[n].meta) == Success((EntryName(nested[n]), EntryValue(nested[n])));
  }

  /** A rejected list reports the first entry it could not accept. */
  lemma {:induction false} FirstRejection(nested: seq<NestedMeta>)
    requires FromNestedMetas(nested).Failure?
    ensures exists k :: 0 <= k < |nested| && FirstRejected(nested, k) && FromNestedMetas(nested).error == Rejection(nested[k])
  {
    var init := nested[..|nested| - 1];
    var n := |nested| - 1;
    assert forall k :: 0 <= k < |init| ==> init[k] == nested[k];
    if FromNestedMetas(init).Failure? {
      FirstRejection(init);
      var k :| 0 <= k < |init| && FirstRejected(init, k) && FromNestedMetas(init).error == Rejection(init[k]);
      assert FirstRejected(nested, k);
    } else {
      assert FirstRejected(nested, n);
    }
  }

  /** `from_attribute`: only the list form `#[error(...)]` carries
      parameters. */
  function FromAttribute(attribute: Attribute): (r: Result<Parameters, ParamError>)
    ensures !attribute.args.ListArgs? ==> r == Failure(ExpectedMetaList)
    ensures attribute.args.ListArgs? ==> r == FromNestedMetas(attribute.args.nested)
  {
    match attribute.args
    case ListArgs(nested) => FromNestedMetas(nested)
    case _ => Failure(ExpectedMetaList)
  }

  /** `from_attribute_args`: the macro's own arguments are read like the
      entries of `#[error(...)]`. */
  function FromAttributeArgs(args: seq<NestedMeta>): (r: Result<Parameters, ParamError>)
    ensures r.Success? <==> forall k :: 0 <= k < |args| ==> WellFormed(args[k])
  {
    FromNestedMetas(args)
  }

  /** `bool_for_name`: a stored flag reads as itself, an absent name as
      `false`, and a stored string panics. */
  function BoolForName(p: Parameters, name: string): (r: Result<bool, ParamError>)
    ensures r == Success(true) ==> HasParameter(p, name)
    ensures !HasParameter(p, name) ==> r == Success(false)
    ensures HasParameter(p, name) && p.values[name].BooleanValue? ==> r == Success(p.values[name].b)
    ensures r.Failure? <==> HasParameter(p, name) && p.values[name].StringValue?
    ensures r.Failure? ==> r.error == ExpectedBoolean
  {
    if name !in p.values then Success(false)
    else match p.values[name]
      case BooleanValue(b) => Success(b)
      case StringValue(_) => Failure(ExpectedBoolean)
  }

  /** `string_for_name`: a stored string reads as itself, an absent name
      as `None`, and a stored flag panics. */
  function StringForName(p: Parameters, name: string): (r: Result<Option<string>, ParamError>)
    ensures r.Success? && r.value.Some? <==> HasParameter(p, name) && p.values[name].StringValue?
    ensures HasParameter(p, name) && p.values[name].StringValue? ==> r == Success(Some(p.values[name].s))
    ensures !HasParameter(p, name) ==> r == Success(None)
    ensures r.Failure? <==> HasParameter(p, name) && p.values[name].BooleanValue?
    ensures r.Failure? ==> r.error == ExpectedString
  {
    if name !in p.values then Success(None)
    else match p.values[name]
      case StringValue(s) => Success(Some(s))
      case BooleanValue(_) => Failure(ExpectedString)
  }

  /** Whether the name was given at all, whatever its value. */
  predicate HasParameter(p: Parameters, name: string) {
    name in p.values
  }

  predicate IsEmpty(p: Parameters) {
    |p.values| == 0
  }

  /** What the lookups return after parsing: the last entry with a name
      decides, a bare name is the flag `true`, and a name that never occurs
      reads as `false` and `None`. */
  lemma LookupAfterParse(nested: seq<NestedMeta>, k: int)
    requires FromNestedMetas(nested).Success?
    requires 0 <= k < |nested| && LastWithName(nested, k)
    ensures var p, name, meta := FromNestedMetas(nested).value, EntryName(nested[k]), nested[k].meta;
      && (meta.PathMeta? ==> BoolForName(p, name) == Success(true))
      && (meta.NameValueMeta? && meta.lit.LitBool? ==> BoolForName(p, name) == Success(meta.lit.flag))
      && (meta.NameValueMeta? && meta.lit.LitStr? ==>
            StringForName(p, name) == Success(Some(meta.lit.text))
            && BoolForName(p, name) == Failure(ExpectedBoolean))
  {
    ParsedValues(nested);
  }

  lemma AbsentAfterParse(nested: seq<NestedMeta>, name: string)
    requires FromNestedMetas(nested).Success?
    requires forall k :: 0 <= k < |nested| ==> EntryName(nested[k]) != name
    ensures BoolForName(FromNestedMetas(nested).value, name) == Success(false)
    ensures StringForName(FromNestedMetas(nested).value, name) == Success(None)
  {
    ParsedKeys(nested);
  }
}

=== FILE: placeholders.dfy ===
/** Placeholder tokens inside message templates and the two `str` operations
    the field-placeholder compilers apply to them: `contains` and `replace`
    (left to right, non-overlapping, as Rust's `str::replace`).

    A token is `{w}` for a non-empty word `w` without braces: `{0}`, `{12}`,
    `{name}`, `{a}`. Because a token's interior holds no brace, two token
    occurrences never overlap unless they coincide; the lemmas below turn
    that into "replacing one token neither creates nor destroys another". */
module Placeholders {
  import opened Results

  predicate IsDigit(c: char) {
    '0' <= c <= '9'
  }

  function DigitChar(d: nat): (c: char)
    requires d < 10
    ensures IsDigit(c)
  {
    (48 + d) as char
  }

  /** The decimal rendering `format!("{}", n)`. */
  function Digits(n: nat): (s: string)
    ensures Word(s)
    ensures forall k :: 0 <= k < |s| ==> IsDigit(s[k])
  {
    if n < 10 then [DigitChar(n)] else Digits(n / 10) + [DigitChar(n % 10)]
  }

  /** Reads a string of decimal digits back as a number. */
  function Value(s: string): nat
    requires forall k :: 0 <= k < |s| ==> IsDigit(s[k])
  {
    if |s| == 0 then 0
    else
      assert IsDigit(s[|s| - 1]);
      Value(s[..|s| - 1]) * 10 + (s[|s| - 1] as int - 48)
  }

  lemma {:induction false} DigitsRoundTrip(n: nat)
    ensures Value(Digits(n)) == n
  {
    if n >= 10 {
      DigitsRoundTrip(n / 10);
      var s := Digits(n);
      assert s[..|s| - 1] == Digits(n / 10);
    }
  }

  /** Distinct indices render as distinct placeholders. */
  lemma DigitsInjective(a: nat, b: nat)
    requires Digits(a) == Digits(b)
    ensures a == b
  {
    DigitsRoundTrip(a);
    DigitsRoundTrip(b);
  }

  predicate IsNumeral(w: string) {
    forall k :: 0 <= k < |w| ==> IsDigit(w[k])
  }

  /** The index a placeholder word names, if it is a canonical numeral. */
  function IndexOf(w: string): (r: Option<nat>)
    ensures r.Some? ==> w == Digits(r.value)
  {
    if IsNumeral(w) && Digits(Value(w)) == w then Some(Value(w)) else None
  }

  lemma IndexOfDigits(t: nat)
    ensures IndexOf(Digits(t)) == Some(t)
  {
    DigitsRoundTrip(t);
  }

  predicate BraceFree(w: string) {
    forall k :: 0 <= k < |w| ==> w[k] != '{' && w[k] != '}'
  }

  predicate Word(w: string) {
    |w| > 0 && BraceFree(w)
  }

  /** The placeholder `{w}`, as `format!("{{{}}}", w)` builds it. */
  function Tok(w: string): string {
    "{" + w + "}"
  }

  /** The positional placeholder `{i}`. */
  function IndexToken(i: nat): string {
    Tok(Digits(i))
  }

  predicate StartsWith(s: string, t: string) {
    |t| <= |s| && s[..|t|] == t
  }

  /** `s.contains(t)`: `t` occurs in `s` at some position. */
  predicate Contains(s: string, t: string)
    decreases |s|
  {
    StartsWith(s, t) || (|s| > 0 && Contains(s[1..], t))
  }

  /** `s.replace(p, q)`: every occurrence of `p`, found left to right without
      overlap, is replaced by `q`. */
  function Replace(s: string, p: string, q: string): string
    requires |p| > 0
    decreases |s|
  {
    if |s| == 0 then ""
    else if StartsWith(s, p) then q + Replace(s[|p|..], p, q)
    else [s[0]] + Replace(s[1..], p, q)
  }

  // ---------------------------------------------------------------------
  // Basic facts about tokens

  lemma TokAt(u: string, k: int)
    requires Word(u) && 0 < k < |Tok(u)|
    ensures Tok(u)[k] != '{'
    ensures k < |Tok(u)| - 1 ==> Tok(u)[k] == u[k - 1]
    ensures k == |Tok(u)| - 1 ==> Tok(u)[k] == '}'
  {
  }

  lemma StartsWithAt(s: string, t: string, k: int)
    requires StartsWith(s, t) && 0 <= k < |t|
    ensures s[k] == t[k]
  {
    assert s[..|t|][k] == s[k];
  }

  /** Two tokens that both start the same string are the same token. */
  lemma TokPrefixUnique(s: string, u: string, v: string)
    requires Word(u) && Word(v)
    requires StartsWith(s, Tok(u)) && StartsWith(s, Tok(v))
    ensures u == v
  {
    if |u| < |v| {
      StartsWithAt(s, Tok(u), |u| + 1);
      StartsWithAt(s, Tok(v), |u| + 1);
      TokAt(v, |u| + 1);
      assert false;
    } else if |v| < |u| {
      StartsWithAt(s, Tok(u), |v| + 1);
      StartsWithAt(s, Tok(v), |v| + 1);
      TokAt(u, |v| + 1);
      assert false;
    } else {
      forall k | 0 <= k < |u|
        ensures u[k] == v[k]
      {
        StartsWithAt(s, Tok(u), k + 1);
        StartsWithAt(s, Tok(v), k + 1);
      }
    }
  }

  /** No token starts strictly inside another token occurrence. */
  lemma NoTokInside(s: string, u: string, c: string, k: int)
    requires Word(u) && Word(c) && StartsWith(s, Tok(u)) && 0 < k < |Tok(u)|
    ensures !StartsWith(s[k..], Tok(c))
  {
    StartsWithAt(s, Tok(u), k);
    TokAt(u, k);
    if StartsWith(s[k..], Tok(c)) {
      StartsWithAt(s[k..], Tok(c), 0);
    }
  }

  lemma StartsWithCons(c: char, x: string, t: string)
    requires |t| > 0
    ensures StartsWith([c] + x, t) <==> c == t[0] && StartsWith(x, t[1..])
  {
    var s := [c] + x;
    if StartsWith(s, t) {
      assert s[..|t|] == [c] + x[..|t| - 1];
      assert t == [t[0]] + t[1..];
    }
    if c == t[0] && StartsWith(x, t[1..]) {
      assert s[..|t|] == [c] + x[..|t| - 1];
      assert t == [t[0]] + t[1..];
    }
  }

  lemma StartsWithConcat(x: string, y: string)
    ensures StartsWith(x + y, x)
  {
    assert (x + y)[..|x|] == x;
  }

  lemma ContainsStart(s: string, t: string)
    requires StartsWith(s, t)
    ensures Contains(s, t)
  {
  }

  /** An occurrence inside a suffix is an occurrence. */
  lemma {:induction false} ContainsSuffix(s: string, t: string, k: nat)
    requires k <= |s| && Contains(s[k..], t)
    ensures Contains(s, t)
    decreases k
  {
    if k > 0 {
      assert s[1..][k - 1..] == s[k..];
      ContainsSuffix(s[1..], t, k - 1);
    }
  }

  /** If none of the first `n` positions starts `t`, `t` occurs in `x` iff
      it occurs in `x[n..]`. */
  lemma {:induction false} DropContains(x: string, t: string, n: nat)
    requires n <= |x|
    requires forall k :: 0 <= k < n ==> !StartsWith(x[k..], t)
    ensures Contains(x, t) <==> Contains(x[n..], t)
    decreases n
  {
    if n > 0 {
      assert x[0..] == x;
      forall k | 0 <= k < n - 1
        ensures !StartsWith(x[1..][k..], t)
      {
        assert x[1..][k..] == x[k + 1..];
      }
      DropContains(x[1..], t, n - 1);
      assert x[1..][n - 1..] == x[n..];
    }
  }

  /** A token that starts a string hides no other token. */
  lemma ContainsAfterTok(b: string, y: string, c: string)
    requires Word(b) && Word(c) && b != c
    ensures Contains(Tok(b) + y, Tok(c)) <==> Contains(y, Tok(c))
  {
    var x := Tok(b) + y;
    StartsWithConcat(Tok(b), y);
    forall k | 0 <= k < |Tok(b)|
      ensures !StartsWith(x[k..], Tok(c))
    {
      if k == 0 {
        assert x[0..] == x;
        if StartsWith(x, Tok(c)) {
          TokPrefixUnique(x, b, c);
        }
      } else {
        NoTokInside(x, b, c, k);
      }
    }
    DropContains(x, Tok(c), |Tok(b)|);
    assert x[|Tok(b)|..] == y;
  }

  // ---------------------------------------------------------------------
  // Replacing one token by another

  /** Replacing a token keeps every prefix that has no opening brace. */
  lemma {:induction false} ReplaceKeepsPrefix(s: string, a: string, b: string, w: string)
    requires Word(a)
    requires forall k :: 0 <= k < |w| ==> w[k] != '{'
    ensures StartsWith(Replace(s, Tok(a), Tok(b)), w) <==> StartsWith(s, w)
    decreases |s|
  {
    var r := Replace(s, Tok(a), Tok(b));
    if |w| == 0 {
    } else if |s| == 0 {
    } else if StartsWith(s, Tok(a)) {
      assert r == Tok(b) + Replace(s[|Tok(a)|..], Tok(a), Tok(b));
      StartsWithAt(s, Tok(a), 0);
      if StartsWith(r, w) {
        StartsWithAt(r, w, 0);
      }
      if StartsWith(s, w) {
        StartsWithAt(s, w, 0);
      }
    } else {
      var x := Replace(s[1..], Tok(a), Tok(b));
      assert r == [s[0]] + x;
      ReplaceKeepsPrefix(s[1..], a, b, w[1..]);
      StartsWithCons(s[0], x, w);
      StartsWithCons(s[0], s[1..], w);
      assert [s[0]] + s[1..] == s;
    }
  }

  /** A token starts the result of a replacement iff it started the input
      and was not the replaced token (when it is not the replacement). */
  lemma ReplaceStartsWithTok(s: string, a: string, b: string, c: string)
    requires Word(a) && Word(b) && Word(c) && c != b
    ensures StartsWith(Replace(s, Tok(a), Tok(b)), Tok(c)) <==> StartsWith(s, Tok(c)) && c != a
  {
    var r := Replace(s, Tok(a), Tok(b));
    if |s| == 0 {
    } else if StartsWith(s, Tok(a)) {
      assert r == Tok(b) + Replace(s[|Tok(a)|..], Tok(a), Tok(b));
      StartsWithConcat(Tok(b), Replace(s[|Tok(a)|..], Tok(a), Tok(b)));
      if StartsWith(r, Tok(c)) {
        TokPrefixUnique(r, b, c);
      }
      if StartsWith(s, Tok(c)) {
        TokPrefixUnique(s, a, c);
      }
    } else {
      NotStartingReplace(s, a, b, c);
      if StartsWith(s, Tok(c)) && c == a {
        assert false;
      }
    }
  }

  /** When `s` does not start with the replaced token, the replacement starts
      with exactly the tokens `s` starts with. */
  lemma NotStartingReplace(s: string, a: string, b: string, c: string)
    requires Word(a) && Word(c) && |s| > 0 && !StartsWith(s, Tok(a))
    ensures StartsWith(Replace(s, Tok(a), Tok(b)), Tok(c)) <==> StartsWith(s, Tok(c))
  {
    var x := Replace(s[1..], Tok(a), Tok(b));
    assert Replace(s, Tok(a), Tok(b)) == [s[0]] + x;
    var w := c + "}";
    assert Tok(c)[1..] == w;
    assert forall k :: 0 <= k < |w| ==> w[k] != '{' by {
      forall k | 0 <= k < |w|
        ensures w[k] != '{'
      {
        if k < |c| {
          assert w[k] == c[k];
        }
      }
    }
    ReplaceKeepsPrefix(s[1..], a, b, w);
    StartsWithCons(s[0], x, Tok(c));
    StartsWithCons(s[0], s[1..], Tok(c));
    assert [s[0]] + s[1..] == s;
  }

  /** Replacing `{a}` by `{b}` neither creates nor destroys any token `{c}`
      other than those two: `{a}` disappears, every other token except `{b}`
      is present afterwards iff it was present before. */
  lemma {:induction false} ReplaceContains(s: string, a: string, b: string, c: string)
    requires Word(a) && Word(b) && Word(c) && c != b
    ensures Contains(Replace(s, Tok(a), Tok(b)), Tok(c)) <==> Contains(s, Tok(c)) && c != a
    decreases |s|
  {
    var r := Replace(s, Tok(a), Tok(b));
    if |s| == 0 {
    } else if StartsWith(s, Tok(a)) {
      var rest := s[|Tok(a)|..];
      assert r == Tok(b) + Replace(rest, Tok(a), Tok(b));
      ContainsAfterTok(b, Replace(rest, Tok(a), Tok(b)), c);
      ReplaceContains(rest, a, b, c);
      assert s == Tok(a) + rest by {
        assert s[..|Tok(a)|] == Tok(a);
      }
      if c != a {
        ContainsAfterTok(a, rest, c);
      }
    } else {
      var x := Replace(s[1..], Tok(a), Tok(b));
      assert r == [s[0]] + x;
      assert r[1..] == x;
      ReplaceStartsWithTok(s, a, b, c);
      ReplaceContains(s[1..], a, b, c);
    }
  }

  /** Replacing a token that occurs puts its replacement in the result. */
  lemma {:induction false} ReplaceIntroduces(s: string, a: string, b: string)
    requires Word(a) && Contains(s, Tok(a))
    ensures Contains(Replace(s, Tok(a), Tok(b)), Tok(b))
    decreases |s|
  {
    var r := Replace(s, Tok(a), Tok(b));
    if StartsWith(s, Tok(a)) {
      StartsWithConcat(Tok(b), Replace(s[|Tok(a)|..], Tok(a), Tok(b)));
    } else {
      var x := Replace(s[1..], Tok(a), Tok(b));
      assert r == [s[0]] + x;
      assert r[1..] == x;
      ReplaceIntroduces(s[1..], a, b);
    }
  }

  /** Replacing a token that does not occur changes nothing. */
  lemma {:induction false} ReplaceAbsent(s: string, p: string, q: string)
    requires |p| > 0 && !Contains(s, p)
    ensures Replace(s, p, q) == s
    decreases |s|
  {
    if |s| > 0 {
      ReplaceAbsent(s[1..], p, q);
      assert [s[0]] + s[1..] == s;
    }
  }

  /** Replacement skips a prefix in which no occurrence of `p` starts. */
  lemma {:induction false} ReplaceSkip(s: string, p: string, q: string, n: nat)
    requires |p| > 0 && n <= |s|
    requires forall k :: 0 <= k < n ==> !StartsWith(s[k..], p)
    ensures Replace(s, p, q) == s[..n] + Replace(s[n..], p, q)
    decreases n
  {
    if n > 0 {
      assert s[0..] == s;
      forall k | 0 <= k < n - 1
        ensures !StartsWith(s[1..][k..], p)
      {
        assert s[1..][k..] == s[k + 1..];
      }
      ReplaceSkip(s[1..], p, q, n - 1);
      assert s[1..][n - 1..] == s[n..];
      assert [s[0]] + s[1..][..n - 1] == s[..n];
    }
  }

  /** Replacing `{a}` passes over any other token whole. */
  lemma ReplaceSkipTok(s: string, a: string, q: string, c: string)
    requires Word(a) && Word(c) && c != a && StartsWith(s, Tok(c))
    ensures Replace(s, Tok(a), q) == Tok(c) + Replace(s[|Tok(c)|..], Tok(a), q)
  {
    forall k | 0 <= k < |Tok(c)|
      ensures !StartsWith(s[k..], Tok(a))
    {
      if k == 0 {
        assert s[0..] == s;
        if StartsWith(s, Tok(a)) {
          TokPrefixUnique(s, a, c);
        }
      } else {
        NoTokInside(s, c, a, k);
      }
    }
    ReplaceSkip(s, Tok(a), q, |Tok(c)|);
  }

  // ---------------------------------------------------------------------
  // What a format string renders to

  /** The bare-placeholder reading of a message, the one the textual
      rewritings below are written for: each `{w}` with `w` non-empty and
      brace-free stands for the value `v(w)` (`{0}` for the first positional
      argument, `{name}` for the named argument `name`), and every other
      character is copied. It does not read `{{`, `}}`, `{}` or `{w:spec}`
      as Rust does, and the rewritings do not respect them either; on
      messages without them it is Rust's reading (`InterpIsRender` in
      module `FormatStrings`). */
  function Interp(s: string, v: string -> string): string
    decreases |s|
  {
    if |s| == 0 then ""
    else match Placeholder(s)
      case Some(w) => v(w) + Interp(s[|w| + 2..], v)
      case None => [s[0]] + Interp(s[1..], v)
  }

  /** The first brace of `s` at or after position `j`. */
  function BraceFrom(s: string, j: nat): (r: Option<nat>)
    requires j <= |s|
    ensures r.Some? ==> j <= r.value < |s| && (s[r.value] == '{' || s[r.value] == '}')
    ensures forall k :: j <= k < (if r.Some? then r.value else |s|) ==> s[k] != '{' && s[k] != '}'
    decreases |s| - j
  {
    if j == |s| then None
    else if s[j] == '{' || s[j] == '}' then Some(j)
    else BraceFrom(s, j + 1)
  }

  /** The placeholder `{w}` that `s` starts with, if any: an opening brace,
      then text without braces up to the first closing one. */
  function Placeholder(s: string): (r: Option<string>)
    ensures r.Some? ==> Word(r.value) && StartsWith(s, Tok(r.value))
    ensures r.None? ==> forall w :: Word(w) ==> !StartsWith(s, Tok(w))
  {
    if |s| == 0 || s[0] != '{' then
      assert forall w :: Word(w) ==> !StartsWith(s, Tok(w)) by {
        forall w | Word(w) && StartsWith(s, Tok(w))
          ensures false
        {
          StartsWithAt(s, Tok(w), 0);
        }
      }
      None
    else
      var close := BraceFrom(s, 1);
      PlaceholderAt(s, close);
      if close.Some? && s[close.value] == '}' && close.value > 1 then Some(s[1..close.value]) else None
  }

  lemma PlaceholderAt(s: string, close: Option<nat>)
    requires |s| > 0 && s[0] == '{' && close == BraceFrom(s, 1)
    ensures close.Some? && s[close.value] == '}' && close.value > 1 ==>
      Word(s[1..close.value]) && StartsWith(s, Tok(s[1..close.value]))
    ensures !(close.Some? && s[close.value] == '}' && close.value > 1) ==>
      forall w :: Word(w) ==> !StartsWith(s, Tok(w))
  {
    if close.Some? && s[close.value] == '}' && close.value > 1 {
      PlaceholderFound(s, close.value);
    } else {
      forall w | Word(w) && StartsWith(s, Tok(w))
        ensures false
      {
        PlaceholderClose(s, w);
      }
    }
  }

  lemma PlaceholderFound(s: string, k: nat)
    requires 1 < k < |s| && s[0] == '{' && s[k] == '}'
    requires forall i :: 1 <= i < k ==> s[i] != '{' && s[i] != '}'
    ensures Word(s[1..k]) && StartsWith(s, Tok(s[1..k]))
  {
    var w := s[1..k];
    assert forall i :: 0 <= i < |w| ==> w[i] == s[1 + i];
    assert s[..k + 1] == Tok(w);
  }

  /** Where `s` starts with `{w}`, the first brace after the opening one
      is the closing brace of `{w}`. */
  lemma PlaceholderClose(s: string, w: string)
    requires Word(w) && StartsWith(s, Tok(w))
    ensures BraceFrom(s, 1) == Some(|w| + 1) && s[|w| + 1] == '}'
  {
    var k := |w| + 1;
    StartsWithAt(s, Tok(w), k);
    TokAt(w, k);
    var close := BraceFrom(s, 1);
    if close.Some? && close.value < k {
      StartsWithAt(s, Tok(w), close.value);
      TokAt(w, close.value);
    }
  }

  lemma InterpTok(u: string, y: string, v: string -> string)
    requires Word(u)
    ensures Interp(Tok(u) + y, v) == v(u) + Interp(y, v)
  {
    var s := Tok(u) + y;
    StartsWithConcat(Tok(u), y);
    var w := Placeholder(s).value;
    TokPrefixUnique(s, u, w);
    assert s[|u| + 2..] == y;
  }

  lemma InterpPlain(s: string, v: string -> string)
    requires |s| > 0 && forall w :: Word(w) ==> !StartsWith(s, Tok(w))
    ensures Interp(s, v) == [s[0]] + Interp(s[1..], v)
  {
  }

  lemma SplitTok(s: string, u: string)
    requires StartsWith(s, Tok(u))
    ensures s == Tok(u) + s[|Tok(u)|..]
  {
    assert s[..|Tok(u)|] == Tok(u);
  }

  /** Valuations that agree on the placeholders a string contains render it
      alike. */
  lemma {:induction false} InterpAgree(s: string, v1: string -> string, v2: string -> string)
    requires forall w :: Word(w) && Contains(s, Tok(w)) ==> v1(w) == v2(w)
    ensures Interp(s, v1) == Interp(s, v2)
    decreases |s|
  {
    if |s| == 0 {
    } else if exists u :: Word(u) && StartsWith(s, Tok(u)) {
      var u :| Word(u) && StartsWith(s, Tok(u));
      var rest := s[|Tok(u)|..];
      SplitTok(s, u);
      InterpTok(u, rest, v1);
      InterpTok(u, rest, v2);
      forall w | Word(w) && Contains(rest, Tok(w))
        ensures v1(w) == v2(w)
      {
        ContainsSuffix(s, Tok(w), |Tok(u)|);
      }
      InterpAgree(rest, v1, v2);
    } else {
      InterpAgree(s[1..], v1, v2);
    }
  }

  /** Renaming placeholder `{a}` to `{b}` renders like the original in which
      `{a}` stands for what `{b}` stands for. */
  lemma {:induction false} InterpReplace(s: string, a: string, b: string, v: string -> string)
    requires Word(a) && Word(b)
    ensures Interp(Replace(s, Tok(a), Tok(b)), v)
         == Interp(s, (w: string) => if w == a then v(b) else v(w))
    decreases |s|
  {
    var v' := (w: string) => if w == a then v(b) else v(w);
    var out := Replace(s, Tok(a), Tok(b));
    if |s| == 0 {
    } else if StartsWith(s, Tok(a)) {
      var rest := s[|Tok(a)|..];
      assert out == Tok(b) + Replace(rest, Tok(a), Tok(b));
      InterpTok(b, Replace(rest, Tok(a), Tok(b)), v);
      SplitTok(s, a);
      InterpTok(a, rest, v');
      InterpReplace(rest, a, b, v);
    } else if exists u :: Word(u) && StartsWith(s, Tok(u)) {
      var u :| Word(u) && StartsWith(s, Tok(u));
      var rest := s[|Tok(u)|..];
      ReplaceSkipTok(s, a, Tok(b), u);
      InterpTok(u, Replace(rest, Tok(a), Tok(b)), v);
      SplitTok(s, u);
      InterpTok(u, rest, v');
      InterpReplace(rest, a, b, v);
    } else {
      var x := Replace(s[1..], Tok(a), Tok(b));
      assert out == [s[0]] + x;
      forall w | Word(w)
        ensures !StartsWith(out, Tok(w))
      {
        NotStartingReplace(s, a, b, w);
      }
      assert out[1..] == x;
      InterpPlain(out, v);
      InterpPlain(s, v');
      InterpReplace(s[1..], a, b, v);
    }
  }
}

=== FILE: results.dfy ===
/** Failure-compatible wrappers used throughout the model. A panic of the
    modelled code (an `unwrap` on `None`, a literal of the wrong kind, a
    typed lookup on a value of the other type) becomes a `Failure`. */
module Results {

  datatype Option<+T> = None | Some(value: T)

  datatype Result<+T, +E> = Success(value: T) | Failure(error: E) {

    predicate IsFailure() {
      Failure?
    }

    function PropagateFailure<U>(): Result<U, E>
      requires Failure?
    {
      Failure(error)
    }

    function Extract(): T
      requires Success?
    {
      value
    }
  }
}

=== FILE: sequences.dfy ===
/** Order-related facts about sequences shared by the model. */
module Sequences {
  /** `xs` is `ys` with some elements left out, order kept. */
  predicate SubsequenceOf<T(==)>(xs: seq<T>, ys: seq<T>)
    decreases |ys|
  {
    if |xs| == 0 then true
    else if |ys| == 0 then false
    else (xs[0] == ys[0] && SubsequenceOf(xs[1..], ys[1..])) || SubsequenceOf(xs, ys[1..])
  }

  lemma SkipHead<T>(xs: seq<T>, ys: seq<T>)
    requires |ys| > 0 && SubsequenceOf(xs, ys[1..])
    ensures SubsequenceOf(xs, ys)
  {
  }

  predicate Distinct<T(==)>(xs: seq<T>) {
    forall s, t :: 0 <= s < t < |xs| ==> xs[s] != xs[t]
  }

  lemma {:induction false} SubsequenceRefl<T>(xs: seq<T>)
    ensures SubsequenceOf(xs, xs)
  {
    if |xs| > 0 {
      SubsequenceRefl(xs[1..]);
    }
  }

  /** The first components of a sequence of pairs. */
  function Firsts<A, B>(ps: seq<(A, B)>): (xs: seq<A>)
    ensures |xs| == |ps| && forall k :: 0 <= k < |ps| ==> xs[k] == ps[k].0
  {
    if |ps| == 0 then [] else [ps[0].0] + Firsts(ps[1..])
  }

  // ---------------------------------------------------------------------
  // Token lists and the text they spell

  /** The text of a token list written one after the other. */
  function Concat(xs: seq<string>): string {
    if |xs| == 0 then "" else xs[0] + Concat(xs[1..])
  }

  /** The items written with `sep` between neighbours. */
  function Join(xs: seq<string>, sep: string): string {
    if |xs| == 0 then ""
    else if |xs| == 1 then xs[0]
    else xs[0] + sep + Join(xs[1..], sep)
  }

  lemma {:induction false} ConcatAppend(xs: seq<string>, ys: seq<string>)
    ensures Concat(xs + ys) == Concat(xs) + Concat(ys)
  {
    if |xs| > 0 {
      ConcatAppend(xs[1..], ys);
      assert (xs + ys)[0] == xs[0] && (xs + ys)[1..] == xs[1..] + ys;
      assert Concat(xs + ys) == xs[0] + Concat(xs[1..] + ys);
    } else {
      assert xs + ys == ys;
    }
  }

  lemma {:induction false} JoinSnoc(xs: seq<string>, x: string, sep: string)
    requires |xs| > 0
    ensures Join(xs + [x], sep) == Join(xs, sep) + sep + x
  {
    assert (xs + [x])[1..] == xs[1..] + [x];
    if |xs| > 1 {
      JoinSnoc(xs[1..], x, sep);
    }
  }
}

=== FILE: struct_error.dfy ===
/** The `#[error(...)]` macro on a struct (src/struct_error.rs): the
    struct is kept, gets `#[derive(Debug)]` and an empty
    `std::error::Error` implementation, and gets a `Display` implementation
    exactly when the macro's arguments carry a `message`. */
module StructError {
  import opened Results
  import opened Syntax
  import opened Parameters
  import opened Placeholders
  import opened FormatStrings
  import opened FieldPlaceholders
  import opened ImplDisplay

  /** What the macro emits for a struct. The derive and the `Error`
      implementation are emitted unconditionally, so only the struct and
      the `write!` call of the optional `Display` implementation vary. */
  datatype ErrorStruct = ErrorStruct(item: ItemStruct, display: Option<WriteCall>)

  /** `struct_error::implement`. Malformed arguments panic while they are
      parsed, a boolean `message` panics when it is read as a string. */
  function Implement(args: seq<NestedMeta>, item: ItemStruct): (r: Result<ErrorStruct, ParamError>)
    ensures FromAttributeArgs(args).Failure? ==> r == Failure(FromAttributeArgs(args).error)
    ensures FromAttributeArgs(args).Success? ==>
      var p := FromAttributeArgs(args).value;
      && (r.Failure? <==> HasParameter(p, MessageParameter) && p.values[MessageParameter].BooleanValue?)
      && (r.Success? ==> r.value.item == item)
      && (r.Success? ==> (r.value.display.None? <==> !HasParameter(p, MessageParameter)))
  {
    var params :- FromAttributeArgs(args);
    var display :- StructDisplay(item, params);
    Success(ErrorStruct(item, display))
  }

  /** A `message = "..."` argument, as the last one of that name, gives
      the struct the `Display` implementation built from that text. */
  lemma MessageArgument(args: seq<NestedMeta>, item: ItemStruct, k: int)
    requires FromAttributeArgs(args).Success?
    requires 0 <= k < |args| && LastWithName(args, k)
    requires EntryName(args[k]) == MessageParameter
    requires args[k].meta.NameValueMeta? && args[k].meta.lit.LitStr?
    ensures Implement(args, item) == Success(ErrorStruct(item, Some(StructWriteCall(args[k].meta.lit.text, item.fields))))
  {
    LookupAfterParse(args, k);
  }

  /** On a tuple struct whose message uses bare placeholders only (no
      brace escape, no `{}`, no format specification), the `write!` call
      is the one the source's textual loop builds: the message as the loop
      leaves it, and `self.i` for each field the loop passes. */
  lemma TupleMessageAsWritten(args: seq<NestedMeta>, item: ItemStruct, k: int)
    requires FromAttributeArgs(args).Success?
    requires 0 <= k < |args| && LastWithName(args, k)
    requires EntryName(args[k]) == MessageParameter
    requires args[k].meta.NameValueMeta? && args[k].meta.lit.LitStr?
    requires item.fields.Unnamed?
    requires Parse(args[k].meta.lit.text).Some? && Bare(Parse(args[k].meta.lit.text).value)
    ensures var loop := Renumber(args[k].meta.lit.text, |item.fields.types|);
      Implement(args, item) == Success(ErrorStruct(item, Some(WriteCall(loop.message, SelfIndices(loop.fields)))))
  {
    MessageArgument(args, item, k);
    StructWriteCallAgrees(args[k].meta.lit.text, item.fields.types);
  }

  /** Without any `message` argument the struct has no generated
      `Display` implementation. */
  lemma NoMessageArgument(args: seq<NestedMeta>, item: ItemStruct)
    requires FromAttributeArgs(args).Success?
    requires forall k :: 0 <= k < |args| ==> EntryName(args[k]) != MessageParameter
    ensures Implement(args, item) == Success(ErrorStruct(item, None))
  {
    AbsentAfterParse(args, MessageParameter);
  }

  /** The generated `Display` of a tuple struct, built with the renumbering
      on the holes (`TupleWriteCall`), prints what Rust would print for the
      message with position `i` standing for field `i`, although the holes
      were renumbered. */
  lemma TupleDisplayRenders(args: seq<NestedMeta>, item: ItemStruct, v: (string, Option<string>) -> string)
    requires Implement(args, item).Success? && item.fields.Unnamed?
    requires Implement(args, item).value.display.Some?
    ensures var call := Implement(args, item).value.display.value;
      exists message :: call == StructWriteCall(message, item.fields)
        && RenderFormat(call.format, PositionalValues(Indices(call.args), v)) == RenderFormat(message, v)
  {
    var p := FromAttributeArgs(args).value;
    var message := p.values[MessageParameter].s;
    StructWriteCallRenders(message, item.fields.types, v);
  }
}

=== FILE: syntax.dfy ===
/** The slice of Rust syntax the macro reads (declarations, attributes,
    attribute arguments) and the slice it writes (`write!` calls), as plain
    immutable values. Token streams are not modelled: an expression or a
    type the macro copies without looking inside is an opaque string. */
module Syntax {
  import opened Results

  /** A field type. A path keeps its segments, a reference its lifetime
      (`None` when elided) and its referent; every other type form is opaque. */
  datatype Ty =
    | Path(segments: seq<string>)
    | Ref(lifetime: Option<string>, elem: Ty)
    | OtherTy(text: string)

  datatype Field = Field(name: string, ty: Ty)

  /** The three shapes of a struct or of an enum variant. */
  datatype Fields =
    | Unit
    | Unnamed(types: seq<Ty>)
    | Named(fields: seq<Field>)

  function FieldCount(f: Fields): nat {
    match f
    case Unit => 0
    case Unnamed(ts) => |ts|
    case Named(fs) => |fs|
  }

  function FieldNames(fs: seq<Field>): (names: seq<string>)
    ensures |names| == |fs|
    ensures forall i :: 0 <= i < |fs| ==> names[i] == fs[i].name
  {
    if |fs| == 0 then [] else FieldNames(fs[..|fs| - 1]) + [fs[|fs| - 1].name]
  }

  /** Attribute argument literals. */
  datatype Lit =
    | LitStr(text: string)
    | LitBool(flag: bool)
    | LitInt(digits: string)
    | LitOther(token: string)

  /** `path`, `path = literal` and `path(...)` entries of an attribute list;
      a path is its `::`-separated segments. */
  datatype Meta =
    | PathMeta(path: seq<string>)
    | NameValueMeta(path: seq<string>, lit: Lit)
    | ListMeta(path: seq<string>, nested: seq<NestedMeta>)

  datatype NestedMeta = MetaItem(meta: Meta) | LitItem(lit: Lit)

  /** What an attribute parses to after its path: `#[path]`,
      `#[path(...)]` or `#[path = lit]`. */
  datatype AttrArgs =
    | NoArgs
    | ListArgs(nested: seq<NestedMeta>)
    | ValueArg(lit: Lit)

  datatype Attribute = Attribute(path: seq<string>, args: AttrArgs)

  datatype Variant = Variant(name: string, attrs: seq<Attribute>, fields: Fields)

  datatype GenericParam =
    | TypeParam(name: string)
    | LifetimeParam(name: string)
    | ConstParam(name: string)

  datatype ItemStruct = ItemStruct(name: string, generics: seq<GenericParam>, fields: Fields)

  datatype ItemEnum = ItemEnum(name: string, generics: seq<GenericParam>, variants: seq<Variant>)

  /** One argument of a generated `write!(f, <format>, <args>)` call. */
  datatype WriteArg =
    | Expression(code: string)   // `, <code>`: free-form expression text
    | SelfIndex(index: nat)      // `, self.<index>`
    | SelfField(name: string)    // `, <name> = self.<name>`
    | Binding(name: string)      // `, <name> = <name>`: a variable bound by a match pattern

  datatype WriteCall = WriteCall(format: string, args: seq<WriteArg>)
}

=== FILE: validator.dfy ===
/** The parameter validator (src/validator.rs): an error list that checks
    only append to. It looks at parameter names, never at their values,
    except for the `impl_from` flag of a variant. */
module Validator {
  import opened Results
  import opened Sequences
  import opened Parameters

  datatype ValidationError =
    | UnknownParameter(param: string)
    | UnnecessaryImplFrom(variantName: string)

  /** The names a struct's `#[error(...)]` may use. */
  const StructParameters: seq<string> := [MessageParameter]
  /** The names an enum's or a variant's `#[error(...)]` may use. */
  const EnumParameters: seq<string> := [ImplFromParameter, MessageParameter]

  datatype Validator = Validator(errors: seq<ValidationError>)

  /** `names` lists the keys of `p` once each: what iterating the names of
      a `HashMap` yields, in an order the program does not rely on. */
  predicate NameOrder(p: Parameters, names: seq<string>) {
    && Distinct(names)
    && (forall k :: 0 <= k < |names| ==> names[k] in p.values)
    && (forall name :: name in p.values ==> name in names)
  }

  /** One `UnknownParameter` per name outside `possible`, in the order the
      names come. */
  function UnknownParameters(names: seq<string>, possible: seq<string>): (errs: seq<ValidationError>)
    ensures forall e :: e in errs <==> e.UnknownParameter? && e.param in names && e.param !in possible
    ensures |errs| <= |names|
  {
    if |names| == 0 then []
    else
      var rest := UnknownParameters(names[1..], possible);
      if names[0] in possible then rest else [UnknownParameter(names[0])] + rest
  }

  /** No name is reported twice when the names are distinct. */
  lemma {:induction false} UnknownParametersDistinct(names: seq<string>, possible: seq<string>)
    requires Distinct(names)
    ensures Distinct(UnknownParameters(names, possible))
  {
    if |names| > 0 {
      var rest := UnknownParameters(names[1..], possible);
      UnknownParametersDistinct(names[1..], possible);
      if names[0] !in possible {
        var errs := [UnknownParameter(names[0])] + rest;
        assert names[0] !in names[1..];
        assert UnknownParameter(names[0]) !in rest;
        forall s, t | 0 <= s < t < |errs|
          ensures errs[s] != errs[t]
        {
          if s == 0 {
            assert errs[t] == rest[t - 1] && rest[t - 1] in rest;
          } else {
            assert errs[s] == rest[s - 1] && errs[t] == rest[t - 1];
          }
        }
      }
    }
  }

  /** `check_parameters`: one `UnknownParameter` is appended for every name
      outside the allow-list, none for allowed names, each name at most
      once, and the errors already recorded stay as they were. */
  function CheckParameters(v: Validator, p: Parameters, names: seq<string>, possible: seq<string>): (r: Validator)
    requires NameOrder(p, names)
    ensures |v.errors| <= |r.errors| && r.errors[..|v.errors|] == v.errors
    ensures forall e :: e in r.errors[|v.errors|..] <==>
      e.UnknownParameter? && e.param in p.values && e.param !in possible
    ensures Distinct(r.errors[|v.errors|..])
  {
    UnknownParametersDistinct(names, possible);
    var errs := UnknownParameters(names, possible);
    assert (v.errors + errs)[|v.errors|..] == errs;
    Validator(v.errors + errs)
  }

  /** `check_struct_parameters`: every name but `message` is unknown. */
  function CheckStructParameters(v: Validator, p: Parameters, names: seq<string>): (r: Validator)
    requires NameOrder(p, names)
    ensures |v.errors| <= |r.errors| && r.errors[..|v.errors|] == v.errors
    ensures forall name :: UnknownParameter(name) in r.errors[|v.errors|..] <==>
      name in p.values && name != "message"
    ensures forall e :: e in r.errors[|v.errors|..] ==> e.UnknownParameter?
  {
    CheckParameters(v, p, names, StructParameters)
  }

  /** `check_enum_parameters`: every name but `impl_from` and `message` is
      unknown. */
  function CheckEnumParameters(v: Validator, p: Parameters, names: seq<string>): (r: Validator)
    requires NameOrder(p, names)
    ensures |v.errors| <= |r.errors| && r.errors[..|v.errors|] == v.errors
    ensures forall name :: UnknownParameter(name) in r.errors[|v.errors|..] <==>
      name in p.values && name != "impl_from" && name != "message"
    ensures forall e :: e in r.errors[|v.errors|..] ==> e.UnknownParameter?
  {
    CheckParameters(v, p, names, EnumParameters)
  }

  /** `check_impl_from`: `UnnecessaryImplFrom` is appended exactly when the
      enum sets `impl_from` and so does the variant. The variant's flag is
      read only when the enum's is set, so only then can a string-valued
      `impl_from` make the lookup fail. */
  function CheckImplFrom(v: Validator, globalImplFrom: bool, variantParams: Parameters, variantName: string)
    : (r: Result<Validator, ParamError>)
    ensures r.Failure? <==> (globalImplFrom && HasParameter(variantParams, ImplFromParameter)
      && variantParams.values[ImplFromParameter].StringValue?)
    ensures r.Success? && r.value != v <==>
      globalImplFrom && BoolForName(variantParams, ImplFromParameter) == Success(true)
    ensures r.Success? && r.value != v ==> r.value.errors == v.errors + [UnnecessaryImplFrom(variantName)]
  {
    if !globalImplFrom then Success(v)
    else
      var flag :- BoolForName(variantParams, ImplFromParameter);
      if flag then
        assert |v.errors + [UnnecessaryImplFrom(variantName)]| != |v.errors|;
        Success(Validator(v.errors + [UnnecessaryImplFrom(variantName)]))
      else Success(v)
  }
}

=== FILE: variant_struct.dfy ===
/** Structs mirroring enum variants
    (src/impl_display_new/variant_struct_implementor.rs): a variant with
    fields gets a struct of the same name whose fields borrow the
    variant's fields for the lifetime `'a`, so that a message can address
    them as if they were struct fields. */
module VariantStruct {
  import opened Results
  import opened Sequences
  import opened Syntax

  /** The one lifetime the generated structs use, `'a`. */
  const Lifetime := "a"

  /** The panics of `get_type_ident`: a field type that is neither a path
      nor a reference to one, or a path without segments. */
  datatype TypePanic = EmptyPath | UnexpectedType

  /** `struct <name> <generics> { … }` or `struct <name> <generics>( … );`.
      `None` is no angle brackets at all; `Some(ts)` is `<'a, ts…>`. */
  datatype GeneratedStruct = GeneratedStruct(name: string, generics: Option<seq<string>>, fields: Fields)

  /** The type behind any number of references. */
  function Referent(ty: Ty): (t: Ty)
    ensures !t.Ref?
  {
    if ty.Ref? then Referent(ty.elem) else ty
  }

  /** `get_type_ident`: the last segment of the path behind the
      references. */
  function TypeIdent(ty: Ty): (r: Result<string, TypePanic>)
    ensures r.Success? <==> Referent(ty).Path? && |Referent(ty).segments| > 0
    ensures r.Success? ==> r.value == Referent(ty).segments[|Referent(ty).segments| - 1]
    ensures Referent(ty).OtherTy? ==> r == Failure(UnexpectedType)
  {
    match ty
    case Ref(_, elem) => TypeIdent(elem)
    case Path(segments) => if |segments| == 0 then Failure(EmptyPath) else Success(segments[|segments| - 1])
    case OtherTy(_) => Failure(UnexpectedType)
  }

  /** `get_enum_generics`: the enum's type parameters, in order; lifetime
      and const parameters are skipped. */
  function EnumGenerics(params: seq<GenericParam>): (names: seq<string>)
    ensures forall x :: x in names <==> TypeParam(x) in params
    ensures |names| <= |params|
  {
    if |params| == 0 then []
    else
      var prev := EnumGenerics(params[..|params| - 1]);
      var last := params[|params| - 1];
      assert params == params[..|params| - 1] + [last];
      if last.TypeParam? then prev + [last.name] else prev
  }

  /** The type a named field is copied with: a reference gets the
      lifetime `'a` in place of its own. */
  function BorrowedType(ty: Ty): (t: Ty)
    ensures TypeIdent(t) == TypeIdent(ty)
    ensures t.Ref? <==> ty.Ref?
  {
    if ty.Ref? then Ref(Some(Lifetime), ty.elem) else ty
  }

  /** A field of the generated struct: `name: &'a <borrowed type>`. */
  function NamedField(f: Field): Field {
    Field(f.name, Ref(Some(Lifetime), BorrowedType(f.ty)))
  }

  function NamedFields(fs: seq<Field>): (gs: seq<Field>)
    ensures |gs| == |fs|
  {
    seq(|fs|, i requires 0 <= i < |fs| => NamedField(fs[i]))
  }

  /** The type parameters of the struct for a named variant, as the
      source collects them: every field whose type names an enum type
      parameter adds that parameter, once per such field. */
  function StructGenericsAsWritten(enumGenerics: seq<string>, fields: seq<Field>): (r: Result<seq<string>, TypePanic>)
    ensures r.Success? <==> forall i :: 0 <= i < |fields| ==> TypeIdent(fields[i].ty).Success?
    ensures r.Success? ==> |r.value| <= |fields|
    ensures r.Success? ==> forall x :: x in r.value ==> x in enumGenerics
  {
    if |fields| == 0 then Success([])
    else
      var prev :- StructGenericsAsWritten(enumGenerics, fields[..|fields| - 1]);
      var id :- TypeIdent(fields[|fields| - 1].ty);
      Success(if id in enumGenerics then prev + [id] else prev)
  }

  /** The type parameters of the struct for a named variant, each enum
      type parameter a field uses listed once, in order of first use. */
  function StructGenerics(enumGenerics: seq<string>, fields: seq<Field>): (r: Result<seq<string>, TypePanic>)
    ensures r.Success? <==> forall i :: 0 <= i < |fields| ==> TypeIdent(fields[i].ty).Success?
    ensures r.Success? ==> Distinct(r.value)
    ensures r.Success? ==> forall x :: x in r.value <==>
      x in enumGenerics && exists i :: 0 <= i < |fields| && TypeIdent(fields[i].ty) == Success(x)
  {
    if |fields| == 0 then Success([])
    else
      var n := |fields| - 1;
      var prev :- StructGenerics(enumGenerics, fields[..n]);
      var id :- TypeIdent(fields[n].ty);
      assert forall i :: 0 <= i < n ==> fields[..n][i] == fields[i];
      Success(if id in enumGenerics && id !in prev then prev + [id] else prev)
  }

  /** Every enum type parameter two fields use is listed twice, which
      Rust rejects (`struct Foo<'a, T, T,>`): the variant `Foo { a: T, b: T }`
      of `enum E<T>` shows it. */
  lemma DuplicateGenerics()
    ensures var fields := [Field("a", Path(["T"])), Field("b", Path(["T"]))];
      && StructGenericsAsWritten(["T"], fields) == Success(["T", "T"])
      && !Distinct(StructGenericsAsWritten(["T"], fields).value)
      && StructGenerics(["T"], fields) == Success(["T"])
  {
    var fields := [Field("a", Path(["T"])), Field("b", Path(["T"]))];
    var first := [Field("a", Path(["T"]))];
    var one: seq<string> := ["T"];
    assert fields[..1] == first && first[..0] == [];
    assert TypeIdent(first[0].ty) == Success("T") && TypeIdent(fields[1].ty) == Success("T");
    assert "T" in one;
    assert StructGenericsAsWritten(one, first[..0]) == Success([]);
    assert StructGenericsAsWritten(one, first) == Success([] + one);
    assert StructGenerics(one, first[..0]) == Success([]);
    assert StructGenerics(one, first) == Success([] + one);
    assert [] + one == one;
    assert StructGenerics(one, fields) == Success(one);
    var all := StructGenericsAsWritten(one, fields).value;
    assert all == one + one == ["T", "T"];
    assert all[0] == all[1];
  }

  /** Where the source lists no parameter twice, the deduplicated list is
      the source's list. */
  lemma {:induction false} GenericsAgreeWhenDistinct(enumGenerics: seq<string>, fields: seq<Field>)
    requires StructGenericsAsWritten(enumGenerics, fields).Success?
    requires Distinct(StructGenericsAsWritten(enumGenerics, fields).value)
    ensures StructGenerics(enumGenerics, fields) == StructGenericsAsWritten(enumGenerics, fields)
  {
    if |fields| > 0 {
      var n := |fields| - 1;
      var prev := StructGenericsAsWritten(enumGenerics, fields[..n]).value;
      var id := TypeIdent(fields[n].ty).value;
      var all := StructGenericsAsWritten(enumGenerics, fields).value;
      assert all == if id in enumGenerics then prev + [id] else prev;
      assert Distinct(prev) by {
        assert forall k :: 0 <= k < |prev| ==> prev[k] == all[k];
      }
      GenericsAgreeWhenDistinct(enumGenerics, fields[..n]);
      if id in enumGenerics {
        assert all == prev + [id];
        assert forall k :: 0 <= k < |prev| ==> prev[k] == all[k] && all[k] != all[|prev|];
      }
    }
  }

  /** `implement_named`: no angle brackets without fields, `<'a, …>`
      with the type parameters the fields use otherwise. */
  function ImplementNamed(item: ItemEnum, name: string, fields: seq<Field>): (r: Result<GeneratedStruct, TypePanic>)
    ensures r.Success? <==> forall i :: 0 <= i < |fields| ==> TypeIdent(fields[i].ty).Success?
  {
    var generics :- StructGenerics(EnumGenerics(item.generics), fields);
    Success(GeneratedStruct(name, if |fields| == 0 then None else Some(generics), Named(NamedFields(fields))))
  }

  /** `implement_unnamed`: `<'a>` exactly when there is a field, and every
      field borrowed as it is written; no type parameter is carried over. */
  function ImplementUnnamed(name: string, types: seq<Ty>): GeneratedStruct {
    GeneratedStruct(
      name,
      if |types| == 0 then None else Some([]),
      Unnamed(seq(|types|, i requires 0 <= i < |types| => Ref(Some(Lifetime), types[i]))))
  }

  /** `VariantStructImplementor::implement`: a unit variant gets no
      struct; any other variant gets a struct of its name and shape whose
      fields borrow the variant's fields for `'a` and still name the same
      types, with `'a` declared exactly when there is a field. */
  function Implement(item: ItemEnum, variant: Variant): (r: Result<Option<GeneratedStruct>, TypePanic>)
    ensures variant.fields.Unit? <==> r == Success(None)
    ensures !variant.fields.Named? ==> r.Success?
    ensures variant.fields.Named? ==>
      (r.Success? <==> forall i :: 0 <= i < |variant.fields.fields| ==> TypeIdent(variant.fields.fields[i].ty).Success?)
    ensures r.Success? && r.value.Some? ==> Mirrors(r.value.value, variant)
    ensures r.Success? && r.value.Some? && variant.fields.Named? && FieldCount(variant.fields) > 0 ==>
      GenericsOfNamed(r.value.value, item, variant.fields.fields)
    ensures r.Success? && r.value.Some? && variant.fields.Unnamed? && FieldCount(variant.fields) > 0 ==>
      r.value.value.generics == Some([])
  {
    match variant.fields
    case Unit => Success(None)
    case Unnamed(types) => Success(Some(ImplementUnnamed(variant.name, types)))
    case Named(fields) =>
      var s :- ImplementNamed(item, variant.name, fields);
      Success(Some(s))
  }

  /** The generated struct mirrors the variant: same name and shape, the
      lifetime declared exactly when there are fields, and field by field
      the same name and a `&'a` borrow of a type naming what the variant's
      field names. */
  predicate Mirrors(s: GeneratedStruct, variant: Variant) {
    && s.name == variant.name
    && (s.generics.None? <==> FieldCount(variant.fields) == 0)
    && FieldCount(s.fields) == FieldCount(variant.fields)
    && (variant.fields.Named? <==> s.fields.Named?)
    && (variant.fields.Unnamed? <==> s.fields.Unnamed?)
    && (variant.fields.Named? ==> forall i :: 0 <= i < |s.fields.fields| ==>
          && s.fields.fields[i].name == variant.fields.fields[i].name
          && Borrows(s.fields.fields[i].ty, variant.fields.fields[i].ty))
    && (variant.fields.Unnamed? ==> forall i :: 0 <= i < |s.fields.types| ==>
          s.fields.types[i] == Ref(Some(Lifetime), variant.fields.types[i]))
  }

  /** `ty` is `&'a` of `original`, a reference in `original` re-borrowed
      for `'a`, and names the same type. */
  predicate Borrows(ty: Ty, original: Ty) {
    && ty.Ref? && ty.lifetime == Some(Lifetime)
    && (original.Ref? ==> ty.elem == Ref(Some(Lifetime), original.elem))
    && (!original.Ref? ==> ty.elem == original)
    && TypeIdent(ty) == TypeIdent(original)
  }

  /** The type parameters of a named variant's struct: exactly the enum's
      type parameters that some field names, each once. */
  ghost predicate GenericsOfNamed(s: GeneratedStruct, item: ItemEnum, fields: seq<Field>) {
    && s.generics.Some?
    && Distinct(s.generics.value)
    && forall x :: x in s.generics.value <==>
         TypeParam(x) in item.generics && exists i :: 0 <= i < |fields| && TypeIdent(fields[i].ty) == Success(x)
  }
}

=== FILE: write.dfy ===
/** The brace scanner of src/impl_display/write.rs: a message such as
    `"value: {e.get()}"` becomes the call `write!(f, "value: {}", e.get())`.

    The scanner walks the message once, keeping a depth counter. An opening
    brace outside any expression starts one; inside an expression, braces are
    part of the expression's code and nest; the closing brace at depth one
    ends it. Kept characters form the format string: text outside
    expressions plus the `{` and `}` that delimit each expression. */
module Write {
  import opened Results
  import opened Syntax

  // ---------------------------------------------------------------------
  // Reference definitions, independent of the scanner's state

  /** Brace depth after reading `m`: `{` goes one deeper, `}` one shallower,
      a `}` at depth zero is plain text. */
  function Depth(m: string): nat
  {
    if |m| == 0 then 0
    else
      var d := Depth(m[..|m| - 1]);
      var c := m[|m| - 1];
      if c == '{' then d + 1
      else if c == '}' && d > 0 then d - 1
      else d
  }

  /** The characters of `m` that stay in the format string: those read at
      depth zero, and the `}` that closes a top-level expression. */
  function Kept(m: string): string
  {
    if |m| == 0 then ""
    else
      var p := m[..|m| - 1];
      var c := m[|m| - 1];
      Kept(p) + (if Depth(p) == 0 || (c == '}' && Depth(p) == 1) then [c] else [])
  }

  /** The number of top-level brace spans that `m` closes: the `}` read at
      depth one. */
  function ClosedSpans(m: string): nat
  {
    if |m| == 0 then 0
    else
      var p := m[..|m| - 1];
      ClosedSpans(p) + (if m[|m| - 1] == '}' && Depth(p) == 1 then 1 else 0)
  }

  /** Brace count of an expression: opening minus closing braces. */
  function Net(e: string): int
  {
    if |e| == 0 then 0
    else Net(e[..|e| - 1]) + (if e[|e| - 1] == '{' then 1 else if e[|e| - 1] == '}' then -1 else 0)
  }

  /** No prefix of `e` closes more braces than it opened. */
  predicate NeverNegative(e: string) {
    forall k :: 0 <= k <= |e| ==> Net(e[..k]) >= 0
  }

  /** Every brace in `e` is matched: the code extracted for an expression. */
  predicate Balanced(e: string) {
    NeverNegative(e) && Net(e) == 0
  }

  predicate EndsWithSlot(f: string) {
    |f| >= 2 && f[|f| - 2] == '{' && f[|f| - 1] == '}'
  }

  /** The number of `{}` slots in a format string. */
  function Slots(f: string): nat
  {
    if |f| == 0 then 0
    else if EndsWithSlot(f) then Slots(f[..|f| - 2]) + 1
    else Slots(f[..|f| - 1])
  }

  /** The inverse of the scanner: puts the expressions back into the `{}`
      slots of a format string, the last expression into the last slot. */
  function Splice(f: string, es: seq<string>): string
  {
    if |f| == 0 then ""
    else if EndsWithSlot(f) && |es| > 0 then Splice(f[..|f| - 2], es[..|es| - 1]) + "{" + es[|es| - 1] + "}"
    else Splice(f[..|f| - 1], es) + [f[|f| - 1]]
  }

  // ---------------------------------------------------------------------
  // The scanner

  /** The scanner's fields: the expression being collected, if any, the
      finished expressions and the depth. */
  datatype Scanner = Scanner(current: Option<string>, expressions: seq<string>, depth: nat)
  {
    predicate Collecting() {
      current.Some?
    }

    /** Collecting exactly when inside braces; the partial expression holds
        `depth - 1` unmatched opening braces; finished ones are balanced. */
    predicate Valid() {
      (current.Some? <==> depth >= 1)
      && (current.Some? ==> NeverNegative(current.value) && Net(current.value) == depth - 1)
      && (forall k :: 0 <= k < |expressions| ==> Balanced(expressions[k]))
    }
  }

  /** `WriteImplementor::new()`. */
  const Initial: Scanner := Scanner(None, [], 0)

  function AppendToExpression(s: Scanner, c: char): Scanner {
    if s.current.Some? then s.(current := Some(s.current.value + [c])) else s
  }

  function StartCreation(s: Scanner): Scanner {
    s.(current := Some(""), depth := s.depth + 1)
  }

  function EndCreation(s: Scanner): Scanner
    requires s.current.Some? && s.depth >= 1
  {
    Scanner(None, s.expressions + [s.current.value], s.depth - 1)
  }

  /** `handle_opening_parenthesis`. */
  function HandleOpening(s: Scanner): (bool, Scanner) {
    if s.Collecting() then (false, AppendToExpression(s, '{').(depth := s.depth + 1))
    else (true, StartCreation(s))
  }

  /** `handle_closing_parenthesis`; `decrease_depth` never goes below zero
      in a valid state. */
  function HandleClosing(s: Scanner): (bool, Scanner)
    requires s.Valid()
  {
    if s.Collecting() then
      if s.depth == 1 then (true, EndCreation(s))
      else (false, AppendToExpression(s, '}').(depth := s.depth - 1))
    else (true, s)
  }

  /** The filter closure: whether `c` stays in the format string, and the
      scanner afterwards. */
  function Filter(s: Scanner, c: char): (r: (bool, Scanner))
    requires s.Valid()
    ensures r.1.Valid()
  {
    if s.Collecting() && !(c == '}' && s.depth == 1) then
      NetAppend(s.current.value, c);
      if c == '{' then HandleOpening(s)
      else if c == '}' then HandleClosing(s)
      else (false, AppendToExpression(s, c))
    else if c == '{' then HandleOpening(s)
    else if c == '}' then HandleClosing(s)
    else (true, s)
  }

  /** The format string kept so far and the scanner's state. */
  datatype Scanned = Scanned(format: string, scanner: Scanner)

  /** Putting the pieces back together gives the text read so far. Outside an
      expression the spliced format string is that text; inside one, the
      format string ends with the expression's `{` and the text is the
      spliced rest, the brace, and the partial expression. */
  predicate Reassembles(m: string, r: Scanned) {
    var f, s := r.format, r.scanner;
    if s.current.None? then
      Splice(f, s.expressions) == m && Slots(f) == |s.expressions| && (|f| == 0 || f[|f| - 1] != '{')
    else
      |f| > 0 && f[|f| - 1] == '{'
      && Splice(f[..|f| - 1], s.expressions) + "{" + s.current.value == m
      && Slots(f[..|f| - 1]) == |s.expressions|
  }

  /** The filter applied to one more character. */
  function Next(r: Scanned, c: char): Scanned
    requires r.scanner.Valid()
  {
    var step := Filter(r.scanner, c);
    Scanned(r.format + (if step.0 then [c] else []), step.1)
  }

  /** The scanner run over `m`, character by character. */
  function Scan(m: string): (r: Scanned)
    ensures r.scanner.Valid()
  {
    if |m| == 0 then Scanned("", Initial)
    else Next(Scan(m[..|m| - 1]), m[|m| - 1])
  }

  /** What the scanner computes, against the reference definitions: its
      depth is the brace depth, it keeps exactly the kept characters, it has
      one expression per closed span, and its pieces reassemble the text. */
  lemma {:induction false} ScanCorrect(m: string)
    ensures Scan(m).scanner.depth == Depth(m)
    ensures Scan(m).format == Kept(m)
    ensures |Scan(m).scanner.expressions| == ClosedSpans(m)
    ensures Reassembles(m, Scan(m))
  {
    if |m| > 0 {
      var p := m[..|m| - 1];
      ScanCorrect(p);
      ScanStep(m, Scan(p));
    }
  }

  lemma NetAppend(e: string, c: char)
    requires NeverNegative(e)
    requires Net(e) + (if c == '{' then 1 else if c == '}' then -1 else 0) >= 0
    ensures Net(e + [c]) == Net(e) + (if c == '{' then 1 else if c == '}' then -1 else 0)
    ensures NeverNegative(e + [c])
  {
    assert (e + [c])[..|e|] == e;
    forall k | 0 <= k <= |e| + 1
      ensures Net((e + [c])[..k]) >= 0
    {
      if k <= |e| {
        assert (e + [c])[..k] == e[..k];
      } else {
        assert (e + [c])[..k] == e + [c];
      }
    }
  }

  lemma SliceAppend(f: string, c: char)
    ensures (f + [c])[..|f|] == f
  {
  }

  /** One character of the filter keeps every invariant: `prev` is the
      state after all of `m` but its last character. */
  lemma ScanStep(m: string, prev: Scanned)
    requires |m| > 0
    requires prev.scanner.Valid() && prev.scanner.depth == Depth(m[..|m| - 1]) && prev.format == Kept(m[..|m| - 1])
    requires |prev.scanner.expressions| == ClosedSpans(m[..|m| - 1])
    requires Reassembles(m[..|m| - 1], prev)
    ensures var r := Next(prev, m[|m| - 1]);
      r.scanner.depth == Depth(m) && r.format == Kept(m)
      && |r.scanner.expressions| == ClosedSpans(m) && Reassembles(m, r)
  {
    var p, c := m[..|m| - 1], m[|m| - 1];
    assert m == p + [c];
    var r := Next(prev, c);
    if !prev.scanner.Collecting() {
      StepOutside(p, c, prev, r);
    } else if c == '}' && prev.scanner.depth == 1 {
      StepClose(p, prev, r);
    } else {
      StepInside(p, c, prev, r);
    }
  }

  lemma StepOutside(p: string, c: char, prev: Scanned, r: Scanned)
    requires prev.scanner.Valid() && !prev.scanner.Collecting() && Reassembles(p, prev)
    requires r == Next(prev, c)
    ensures r.format == prev.format + [c]
    ensures r.scanner.depth == (if c == '{' then 1 else 0) && |r.scanner.expressions| == |prev.scanner.expressions|
    ensures r.scanner.Valid() && Reassembles(p + [c], r)
  {
    var f, es := prev.format, prev.scanner.expressions;
    var f' := f + [c];
    SliceAppend(f, c);
    if c != '{' {
      assert !EndsWithSlot(f');
      assert Splice(f', es) == Splice(f, es) + [c];
    }
  }

  lemma StepClose(p: string, prev: Scanned, r: Scanned)
    requires prev.scanner.Valid() && prev.scanner.Collecting() && prev.scanner.depth == 1
    requires Reassembles(p, prev)
    requires r == Next(prev, '}')
    ensures r == Scanned(prev.format + "}", EndCreation(prev.scanner))
    ensures r.scanner.Valid() && Reassembles(p + "}", r)
  {
    var f, es, cur := prev.format, prev.scanner.expressions, prev.scanner.current.value;
    var g := f[..|f| - 1];
    assert f == g + "{";
    assert Balanced(cur);
    var f' := f + "}";
    assert f'[..|f'| - 2] == g;
    assert EndsWithSlot(f');
    assert (es + [cur])[..|es|] == es;
    assert Splice(f', es + [cur]) == Splice(g, es) + "{" + cur + "}";
  }

  lemma StepInside(p: string, c: char, prev: Scanned, r: Scanned)
    requires prev.scanner.Valid() && prev.scanner.Collecting() && !(c == '}' && prev.scanner.depth == 1)
    requires Reassembles(p, prev)
    requires r == Next(prev, c)
    ensures r.format == prev.format
    ensures r.scanner.depth == prev.scanner.depth + Delta(c) && r.scanner.expressions == prev.scanner.expressions
    ensures r.scanner.Valid() && Reassembles(p + [c], r)
  {
    var cur := prev.scanner.current.value;
    NetAppend(cur, c);
    assert r.scanner.current.value == cur + [c];
  }

  /** The list of code strings of `write!` arguments that are expressions. */
  function Codes(args: seq<WriteArg>): (codes: seq<string>)
    ensures |codes| == |args|
  {
    if |args| == 0 then []
    else Codes(args[..|args| - 1]) + [if args[|args| - 1].Expression? then args[|args| - 1].code else ""]
  }

  function AsExpressions(es: seq<string>): (args: seq<WriteArg>)
    ensures |args| == |es|
    ensures forall k :: 0 <= k < |es| ==> args[k] == Expression(es[k])
    ensures Codes(args) == es
  {
    if |es| == 0 then []
    else
      var init := AsExpressions(es[..|es| - 1]);
      assert (init + [Expression(es[|es| - 1])])[..|es| - 1] == init;
      assert es[..|es| - 1] + [es[|es| - 1]] == es;
      init + [Expression(es[|es| - 1])]
  }

  /** `WriteImplementor::implement`: the `write!` call for a message. Each
      top-level brace span becomes a `{}` slot and, in order, an expression
      argument with balanced braces; splicing the arguments back into the
      slots gives the message. An expression left open at the end is
      dropped: the format string ends with its `{`, and what follows it in
      the message is lost. */
  function Implement(m: string): (call: WriteCall)
    ensures call.format == Kept(m)
    ensures |call.args| == ClosedSpans(m)
    ensures forall k :: 0 <= k < |call.args| ==> call.args[k].Expression? && Balanced(call.args[k].code)
    ensures Depth(m) == 0 ==> Slots(call.format) == |call.args| && Splice(call.format, Codes(call.args)) == m
    ensures Depth(m) > 0 ==>
      |call.format| > 0 && call.format[|call.format| - 1] == '{'
      && var g := call.format[..|call.format| - 1];
         Slots(g) == |call.args| && Splice(g, Codes(call.args)) + "{" <= m
  {
    ScanCorrect(m);
    var r := Scan(m);
    WriteCall(r.format, AsExpressions(r.scanner.expressions))
  }

  /** A message without an opening brace is written as is, with no
      arguments. */
  lemma {:induction false} PlainMessage(m: string)
    requires forall k :: 0 <= k < |m| ==> m[k] != '{'
    ensures Depth(m) == 0 && Kept(m) == m
    ensures Implement(m) == WriteCall(m, [])
  {
    if |m| > 0 {
      var p := m[..|m| - 1];
      PlainMessage(p);
      assert p + [m[|m| - 1]] == m;
    }
    ScanCorrect(m);
    var r := Scan(m);
    assert r.scanner.current.None?;
    assert Splice(m, r.scanner.expressions) == m;
    if |r.scanner.expressions| > 0 {
      SlotsNeedBrace(m);
      assert false;
    }
  }

  lemma {:induction false} SlotsNeedBrace(f: string)
    requires forall k :: 0 <= k < |f| ==> f[k] != '{'
    ensures Slots(f) == 0
  {
    if |f| > 0 {
      SlotsNeedBrace(f[..|f| - 1]);
    }
  }

  // ---------------------------------------------------------------------
  // Reading a message piece by piece

  lemma {:induction false} NetConcat(x: string, y: string)
    ensures Net(x + y) == Net(x) + Net(y)
    decreases |y|
  {
    if |y| == 0 {
      assert x + y == x;
    } else {
      NetConcat(x, y[..|y| - 1]);
      assert (x + y)[..|x + y| - 1] == x + y[..|y| - 1];
    }
  }

  predicate NoBraces(t: string) {
    forall k :: 0 <= k < |t| ==> t[k] != '{' && t[k] != '}'
  }

  lemma {:induction false} NoBracesNet(t: string)
    requires NoBraces(t)
    ensures Net(t) == 0
  {
    if |t| > 0 {
      NoBracesNet(t[..|t| - 1]);
    }
  }

  lemma BalancedText(t: string)
    requires NoBraces(t)
    ensures Balanced(t)
  {
    forall k | 0 <= k <= |t|
      ensures Net(t[..k]) >= 0
    {
      NoBracesNet(t[..k]);
    }
    NoBracesNet(t);
  }

  lemma BalancedConcat(x: string, y: string)
    requires Balanced(x) && Balanced(y)
    ensures Balanced(x + y)
  {
    forall k | 0 <= k <= |x + y|
      ensures Net((x + y)[..k]) >= 0
    {
      if k <= |x| {
        assert (x + y)[..k] == x[..k];
      } else {
        assert (x + y)[..k] == x + y[..k - |x|];
        NetConcat(x, y[..k - |x|]);
      }
    }
    NetConcat(x, y);
  }

  /** A balanced text in braces is balanced. */
  lemma BalancedWrap(x: string)
    requires Balanced(x)
    ensures Balanced("{" + x + "}")
  {
    var w := "{" + x + "}";
    assert "{"[..0] == "" && "}"[..0] == "";
    assert Net("{") == 1 && Net("}") == -1;
    forall k | 0 <= k <= |w|
      ensures Net(w[..k]) >= 0
    {
      if k == 0 {
        assert w[..k] == "";
      } else if k <= |x| + 1 {
        assert w[..k] == "{" + x[..k - 1];
        NetConcat("{", x[..k - 1]);
      } else {
        assert w[..k] == w;
        NetConcat("{", x);
        NetConcat("{" + x, "}");
      }
    }
    NetConcat("{", x);
    NetConcat("{" + x, "}");
  }

  /** Outside an expression, text without opening braces is copied to the
      format string and leaves the scanner as it was; in particular a stray
      `}` is kept and changes nothing. */
  lemma {:induction false} ScanText(p: string, t: string)
    requires Scan(p).scanner.current.None?
    requires forall k :: 0 <= k < |t| ==> t[k] != '{'
    ensures Scan(p + t) == Scanned(Scan(p).format + t, Scan(p).scanner)
    decreases |t|
  {
    if |t| == 0 {
      assert p + t == p && Scan(p).format + t == Scan(p).format;
    } else {
      var t', c := t[..|t| - 1], t[|t| - 1];
      ScanText(p, t');
      ScanLast(p + t', c);
      ConcatLast(p, t);
      ConcatLast(Scan(p).format, t);
    }
  }

  /** Text without opening braces, read from the start, is all kept and
      leaves the scanner in its initial state. */
  lemma ScanPlain(t: string)
    requires forall k :: 0 <= k < |t| ==> t[k] != '{'
    ensures Scan(t) == Scanned(t, Initial)
  {
    assert "" + t == t;
    ScanText("", t);
  }

  /** Inside an expression, text that never brings the depth back to zero is
      appended to the expression and never reaches the format string. */
  lemma {:induction false} ScanInside(p: string, x: string)
    requires Scan(p).scanner.current.Some?
    requires StaysInside(Scan(p).scanner.depth, x)
    ensures var s := Scan(p).scanner;
      Scan(p + x) == Scanned(Scan(p).format, Scanner(Some(s.current.value + x), s.expressions, s.depth + Net(x)))
    decreases |x|
  {
    var s := Scan(p).scanner;
    if |x| == 0 {
      assert p + x == p && s.current.value + x == s.current.value;
    } else {
      var x', c := x[..|x| - 1], x[|x| - 1];
      var q, cur := p + x', s.current.value;
      StaysInsidePrefix(s.depth, x);
      ScanInside(p, x');
      var before := Scan(q);
      assert before == Scanned(Scan(p).format, Scanner(Some(cur + x'), s.expressions, s.depth + Net(x')));
      assert !(c == '}' && before.scanner.depth == 1);
      InsideStep(q, c);
      ConcatLast(p, x);
      ConcatLast(cur, x);
    }
  }

  /** The scanner run over one more character. */
  lemma ScanLast(q: string, c: char)
    ensures Scan(q + [c]) == Next(Scan(q), c)
  {
    assert (q + [c])[..|q|] == q;
  }

  lemma ConcatLast(a: string, x: string)
    requires |x| > 0
    ensures a + x[..|x| - 1] + [x[|x| - 1]] == a + x
  {
    assert x == x[..|x| - 1] + [x[|x| - 1]];
  }

  /** Starting at depth `d`, no prefix of `x` brings the depth below one. */
  predicate StaysInside(d: int, x: string) {
    forall k :: 0 <= k <= |x| ==> d + Net(x[..k]) >= 1
  }

  lemma StaysInsidePrefix(d: int, x: string)
    requires |x| > 0 && StaysInside(d, x)
    ensures StaysInside(d, x[..|x| - 1]) && d + Net(x) >= 1
    ensures Net(x) == Net(x[..|x| - 1]) + Delta(x[|x| - 1])
  {
    var x' := x[..|x| - 1];
    forall k | 0 <= k <= |x'|
      ensures d + Net(x'[..k]) >= 1
    {
      assert x'[..k] == x[..k];
    }
    assert x[..|x|] == x;
  }

  function Delta(c: char): int {
    if c == '{' then 1 else if c == '}' then -1 else 0
  }

  /** One character inside an expression that does not close it. */
  lemma InsideStep(q: string, c: char)
    requires Scan(q).scanner.current.Some?
    requires !(c == '}' && Scan(q).scanner.depth == 1)
    ensures var s := Scan(q).scanner;
      Scan(q + [c]) == Scanned(Scan(q).format, Scanner(Some(s.current.value + [c]), s.expressions, s.depth + Delta(c)))
  {
    assert (q + [c])[..|q|] == q;
  }

  /** A balanced expression in braces, met outside any expression, leaves
      `{}` in the format string and is appended to the expressions. */
  lemma ScanSpan(p: string, e: string)
    requires Scan(p).scanner.current.None?
    requires Balanced(e)
    ensures Scan(p + "{" + e + "}")
         == Scanned(Scan(p).format + "{}", Scanner(None, Scan(p).scanner.expressions + [e], 0))
  {
    var q := p + "{";
    assert q[..|q| - 1] == p;
    assert Scan(q) == Scanned(Scan(p).format + "{", Scanner(Some(""), Scan(p).scanner.expressions, 1));
    ScanInside(q, e);
    assert "" + e == e;
    var r := q + e + "}";
    assert r[..|r| - 1] == q + e;
    assert r == p + "{" + e + "}";
    assert Scan(p).format + "{" + "}" == Scan(p).format + "{}";
  }

  // ---------------------------------------------------------------------
  // The two messages of the source's unit tests

  lemma BalancedIfElse()
    ensures Balanced("if b {42} else {43}")
  {
    var w42, w43 := "{" + "42" + "}", "{" + "43" + "}";
    assert "if b " + w42 + " else " + w43 == "if b {42} else {43}";
    BalancedText("if b ");
    BalancedText("42");
    BalancedText(" else ");
    BalancedText("43");
    BalancedWrap("42");
    BalancedWrap("43");
    BalancedConcat("if b ", w42);
    BalancedConcat("if b " + w42, " else ");
    BalancedConcat("if b " + w42 + " else ", w43);
  }

  lemma ComplexStuffPrefix()
    ensures Scan("some complex stuff: {e.foo()}")
         == Scanned("some complex stuff: {}", Scanner(None, ["e.foo()"], 0))
  {
    var t1, e1 := "some complex stuff: ", "e.foo()";
    ComplexStuffPieces();
    ScanPlain(t1);
    BalancedText(e1);
    ScanSpan(t1, e1);
  }

  lemma ComplexStuffPieces()
    ensures "some complex stuff: " + "{" + "e.foo()" + "}" == "some complex stuff: {e.foo()}"
    ensures "some complex stuff: " + "{}" == "some complex stuff: {}"
    ensures [] + ["e.foo()"] == ["e.foo()"]
  {
  }

  lemma ComplexStuffMiddle()
    ensures Scan("some complex stuff: {e.foo()}, ")
         == Scanned("some complex stuff: {}, ", Scanner(None, ["e.foo()"], 0))
  {
    assert "some complex stuff: {e.foo()}" + ", " == "some complex stuff: {e.foo()}, ";
    assert "some complex stuff: {}" + ", " == "some complex stuff: {}, ";
    ComplexStuffPrefix();
    ScanText("some complex stuff: {e.foo()}", ", ");
  }

  lemma ComplexStuffScan()
    ensures Scan("some complex stuff: {e.foo()}, {if b {42} else {43}}")
         == Scanned("some complex stuff: {}, {}", Scanner(None, ["e.foo()", "if b {42} else {43}"], 0))
  {
    var p, e2 := "some complex stuff: {e.foo()}, ", "if b {42} else {43}";
    assert p + "{" + e2 + "}" == "some complex stuff: {e.foo()}, {if b {42} else {43}}";
    assert "some complex stuff: {}, " + "{}" == "some complex stuff: {}, {}";
    assert ["e.foo()"] + [e2] == ["e.foo()", e2];
    ComplexStuffMiddle();
    BalancedIfElse();
    ScanSpan(p, e2);
  }

  /** Expressions are taken in order and their text is kept verbatim,
      nested braces included. */
  lemma ComplexStuffExample()
    ensures Implement("some complex stuff: {e.foo()}, {if b {42} else {43}}")
         == WriteCall("some complex stuff: {}, {}", [Expression("e.foo()"), Expression("if b {42} else {43}")])
  {
    ComplexStuffScan();
  }

  lemma BlockBalanced()
    ensures Balanced("{let mut i = 0; i += 1; i}")
  {
    var b := "let mut i = 0; i += 1; i";
    assert "{" + b + "}" == "{let mut i = 0; i += 1; i}";
    BalancedText(b);
    BalancedWrap(b);
  }

  lemma BlockPrefix()
    ensures Scan("complex: ") == Scanned("complex: ", Initial)
  {
    ScanPlain("complex: ");
  }

  lemma BlockScan()
    ensures Scan("complex: {{let mut i = 0; i += 1; i}}")
         == Scanned("complex: {}", Scanner(None, ["{let mut i = 0; i += 1; i}"], 0))
  {
    assert "complex: " + "{" + "{let mut i = 0; i += 1; i}" + "}" == "complex: {{let mut i = 0; i += 1; i}}";
    assert "complex: " + "{}" == "complex: {}";
    BlockBalanced();
    BlockPrefix();
    ScanSpan("complex: ", "{let mut i = 0; i += 1; i}");
  }

  /** The outer braces delimit the expression, the inner ones belong to it:
      a block expression keeps its braces. */
  lemma BlockExpressionExample()
    ensures Implement("complex: {{let mut i = 0; i += 1; i}}")
         == WriteCall("complex: {}", [Expression("{let mut i = 0; i += 1; i}")])
  {
    BlockScan();
  }
}

=== FILE: write_revised.dfy ===
/** The revised implementor of src/impl_display_new/write_implementor.rs:
    the same brace scanner, with the message stored in the implementor by
    `new` and scanned by a loop over its characters. */
module WriteRevised {
  import opened Syntax
  import Write

  /** The implementor's fields: the message and the scanner state. */
  datatype WriteImplementor = WriteImplementor(message: string, scanner: Write.Scanner)

  /** `WriteImplementor::new(message)`: nothing scanned yet. */
  function New(message: string): WriteImplementor {
    WriteImplementor(message, Write.Initial)
  }

  /** `implement` on an implementor built by `new`: the scanner run over
      the stored message as a loop; it produces the same call as the
      scanner of src/impl_display/write.rs, and so inherits its guarantees
      (one `{}` slot per expression, balanced expressions, splicing them
      back gives the message). */
  method Implement(w: WriteImplementor) returns (call: WriteCall)
    requires w == New(w.message)
    ensures call == Write.Implement(w.message)
    ensures call.format == Write.Kept(w.message)
  {
    var m := w.message;
    var s := w.scanner;
    var format := "";
    var i := 0;
    while i < |m|
      invariant 0 <= i <= |m|
      invariant Write.Scan(m[..i]) == Write.Scanned(format, s)
    {
      var c := m[i];
      assert m[..i + 1] == m[..i] + [c];
      Write.ScanLast(m[..i], c);
      var step := Write.Filter(s, c);
      if step.0 {
        format := format + [c];
      }
      s := step.1;
      i := i + 1;
    }
    assert m[..|m|] == m;
    call := WriteCall(format, Write.AsExpressions(s.expressions));
  }
}
